=== FILE: README.md ===
# CSFileManager in Dafny

A model of the core of `CSFileManager`, a Swift file manager for Darwin systems built on
POSIX calls:

- item classification;
- directory creation;
- copy, move and removal;
- temporary files and the item-replacement directory;
- the directory enumerator;
- `replaceItem`, with its three strategies (`renamex_np(RENAME_SWAP)`, `exchangedata` and a
  manual sequence of moves) and the extended-attribute juggling of `copyMetadata`.

The filesystem is an immutable value. It maps paths (sequences of names) to nodes, and each
node holds a 16-bit `mode_t`, its data and its extended attributes. A separate map records
the mounted volumes.

System calls are pure functions returning `Result<FS, Errno>`. The library's operations
return an `Outcome`. An `Outcome` keeps the state reached so far when a later step fails,
because the library's composite operations are not atomic.

Modules:

| file | module | what it holds |
|---|---|---|
| `wrappers.dfy` | `Wrappers` | `Option`, `Result` |
| `filetypes.dfy` | `FileTypes` | `mode_t` format bits and `FileType(permissionsMode:)` |
| `filesystem.dfy` | `FileSystem` | the state, subtree surgery (prune, move, swap) and its well-formedness lemmas, the system calls and the extended-attribute calls |
| `items.dfy` | `Items` | `typeOfItem`, `itemIsReachable`, `createDirectory`, `removeItem`, `copyItem`, `moveItem` |
| `metadata.dfy` | `Metadata` | `copyMetadata`, as written and corrected |
| `replace.dfy` | `Replace` | options, strategy choice, the three strategies, their promised end states and the dispatcher |
| `temppaths.dfy` | `TempPaths` | string paths, `TMPDIR`, temporary-file templates and `mkstemps`, the item-replacement directory |
| `enumerator.dfy` | `Enumerator` | `POSIXDirectoryEnumerator` and `contentsOfDirectory` |

The whole-subtree replacement strategies are checked against one promised end state,
`Replace.Planned`:

- the original path holds the new item's subtree;
- the new item carries the new attributes, or a merge with the original's;
- the new item's path holds the original's subtree when the backup is kept, and nothing
  otherwise;
- nothing else changes.

The `exchangedata` strategy has its own end state, `Replace.PlannedExchange`, because it
trades data only. `Replace.StrategiesAgree` proves that the two end states look the same to
a reader of data and attributes, for two regular files whose attributes do not conflict.

All paths in the table below are relative to the repository root. "CSFileManager.swift"
stands for `Sources/CSFileManager/CSFileManager.swift`.

## Model

| member | source | states |
|---|---|---|
| FileTypes.FromMode | Sources/CSFileManager/CSFileManager.swift:22-45 | the type is decoded from `mode & S_IFMT` alone; each of the eight Darwin format codes gives its own type; any other code gives no type |
| FileTypes.FromModeDependsOnlyOnFormat | Sources/CSFileManager/CSFileManager.swift:23 | two modes with the same format bits decode to the same type, so permission bits never matter |
| FileTypes.FormatBitsInjective | Sources/CSFileManager/CSFileManager.swift:24-40 | every format code lies inside the `S_IFMT` mask, and no two types share a code |
| FileTypes.FromModeOfFormat | Sources/CSFileManager/CSFileManager.swift:22-45 | decoding inverts the format code for any permission bits: a mode built from type `t` decodes to `t` |
| Replace.OptionsOf | Sources/CSFileManager/CSFileManager.swift:48-54 | the option set built from two flags contains exactly those members (raw values 1 and 2), with no other bits |
| Replace.OptionsRoundTrip | Sources/CSFileManager/CSFileManager.swift:48-54 | rebuilding an option set from its two members gives back its raw value, restricted to the two defined bits |
| TempPaths.TemporaryDirectoryStringPath | Sources/CSFileManager/CSFileManager.swift:76-84 | the value of `TMPDIR` whenever the variable is set; `/tmp` only when it is unset |
| TempPaths.EmptyTmpdirKept | Sources/CSFileManager/CSFileManager.swift:77-83 | a set but empty `TMPDIR` stays empty; it is not replaced by `/tmp` |
| TempPaths.TemporaryDirectory | Sources/CSFileManager/CSFileManager.swift:72-74 | the temporary directory as a path has only valid, non-empty, slash-free components |
| TempPaths.Components | Sources/CSFileManager/CSFileManager.swift:73 | parsing a path string yields only non-empty, slash-free components |
| TempPaths.ComponentsOfPathString | Sources/CSFileManager/CSFileManager.swift:73 | parsing inverts printing: a path of valid components survives the trip through its string |
| TempPaths.DefaultTemplateShape | Sources/CSFileManager/CSFileManager.swift:97 | the default template is 32 characters, all `X` |
| TempPaths.WithTrailingSlash | Sources/CSFileManager/CSFileManager.swift:135-137 | the result ends in `/` and starts with the directory; it equals the directory exactly when the directory already ends in `/`, and otherwise adds one `/` |
| TempPaths.WithTrailingSlashIdempotent | Sources/CSFileManager/CSFileManager.swift:135-137 | adding the trailing slash twice gives the same result as adding it once |
| TempPaths.TemplatePath | Sources/CSFileManager/CSFileManager.swift:133-139 | the template path is the directory (the temporary directory by default) with a trailing slash, followed by the template (the default template when none is given) |
| TempPaths.XRunStart | Sources/CSFileManager/CSFileManager.swift:241 | the run of `X`s that `mkstemps` replaces is maximal: all `X`s, with no `X` just before it |
| TempPaths.Filled | Sources/CSFileManager/CSFileManager.swift:241-243 | the name tried keeps the length of the template; the run of `X`s before the suffix is replaced by the random characters; every other character is kept |
| TempPaths.FillTemplate | Sources/CSFileManager/CSFileManager.swift:241-243 | the backwards replacement loop over the `X`s computes exactly `Filled` |
| TempPaths.FilledKeepsSuffix | Sources/CSFileManager/CSFileManager.swift:238-241 | the suffix comes through the filling unchanged, and so does the template before its run of `X`s |
| TempPaths.CreateTemporaryFile | Sources/CSFileManager/CSFileManager.swift:222-251 | on success, exactly one new empty owner-only regular file exists at the filled-in name of template plus suffix, and that name is returned; on failure, the error is the `mkstemp` errno |
| TempPaths.ItemReplacementDirectory | Sources/CSFileManager/CSFileManager.swift:186-201 | the directory is named by the fixed prefix and a UUID; it sits beside the destination when both volumes report different UUIDs, and inside the temporary directory otherwise |
| TempPaths.MissingDestinationUsesTemporaryDirectory | Sources/CSFileManager/CSFileManager.swift:193-200 | a missing destination, or a failed volume query on either path, puts the directory inside the temporary directory |
| TempPaths.CreateItemReplacementDirectory | Sources/CSFileManager/CSFileManager.swift:162-168 | returns the chosen path; on success a directory exists there; mounts are untouched |
| TempPaths.CreateItemReplacementDirectoryAddsOne | Sources/CSFileManager/CSFileManager.swift:162-168 | with a fresh name and an existing parent, the only change is one new empty directory with the requested mode |
| TempPaths.CreateItemReplacementDirectoryMakesParents | Sources/CSFileManager/CSFileManager.swift:162-168 | when prefixes are missing, every missing prefix is created as a directory with the requested mode, and nothing else changes |
| FileSystem.LookupBelowNonDir | Sources/CSFileManager/CSFileManager.swift:314 | resolving a path that runs through a regular file, a link or any other non-directory fails with `ENOTDIR`, never `ENOENT` |
| FileSystem.Mkdir | Sources/CSFileManager/CSFileManager.swift:346-354 | `mkdir` succeeds exactly when the path is new and its parent is a directory, and then adds one directory with the given mode; the root itself gives `EISDIR`, as every create, remove or rename of `/` does on Darwin; any other existing path gives `EEXIST`; otherwise the path's lookup error: `ENOENT` below a directory, `ENOTDIR` below a non-directory |
| Items.TypeOfItem | Sources/CSFileManager/CSFileManager.swift:313-322 | succeeds exactly when the item exists with a known format, and returns the type of its own mode (links are not followed); a missing item gives the lookup error at the path (`ENOENT`, or `ENOTDIR` below a non-directory), an unknown format `EFTYPE` at the path |
| Items.TypeOfOpenItem | Sources/CSFileManager/CSFileManager.swift:302-311 | an open descriptor's type is decoded from its mode, or `EFTYPE` with no path |
| FileSystem.Unlink | Sources/CSFileManager/CSFileManager.swift:550 | `unlink` succeeds exactly on an existing non-directory other than the root and removes just that path; the root gives `EISDIR`, any other directory `EPERM` |
| Items.ItemIsReachable | Sources/CSFileManager/CSFileManager.swift:254-265 | `true` exactly when the item exists with a known type; `false` exactly when `lstat` answers `ENOENT`; a missing item whose path runs through a non-directory throws `ENOTDIR`, and an unknown format throws `EFTYPE` |
| Items.ReachabilityBelowNonDirectory | Sources/CSFileManager/CSFileManager.swift:254-265 | any path strictly below a non-directory is neither reachable nor unreachable: `itemIsReachable` throws `ENOTDIR` at it |
| Items.CreateDirectory | Sources/CSFileManager/CSFileManager.swift:342-371 | the root gives `EISDIR` and any other existing path `EEXIST`, with no change; a path below a non-directory gives `ENOTDIR` at once, recursive or not; a missing parent gives `ENOENT` unless `recursively`; no node is ever removed; on success a directory exists at the path |
| Items.Deepest | Sources/CSFileManager/CSFileManager.swift:356-364 | the longest existing prefix, at which the recursive creation stops climbing |
| Items.NewDirs | Sources/CSFileManager/CSFileManager.swift:364-365 | the recursive creation adds every prefix longer than the deepest existing one, each a directory with the given mode, and nothing else |
| Items.CreateLeaf | Sources/CSFileManager/CSFileManager.swift:352-354 | `mkdir` into an existing directory adds exactly the new directory |
| Items.LookupErrorAtDeepest | Sources/CSFileManager/CSFileManager.swift:355-356 | the `mkdir` of an absent path fails with `ENOENT` exactly when its deepest existing prefix is a directory, and with `ENOTDIR` otherwise; only `ENOENT` lets the recursion climb |
| Items.CreateDirectoryRecursively | Sources/CSFileManager/CSFileManager.swift:355-367 | recursive creation of an absent path adds exactly the missing prefixes when the deepest existing prefix is a directory; otherwise the first `mkdir` fails with `ENOTDIR`, which is thrown at the requested path with no change |
| Items.RemovingLastComponent | Sources/CSFileManager/CSFileManager.swift:359 | dropping the last component keeps absoluteness, and leaves a path without components (`/` or the empty string) unchanged; it also gives the parent directory of `getItemReplacementDirectory` (line 197) |
| Items.MkdirAt | Sources/CSFileManager/CSFileManager.swift:346-354 | `mkdir` of the empty relative path fails with `ENOENT`; on an absolute path it is `mkdir` on its components |
| Items.CreateDirectoryAtAsWritten | Sources/CSFileManager/CSFileManager.swift:342-371 | the routine as written on a `FilePath`, with the recursion bounded: whenever it returns it leaves mounts alone, and a success leaves a directory at the resolved path |
| Items.EmptyPathNeverReturns | Sources/CSFileManager/CSFileManager.swift:355-365 | as written, `createDirectory(at: "", recursively: true)` exhausts every bound on its recursion |
| Items.OrphanedNameNeverReturns | Sources/CSFileManager/CSFileManager.swift:355-365 | as written, a one-component relative path whose working directory is gone exhausts every bound as well |
| Items.CreateDirectoryAt | Sources/CSFileManager/CSFileManager.swift:342-371 | corrected: the recursion stops when no component is left to remove; the empty relative path fails with `ENOENT`; a success leaves a directory at the resolved path |
| Items.CreateDirectoryAtAbsolute | Sources/CSFileManager/CSFileManager.swift:342-371 | on an absolute path the corrected routine equals `createDirectory` on component paths, so every property of `Items.CreateDirectory` carries over |
| Items.AsWrittenAgreesWhenItReturns | Sources/CSFileManager/CSFileManager.swift:342-371 | whenever the routine as written returns, its result is that of the corrected routine |
| Items.AbsolutePathReturns | Sources/CSFileManager/CSFileManager.swift:355-365 | on an absolute path the routine as written returns once the bound exceeds the number of components, because `mkdir("/")` gives `EISDIR`, never `ENOENT` |
| Items.RemoveItem | Sources/CSFileManager/CSFileManager.swift:494-513 | whatever happens, only nodes at or below the path are removed, and nothing is added or changed |
| Items.RemoveChildren | Sources/CSFileManager/CSFileManager.swift:497-501 | the loop over a directory's entries removes only nodes inside that directory, and keeps the directory itself |
| Items.RemoveItemPrunes | Sources/CSFileManager/CSFileManager.swift:494-513 | a recursive remove of a well-formed subtree of known types removes exactly that subtree |
| Items.RemoveChildrenPrunes | Sources/CSFileManager/CSFileManager.swift:497-501 | the loop removes exactly the subtrees of the entries it visits |
| Items.RemoveNonEmptyDirectory | Sources/CSFileManager/CSFileManager.swift:549-551 | without `recursively`, `rmdir` of a non-empty directory gives `ENOTEMPTY` and changes nothing |
| Items.RemoveNonDirectory | Sources/CSFileManager/CSFileManager.swift:549-551 | a non-directory is unlinked whatever the flag |
| Items.CopyItem | Sources/CSFileManager/CSFileManager.swift:442-447 | success exactly when `copyfile` succeeds; a copy of the source subtree is then placed at the destination; a failure carries the destination path and changes nothing |
| Items.MoveItem | Sources/CSFileManager/CSFileManager.swift:482-491 | a successful `rename` is the whole effect; any `rename` error other than `EXDEV` is thrown at the destination path, with no change |
| Items.MoveItemActsAsRename | Sources/CSFileManager/CSFileManager.swift:482-491 | onto a free place, moving a subtree of known types ends as a `rename` would, whether or not the devices match (`EXDEV` means copy, then remove) |
| FileSystem.Rename | Sources/CSFileManager/CSFileManager.swift:483-484 | a successful `rename` moves the source subtree onto the target; `EXDEV` is answered only for two different devices |
| FileSystem.RenameSwap | Sources/CSFileManager/CSFileManager.swift:657-659 | `renamex_np(RENAME_SWAP)` succeeds exactly when both items exist, neither is the root, neither lies inside the other, and they share a device; it then trades the two subtrees; the root on either side gives `EISDIR`, a nested pair `EINVAL` |
| FileSystem.ExchangeData | Sources/CSFileManager/CSFileManager.swift:672-674 | `exchangedata` succeeds exactly for two distinct regular files on one device; it then trades their data and leaves modes and attributes in place |
| FileSystem.MovePreservesWF | Sources/CSFileManager/CSFileManager.swift:483 | moving a subtree onto a free place inside an existing directory keeps the tree well-formed |
| FileSystem.SwapPreservesWF | Sources/CSFileManager/CSFileManager.swift:657-659 | swapping two disjoint subtrees keeps the tree well-formed |
| FileSystem.PrunePreservesWF | Sources/CSFileManager/CSFileManager.swift:494-513 | removing any subtree but the root keeps the tree well-formed |
| FileSystem.GetMove | Sources/CSFileManager/CSFileManager.swift:483 | after a move, the source subtree is gone, the destination subtree reads the source's nodes, and every other path is unchanged |
| FileSystem.GetSwap | Sources/CSFileManager/CSFileManager.swift:657-659 | after a swap, each subtree reads the other's nodes, and every other path is unchanged |
| Metadata.MergedAttrs | Sources/CSFileManager/CSFileManager.swift:790-794 | writing the union of both lists onto the destination leaves every key of both, each with a value one side gave it; this is the plain union when no shared key conflicts |
| Metadata.MergeOfAgreeing | Sources/CSFileManager/CSFileManager.swift:790 | without conflicting keys, the only possible merge is the union of the two maps |
| Metadata.UpsertAttrSet | Sources/CSFileManager/CSFileManager.swift:794 | writing a full attribute list over a node overlays it: listed keys take the listed values, and the other keys stay |
| Metadata.CopyMetadataAsWritten | Sources/CSFileManager/CSFileManager.swift:756-806 | the routine as written succeeds exactly when both items exist; mounts are untouched |
| Metadata.CopyMetadata | Sources/CSFileManager/CSFileManager.swift:756-806 | the corrected routine succeeds exactly when both items exist; mounts are untouched |
| Metadata.CopyMetadataUsing | Sources/CSFileManager/CSFileManager.swift:781-782 | a missing source fails with its lookup error (`ENOENT`, or `ENOTDIR` below a non-directory) at the source path |
| Metadata.CopyMetadataMerges | Sources/CSFileManager/CSFileManager.swift:784-794 | without `swap`, only the destination changes, and it gets a merge of both attribute sets |
| Metadata.CopyMetadataSwaps | Sources/CSFileManager/CSFileManager.swift:786-805 | with `swap`, the destination gets the source's attributes overlaid on its own; with `preserveFrom`, the source is left with the removal rule's backup; nothing else changes |
| Metadata.KeysToRemoveOfLists | Sources/CSFileManager/CSFileManager.swift:801-803 | the removed keys, in map terms: as written, every source key whose element the destination lacks; corrected, every source key the destination lacks |
| Metadata.BackupExactIffAgree | Sources/CSFileManager/CSFileManager.swift:801-803 | removing whole elements gives back the destination's attributes exactly when no shared key conflicts |
| Metadata.BackupAfterRemoval | Sources/CSFileManager/CSFileManager.swift:796-804 | write-back followed by removal leaves the rule's backup on the source |
| Metadata.WriteBackLeavesBackup | Sources/CSFileManager/CSFileManager.swift:796-805 | the preserving half of a swap succeeds and leaves exactly the backup on the source |
| Metadata.WriteBack | Sources/CSFileManager/CSFileManager.swift:796-805 | the preserving half of a swap never fails, and leaves mounts untouched |
| Metadata.WriteBackWrites | Sources/CSFileManager/CSFileManager.swift:797-799 | the write-back overlays the old destination list on the source, and is skipped when that list is empty |
| Metadata.CopyMetadataSwapRestoresBackup | Sources/CSFileManager/CSFileManager.swift:786-805 | corrected: a preserving swap leaves the source with exactly the destination's former attributes, and the destination with its own overlaid by the source's |
| Metadata.BackupLosesConflictingKey | Sources/CSFileManager/CSFileManager.swift:801-803 | as written: when both sides hold key `k` with different data, the source ends with no attributes at all, although the destination had `k` |
| Replace.ChooseStrategy | Sources/CSFileManager/CSFileManager.swift:629-644 | rename-swap exactly when both UUIDs are known and equal and the original's volume reports capabilities including rename-swap; `exchangedata` exactly when the same holds with exchange but without rename-swap; the manual strategy otherwise |
| Replace.NativeStrategyOnOneDevice | Sources/CSFileManager/CSFileManager.swift:629-641 | when volume UUIDs identify devices, a native strategy is only chosen for two items on one device |
| Replace.ScratchPath | Sources/CSFileManager/CSFileManager.swift:728-744 | the scratch name `<new>.swap.<uuid>` sits in the new item's directory and differs from the new item |
| Replace.ReplaceItem | Sources/CSFileManager/CSFileManager.swift:554-560 | a missing original fails with its lookup error at the original path; a missing new item fails with its lookup error at the new path; nothing changes in either case |
| Replace.ReplacedAttrs | Sources/CSFileManager/CSFileManager.swift:653-655 | the replacing item keeps its own attributes with `usingNewMetadataOnly`, and otherwise gets a merge with the original's |
| Replace.PlannedView | Sources/CSFileManager/CSFileManager.swift:647-664 | the promised state, path by path: the original path holds the new subtree with the replaced attributes at its root; the new path holds the original subtree exactly when the backup is kept; all else is unchanged |
| Replace.PrepareStep | Sources/CSFileManager/CSFileManager.swift:653-655 | the metadata step changes only the new item's attributes and keeps the tree well-formed |
| Replace.RenameSwapReplace | Sources/CSFileManager/CSFileManager.swift:647-664 | `renameSwap` leaves mounts alone, and fails with no change when either item is missing |
| Replace.RenameSwapReplaceEnds | Sources/CSFileManager/CSFileManager.swift:647-664 | on one device, `renameSwap` ends in the promised state for every option set |
| Replace.RemoveSwappedBackup | Sources/CSFileManager/CSFileManager.swift:661-663 | after the swap, removing the backup at the new path amounts to a plain move of the new item onto the original |
| Replace.SwapThenPrune | Sources/CSFileManager/CSFileManager.swift:657-663 | a swap followed by pruning the new path equals moving the new item onto the original |
| Replace.ScratchApart | Sources/CSFileManager/CSFileManager.swift:741-747 | a free scratch path is apart from both items, and its parent is an existing directory |
| Replace.ManualFirstMoves | Sources/CSFileManager/CSFileManager.swift:746-747 | parking the original at the scratch path and then moving the new item onto the original both succeed as renames, and keep the tree well-formed |
| Replace.ManualKeptEnd | Sources/CSFileManager/CSFileManager.swift:746-750 | the three moves of the kept-backup branch amount to a swap of the two items |
| Replace.ManualRemovedEnd | Sources/CSFileManager/CSFileManager.swift:746-752 | two moves, then removal of the scratch path, amount to moving the new item onto the original |
| Replace.ManualReplace | Sources/CSFileManager/CSFileManager.swift:718-754 | `manualReplaceItem` leaves mounts alone, and fails with no change when the original is missing |
| Replace.ManualReplaceEnds | Sources/CSFileManager/CSFileManager.swift:718-754 | with a free scratch name, `manualReplaceItem` ends in the same promised state as `renameSwap`, for every option set |
| Replace.ExchangedAttrs | Sources/CSFileManager/CSFileManager.swift:676-711 | after `exchangeFiles`, the original path carries the new item's attributes alone with `usingNewMetadataOnly`, and otherwise the keys of both with the new values winning |
| Replace.ShuffleThroughTemporary | Sources/CSFileManager/CSFileManager.swift:685-707 | the three `fcopyfile` calls through a fresh temporary file trade the two files' attributes, and the temporary file is gone afterwards |
| Replace.KeepNewMetadataOnly | Sources/CSFileManager/CSFileManager.swift:676-707 | the `usingNewMetadataOnly` step succeeds only for two existing non-directories; otherwise it fails with no change and an error without a path, as `open` does |
| Replace.NewMetadataOnlyStep | Sources/CSFileManager/CSFileManager.swift:676-707 | the `usingNewMetadataOnly` step gives the original the new attributes, and keeps the original's on the new file when the backup is kept |
| Replace.ExchangeReplace | Sources/CSFileManager/CSFileManager.swift:666-716 | `exchangeFiles` succeeds only for two distinct regular files on one device; otherwise it fails at the original path with no change |
| Replace.ExchangeBackup | Sources/CSFileManager/CSFileManager.swift:676-711 | the backup's attributes are always a part of the original's: all of them with `usingNewMetadataOnly` or the corrected removal rule |
| Replace.ExchangeReplaceEnds | Sources/CSFileManager/CSFileManager.swift:666-716 | for either removal rule, two regular files on one device end in the exchanged state: data traded, attributes as `ExchangedAttrs`, the backup kept with the rule's `ExchangeBackup` or unlinked |
| Replace.ExchangeRejectsDirectories | Sources/CSFileManager/CSFileManager.swift:672-674 | a directory on either side makes `exchangeFiles` fail with `EINVAL` at the original path, with no change |
| Replace.PlannedExchangeView | Sources/CSFileManager/CSFileManager.swift:666-716 | what a reader sees after `exchangeFiles`, path by path, for either removal rule: the original path has the new data with `ExchangedAttrs`; the new path, when the backup is kept, has the original data with the rule's `ExchangeBackup`, and otherwise nothing; all else is unchanged |
| Replace.ExchangeBackupExactIffAgree | Sources/CSFileManager/CSFileManager.swift:708-711 | as written, the kept backup of a merging `exchangeFiles` has exactly the original's attributes if and only if no shared key conflicts, and lacks every conflicting key; with the corrected rule it always has them |
| Replace.BackupAgrees | Sources/CSFileManager/CSFileManager.swift:708-711 | when no shared key conflicts, or only the new metadata is used, both removal rules leave the original's attributes as the backup |
| Replace.PlannedRegularView | Sources/CSFileManager/CSFileManager.swift:647-664 | what a reader sees after a whole-subtree strategy on two regular files, path by path |
| Replace.AttrsAgree | Sources/CSFileManager/CSFileManager.swift:653-655 | when shared keys do not conflict (or only new metadata is used), the merge and the exchange give the same attributes |
| Replace.StrategiesAgree | Sources/CSFileManager/CSFileManager.swift:629-645 | for two regular files and either removal rule, the exchange strategy and the whole-subtree strategies look the same to a reader of data and attributes, unless a shared key conflicts and the attributes are merged |
| Replace.ReplaceItemEnds | Sources/CSFileManager/CSFileManager.swift:554-645 | for either removal rule, `replaceItem` ends in the promised state of the strategy the volumes select: the whole-subtree state for rename-swap and for the manual strategy, the exchanged state for `exchangedata` |
| Replace.ReplaceItemExchangeRejectsDirectories | Sources/CSFileManager/CSFileManager.swift:638-641 | on a volume offering `exchangedata` but no rename-swap, replacing with or of a directory fails with `EINVAL` |
| Enumerator.Init | Sources/CSFileManager/POSIXDirectoryEnumerator.swift:44-52 | the stack holds the root stream when it opens, and is empty otherwise |
| Enumerator.Next | Sources/CSFileManager/POSIXDirectoryEnumerator.swift:54-82 | an empty stack answers `nil` and stays empty; `nil` is only answered with an empty stack; the recursion flag is kept |
| Enumerator.NextPending | Sources/CSFileManager/POSIXDirectoryEnumerator.swift:54-82 | each call of `next` yields the first path still pending and leaves the rest pending, or answers `nil` when nothing is pending; each yield lowers the termination measure |
| Enumerator.NextExhausted | Sources/CSFileManager/POSIXDirectoryEnumerator.swift:55 | once the stack is empty, `next` keeps answering `nil` |
| Enumerator.Enumerate | Sources/CSFileManager/POSIXDirectoryEnumerator.swift:44-82 | draining the iterator yields exactly the pre-order listing of the tree: every entry but `.` and `..`, each directory followed by its contents when the walk is recursive and the directory opens |
| Enumerator.UnreadableRootIsEmpty | Sources/CSFileManager/POSIXDirectoryEnumerator.swift:47-51 | a root that cannot be opened gives an empty sequence, not an error |
| Enumerator.FlatListingNames | Sources/CSFileManager/POSIXDirectoryEnumerator.swift:69-81 | without recursion, a string is listed exactly when it is the name of an entry other than `.` and `..` |
| Enumerator.WalkUnderParent | Sources/CSFileManager/POSIXDirectoryEnumerator.swift:71 | below a parent, every listed path is the parent's relative path, a slash, and the path relative to that parent |
| Enumerator.WalkNoDuplicates | Sources/CSFileManager/POSIXDirectoryEnumerator.swift:54-82 | with valid, distinct names at every level, no path is listed twice |
| Enumerator.ListedUnderSomeEntry | Sources/CSFileManager/POSIXDirectoryEnumerator.swift:71 | every listed path begins with the name of one of the root's entries |
| Enumerator.ContentsOfDirectory | Sources/CSFileManager/CSFileManager.swift:325-335 | one full path per listed relative path |
| Enumerator.ContentsOfDirectoryAsWalk | Sources/CSFileManager/CSFileManager.swift:329-331 | the full paths are those of a walk that starts from the directory's own path, each entry named by its parent's path, a slash and its name |

## Left out

- Foundation bridging (`CSFIleManager+Foundation.swift`) is not modelled; it only converts `URL`s and errors.
- String-path overloads are not modelled separately. Neither are the branches for older OS versions, which re-parse paths with `dirname_r` or convert C strings. The model works on component paths; `TempPaths.TemplatePath` follows the string branch at lines 133-139.
- `FilePath` normalisation is left out. Parsing (`TempPaths.Components`) drops empty components, and a relative path is read from the root.
- `Items.CreateDirectory` works on component paths, where the empty path is the root. The string `""` and relative paths are modelled by `Items.CreateDirectoryAt` on a `FilePath`, with the working directory as a parameter.
- `copyfile` onto an existing destination fails with `EEXIST`. The `COPYFILE_*` merge behaviour onto existing targets and the clone optimisation are not modelled.
- `isFileNotFoundError` is taken to mean `ENOENT`.
- The process `umask` is not modelled. `mkdir` gives the requested mode, and `mkstemp` gives 0600.
- UUID generation, the random characters `mkstemp` chooses, and the `TMPDIR` environment variable are parameters (the `Oracle` and `random` arguments, and `tmpdir`). Retries of `mkstemp` after a collision are not modelled: a taken name fails with `EEXIST`.
- File descriptors are not modelled. `open`/`close` become a check that the item exists and is not a directory. `createTemporaryFile` returns only the name, and `typeOfItem(fileDescriptor:)` takes the node the descriptor refers to.
- Symbolic links are nodes of type `symbolicLink`, and link targets are not stored, so no call follows a link. That matches `lstat` and `.noTraverseLink`. It does not match `exchangedata(new, orig, 0)` (line 673), `open(O_RDWR)` (lines 679 and 682) or `copyfile` without `COPYFILE_NOFOLLOW`, which follow a link to its target. `FileSystem.ExchangeData` answers `EINVAL` for a link, and `FileSystem.OpenReadWrite` and `FileSystem.CopyFile` act on the link node itself; both are simplifications.
- Access rights are stored in each node's mode but never checked, and volumes are never read-only or full. No call fails with `EACCES`, `EPERM` for lack of privilege, `EROFS`, `ENOSPC`, `ENAMETOOLONG` or `EIO`. The `Ok` if-and-only-if clauses of `FileSystem.Mkdir`, `FileSystem.Rename`, `FileSystem.RenameSwap`, `FileSystem.ExchangeData`, `FileSystem.Mkstemp` and the other system calls therefore describe an idealised kernel that never refuses for those reasons. So do the end states of `Replace.ReplaceItemEnds` and the other `…Ends` lemmas, and `Items.CreateDirectoryRecursively`.
- Items.ItemIsReachable: the only errors it can throw in the model are `ENOTDIR` and `EFTYPE`. On a real system `itemIsReachable` also rethrows a permission error from `lstat`, such as `EACCES` for a path through a directory without search permission; the model cannot produce that case.
- The enumerator's directory streams are given as data: each entry's name, whether `d_type` is `DT_DIR`, and the stream `opendir` would open. Name decoding from `d_name` and the closing of streams are left out.
- Concurrency, and other processes changing the filesystem between two calls, are left out.
- The output of `generateUUID` is a parameter, and its 36-character `uuid_unparse` form is not checked. The names built from it (`<new>.swap.<uuid>` and the replacement directory's name) are taken as single components. That holds for the real program, because a UUID string has only hex digits and hyphens.
- The exchange strategy takes the removal rule of `copyMetadata` as a parameter (see Findings). Its end state is proved for the rule as written and for the corrected one. The other strategies call `copyMetadata` without `swap`, where the rule plays no part.
- `Replace.ExchangeReplaceEnds` is proved for two regular files only. On anything else `exchangedata` fails, as `Replace.ExchangeRejectsDirectories` states.
- `Items.RemoveItem` does not fix the order in which directory entries are removed. The enumerator's order is an unspecified choice among the remaining entries.
- `Items.MoveItem` on `EXDEV` after a partial copy is stated only through `Items.MoveItemActsAsRename` for free destinations. Failures in the middle of the copy-then-remove fallback are not characterised.

## Findings

| source | as written | input that shows it | evidently intended | confidence | as-written member | corrected member |
|---|---|---|---|---|---|---|
| Sources/CSFileManager/CSFileManager.swift:801-803 | after writing the destination's former attributes back to `from`, `copyMetadata(swap: true, preserveFrom: true)` removes the keys of `srcAttrs.subtracting(newSrcAttrs)`; the set difference is over whole (key, data) elements | `from` holds `k = [1]`, `to` holds `k = [2]`: the write-back sets `k = [2]` on `from`, then `k` is removed because `(k, [1])` is not in the destination's set; `from` ends with no attributes | `from` keeps exactly the destination's former attributes (`k = [2]`), as the backup of an exchange should; remove only keys the destination lacks | not executed | Metadata.BackupLosesConflictingKey | Metadata.CopyMetadataSwapRestoresBackup |
| Sources/CSFileManager/CSFileManager.swift:355-365 | when `mkdir` fails with `ENOENT` and `recursively` is set, `createDirectory` recurses on `path.removingLastComponent()` with no check that the path got shorter | `createDirectory(at: "", recursively: true)`: `mkdir("")` fails with `ENOENT`, and removing the last component of `""` gives `""`, so the call recurses forever; the same happens for `"a"` once the working directory has been removed | stop climbing when there is no component left to remove, and throw the `ENOENT` | not executed | Items.EmptyPathNeverReturns | Items.CreateDirectoryAt |

An empty `TMPDIR` might be expected to fall back to `/tmp`. The code
(CSFileManager.swift:77-83) keeps any value that is set, even an empty one, and the model
follows the code (`TempPaths.EmptyTmpdirKept`).

=== FILE: enumerator.dfy ===
/** `POSIXDirectoryEnumerator`: a depth-first, pre-order walk over directory streams, driven
    by an explicit stack of open directories.

    The directories are given as the streams `readdir` would produce: each entry carries its
    name, whether `d_type` says `DT_DIR`, and the stream `opendir` would open for it (none
    when opening fails or the entry is no directory). */
module Enumerator {
  import opened Wrappers
  import opened TempPaths

  /** One `readdir` record. */
  datatype Entry = Entry(name: string, isDir: bool, sub: Option<Dir>)

  /** The entries one directory stream returns, in order, `.` and `..` included. */
  datatype Dir = Dir(entries: seq<Entry>)

  /** `StackItem`: an open directory with the entries its stream has still to return. */
  datatype StackItem = StackItem(absolutePath: string, relativePath: Option<string>, remaining: seq<Entry>)

  /** `Iterator`: the top of the stack is its last element. */
  datatype Iterator = Iterator(recursive: bool, stack: seq<StackItem>)

  predicate IsDot(name: string) {
    name == "." || name == ".."
  }

  /** `childPath(ofPath:withName:)`. */
  function ChildPath(parent: string, name: string): string {
    parent + "/" + name
  }

  /** The relative path `next` returns for an entry: the bare name at the top level, the
      child path of the parent's relative path below it. */
  function RelPath(parent: Option<string>, name: string): string {
    match parent
    case None => name
    case Some(p) => ChildPath(p, name)
  }

  /** `Iterator.init`: a root that cannot be opened leaves the stack empty. */
  function Init(recursive: bool, path: string, root: Option<Dir>): (it: Iterator)
    ensures it.recursive == recursive
    ensures root.None? <==> it.stack == []
    ensures root.Some? ==> it.stack == [StackItem(path, None, root.value.entries)]
  {
    match root
    case None => Iterator(recursive, [])
    case Some(d) => Iterator(recursive, [StackItem(path, None, d.entries)])
  }

  /* ---------- termination ---------- */

  /** The number of entries in the streams, counting those of every subdirectory stream. */
  function EntriesSize(es: seq<Entry>): nat
    decreases es
  {
    if es == [] then 0
    else
      1 + (match es[0].sub case None => 0 case Some(d) => EntriesSize(d.entries)) + EntriesSize(es[1..])
  }

  function SubSize(e: Entry): nat {
    match e.sub
    case None => 0
    case Some(d) => EntriesSize(d.entries)
  }

  lemma EntriesSizeFirst(es: seq<Entry>)
    requires es != []
    ensures EntriesSize(es) == 1 + SubSize(es[0]) + EntriesSize(es[1..])
  {
  }

  function StackSize(stack: seq<StackItem>): nat {
    if stack == [] then 0 else StackSize(stack[..|stack| - 1]) + EntriesSize(stack[|stack| - 1].remaining)
  }

  lemma StackSizePush(stack: seq<StackItem>, item: StackItem)
    ensures StackSize(stack + [item]) == StackSize(stack) + EntriesSize(item.remaining)
  {
    assert (stack + [item])[..|stack|] == stack;
  }

  /** A yielded entry costs two, a pop one, and a pushed child stream repays no more than
      the entry's own share. */
  function Measure(it: Iterator): nat {
    2 * StackSize(it.stack) + |it.stack|
  }

  /* ---------- next ---------- */

  function Top(it: Iterator): StackItem
    requires it.stack != []
  {
    it.stack[|it.stack| - 1]
  }

  function Below(it: Iterator): seq<StackItem>
    requires it.stack != []
  {
    it.stack[..|it.stack| - 1]
  }

  /** The top directory without its first entry. */
  function Advanced(it: Iterator): Iterator
    requires it.stack != [] && Top(it).remaining != []
  {
    it.(stack := Below(it) + [Top(it).(remaining := Top(it).remaining[1..])])
  }

  /** Whether `next` descends into the entry it has read: `d_type` says directory, the walk
      is recursive, and the directory opens. */
  predicate Descends(recursive: bool, e: Entry) {
    e.isDir && recursive && e.sub.Some?
  }

  /** The stack after `next` has yielded the top directory's first entry. */
  function Yielded(it: Iterator): Iterator
    requires it.stack != [] && Top(it).remaining != []
  {
    var top := Top(it);
    var e := top.remaining[0];
    if Descends(it.recursive, e) then
      var child := StackItem(ChildPath(top.absolutePath, e.name), Some(RelPath(top.relativePath, e.name)), e.sub.value.entries);
      Advanced(it).(stack := Advanced(it).stack + [child])
    else Advanced(it)
  }

  /** `next()`: pop exhausted directories; skip `.` and `..`; otherwise return the entry's
      relative path, after pushing its stream when the walk descends into it. */
  function Next(it: Iterator): (r: (Option<string>, Iterator))
    ensures r.1.recursive == it.recursive
    ensures it.stack == [] ==> r == (None, it)
    ensures r.0.None? ==> r.1.stack == []
    decreases Measure(it)
  {
    if it.stack == [] then (None, it)
    else if Top(it).remaining == [] then
      PopShrinks(it);
      Next(it.(stack := Below(it)))
    else
      var e := Top(it).remaining[0];
      if IsDot(e.name) then
        Advance(it);
        Next(Advanced(it))
      else
        (Some(RelPath(Top(it).relativePath, e.name)), Yielded(it))
  }

  lemma PopShrinks(it: Iterator)
    requires it.stack != [] && Top(it).remaining == []
    ensures Pending(it.stack, it.recursive) == Pending(Below(it), it.recursive)
    ensures Measure(it.(stack := Below(it))) < Measure(it)
  {
    var below := Below(it);
    var top := Top(it);
    assert below + [top] == it.stack;
    StackSizePush(below, top);
    PendingPush(below, top, it.recursive);
    assert Walk(top.remaining, top.relativePath, it.recursive) == [];
    assert [] + Pending(below, it.recursive) == Pending(below, it.recursive);
  }

  /* ---------- the reference walk ---------- */

  /** The pre-order listing of a stream: each entry but `.` and `..`, each followed (when the
      walk is recursive and the entry a directory that opens) by the listing of its stream. */
  function Walk(es: seq<Entry>, parent: Option<string>, recursive: bool): seq<string>
    decreases es
  {
    if es == [] then []
    else
      var e := es[0];
      if IsDot(e.name) then Walk(es[1..], parent, recursive)
      else
        var rel := RelPath(parent, e.name);
        var below := if Descends(recursive, e) then Walk(e.sub.value.entries, Some(rel), recursive) else [];
        [rel] + below + Walk(es[1..], parent, recursive)
  }

  /** What the stack has still to yield: the top stream's listing, then the rest. */
  function Pending(stack: seq<StackItem>, recursive: bool): seq<string> {
    if stack == [] then []
    else
      var top := stack[|stack| - 1];
      Walk(top.remaining, top.relativePath, recursive) + Pending(stack[..|stack| - 1], recursive)
  }

  /** The whole sequence the enumerator yields. */
  function Listing(root: Option<Dir>, recursive: bool): seq<string> {
    match root
    case None => []
    case Some(d) => Walk(d.entries, None, recursive)
  }

  lemma PendingPush(stack: seq<StackItem>, item: StackItem, recursive: bool)
    ensures Pending(stack + [item], recursive) == Walk(item.remaining, item.relativePath, recursive) + Pending(stack, recursive)
  {
    assert (stack + [item])[..|stack|] == stack;
  }

  /** The facts about one call of `next` that the enumeration relies on. */
  ghost predicate StepKeepsPending(it: Iterator) {
    var (x, it') := Next(it);
    && (x.Some? ==> [x.value] + Pending(it'.stack, it.recursive) == Pending(it.stack, it.recursive))
    && (x.Some? ==> Measure(it') < Measure(it))
    && (x.None? ==> Pending(it.stack, it.recursive) == [])
  }

  /** Reading an entry shortens the pending listing by that entry's share. */
  lemma Advance(it: Iterator)
    requires it.stack != [] && Top(it).remaining != []
    ensures var e := Top(it).remaining[0]; var rec := it.recursive;
      && Measure(it) == Measure(Advanced(it)) + 2 + 2 * SubSize(e)
      && Pending(it.stack, rec)
         == Walk(Top(it).remaining, Top(it).relativePath, rec) + Pending(Below(it), rec)
      && Pending(Advanced(it).stack, rec)
         == Walk(Top(it).remaining[1..], Top(it).relativePath, rec) + Pending(Below(it), rec)
  {
    var top := Top(it);
    StackSizePush(Below(it), top);
    PendingPush(Below(it), top, it.recursive);
    assert Below(it) + [top] == it.stack;
    EntriesSizeFirst(top.remaining);
    StackSizePush(Below(it), top.(remaining := top.remaining[1..]));
    PendingPush(Below(it), top.(remaining := top.remaining[1..]), it.recursive);
  }

  /** Any other entry is yielded, and its stream pushed when the walk descends into it. */
  lemma NextYields(it: Iterator)
    requires it.stack != [] && Top(it).remaining != [] && !IsDot(Top(it).remaining[0].name)
    ensures StepKeepsPending(it)
  {
    var top := Top(it);
    var e := top.remaining[0];
    assert Next(it) == (Some(RelPath(top.relativePath, e.name)), Yielded(it));
    if Descends(it.recursive, e) {
      NextYieldsDescending(it);
    } else {
      NextYieldsFlat(it);
    }
  }

  lemma NextYieldsDescending(it: Iterator)
    requires it.stack != [] && Top(it).remaining != [] && !IsDot(Top(it).remaining[0].name)
    requires Descends(it.recursive, Top(it).remaining[0])
    ensures var rel := RelPath(Top(it).relativePath, Top(it).remaining[0].name);
      && [rel] + Pending(Yielded(it).stack, it.recursive) == Pending(it.stack, it.recursive)
      && Measure(Yielded(it)) < Measure(it)
  {
    var top := Top(it);
    var e := top.remaining[0];
    Advance(it);
    WalkFirst(top.remaining, top.relativePath, it.recursive);
    YieldedDescends(it);
    var rel := RelPath(top.relativePath, e.name);
    var sub := Walk(e.sub.value.entries, Some(rel), it.recursive);
    var rest := Walk(top.remaining[1..], top.relativePath, it.recursive);
    var below := Pending(Below(it), it.recursive);
    Splice(rel, sub, rest, below, Pending(it.stack, it.recursive),
      Pending(Advanced(it).stack, it.recursive), Pending(Yielded(it).stack, it.recursive));
  }

  /** Sequence bookkeeping for a descending step: the entry, then its stream, then the rest. */
  lemma Splice(rel: string, sub: seq<string>, rest: seq<string>, below: seq<string>,
               whole: seq<string>, advanced: seq<string>, yielded: seq<string>)
    requires whole == ([rel] + sub + rest) + below
    requires advanced == rest + below
    requires yielded == sub + advanced
    ensures [rel] + yielded == whole
  {
  }

  lemma NextYieldsFlat(it: Iterator)
    requires it.stack != [] && Top(it).remaining != [] && !IsDot(Top(it).remaining[0].name)
    requires !Descends(it.recursive, Top(it).remaining[0])
    ensures var rel := RelPath(Top(it).relativePath, Top(it).remaining[0].name);
      && [rel] + Pending(Yielded(it).stack, it.recursive) == Pending(it.stack, it.recursive)
      && Measure(Yielded(it)) < Measure(it)
  {
    var top := Top(it);
    Advance(it);
    WalkFirst(top.remaining, top.relativePath, it.recursive);
    assert Yielded(it).stack == Advanced(it).stack;
    var rel := RelPath(top.relativePath, top.remaining[0].name);
    var rest := Walk(top.remaining[1..], top.relativePath, it.recursive);
    var below := Pending(Below(it), it.recursive);
    assert [rel] + (rest + below) == ([rel] + rest) + below;
  }

  lemma YieldedDescends(it: Iterator)
    requires it.stack != [] && Top(it).remaining != [] && Descends(it.recursive, Top(it).remaining[0])
    ensures var e := Top(it).remaining[0]; var rel := RelPath(Top(it).relativePath, e.name);
      && Measure(Yielded(it)) == Measure(Advanced(it)) + 2 * SubSize(e) + 1
      && Pending(Yielded(it).stack, it.recursive)
         == Walk(e.sub.value.entries, Some(rel), it.recursive) + Pending(Advanced(it).stack, it.recursive)
  {
    var top := Top(it);
    var e := top.remaining[0];
    var child := StackItem(ChildPath(top.absolutePath, e.name), Some(RelPath(top.relativePath, e.name)), e.sub.value.entries);
    assert Yielded(it).stack == Advanced(it).stack + [child];
    StackSizePush(Advanced(it).stack, child);
    PendingPush(Advanced(it).stack, child, it.recursive);
  }

  lemma WalkFirst(es: seq<Entry>, parent: Option<string>, recursive: bool)
    requires es != [] && !IsDot(es[0].name)
    ensures var rel := RelPath(parent, es[0].name);
      Walk(es, parent, recursive)
      == [rel] + (if Descends(recursive, es[0]) then Walk(es[0].sub.value.entries, Some(rel), recursive) else [])
         + Walk(es[1..], parent, recursive)
    ensures !Descends(recursive, es[0]) ==>
      Walk(es, parent, recursive) == [RelPath(parent, es[0].name)] + Walk(es[1..], parent, recursive)
  {
    assert [RelPath(parent, es[0].name)] + [] == [RelPath(parent, es[0].name)];
  }

  /** Each call of `next` either yields the first pending path (and leaves the others
      pending) or, with nothing pending, answers `nil`; a yielding call lowers the measure. */
  lemma {:induction false} NextPending(it: Iterator)
    ensures StepKeepsPending(it)
    decreases Measure(it)
  {
    if it.stack != [] {
      if Top(it).remaining == [] {
        PopShrinks(it);
        NextPending(it.(stack := Below(it)));
      } else if IsDot(Top(it).remaining[0].name) {
        Advance(it);
        NextPending(Advanced(it));
      } else {
        NextYields(it);
      }
    }
  }

  /** Once the stack is empty, `next` answers `nil` forever. */
  lemma NextExhausted(it: Iterator)
    requires it.stack == []
    ensures Next(it) == (None, it) && Next(Next(it).1) == (None, it)
  {
  }

  /** `makeIterator()` followed by `next()` until `nil`: the enumerator yields exactly the
      pre-order listing of the tree below the root. */
  method Enumerate(recursive: bool, path: string, root: Option<Dir>) returns (out: seq<string>)
    ensures out == Listing(root, recursive)
  {
    var it := Init(recursive, path, root);
    out := [];
    InitPending(recursive, path, root);
    while true
      invariant it.recursive == recursive
      invariant out + Pending(it.stack, recursive) == Listing(root, recursive)
      decreases Measure(it)
    {
      NextPending(it);
      var r := Next(it);
      if r.0.None? {
        break;
      }
      var x := r.0.value;
      var next := r.1;
      assert [x] + Pending(next.stack, recursive) == Pending(it.stack, recursive);
      assert (out + [x]) + Pending(next.stack, recursive) == out + ([x] + Pending(next.stack, recursive));
      out := out + [x];
      it := next;
    }
  }

  lemma InitPending(recursive: bool, path: string, root: Option<Dir>)
    ensures Pending(Init(recursive, path, root).stack, recursive) == Listing(root, recursive)
  {
    var it := Init(recursive, path, root);
    if root.Some? {
      PendingPush([], it.stack[0], recursive);
      assert [] + [it.stack[0]] == it.stack;
    }
  }

  /** An unreadable root gives an empty sequence, not an error. */
  lemma UnreadableRootIsEmpty(recursive: bool, path: string)
    ensures Init(recursive, path, None).stack == []
    ensures Listing(None, recursive) == []
  {
  }

  /** `contentsOfDirectory(at:recursively:)`: each path the enumerator yields, placed below
      the directory's own path. */
  function ContentsOfDirectory(path: string, recursive: bool, root: Option<Dir>): (r: seq<string>)
    ensures |r| == |Listing(root, recursive)|
  {
    Prefixed(path, Listing(root, recursive))
  }

  /** The full paths are what a walk gives whose top-level relative path is the directory's
      own path: every entry is named by its parent's full path, a slash and its name. */
  lemma ContentsOfDirectoryAsWalk(path: string, recursive: bool, d: Dir)
    ensures ContentsOfDirectory(path, recursive, Some(d)) == Walk(d.entries, Some(path), recursive)
  {
    WalkUnderParent(d.entries, path, recursive);
  }

  /* ---------- what the listing contains ---------- */

  /** Without recursion the listing holds exactly the names of the stream's entries other
      than `.` and `..`. */
  lemma {:induction false} FlatListingNames(es: seq<Entry>, x: string)
    ensures x in Walk(es, None, false) <==> exists i :: 0 <= i < |es| && es[i].name == x && !IsDot(x)
  {
    if es != [] {
      FlatListingNames(es[1..], x);
      if exists i :: 0 <= i < |es[1..]| && es[1..][i].name == x && !IsDot(x) {
        var i :| 0 <= i < |es[1..]| && es[1..][i].name == x && !IsDot(x);
        assert es[i + 1].name == x;
      }
      if exists i :: 0 <= i < |es| && es[i].name == x && !IsDot(x) {
        var i :| 0 <= i < |es| && es[i].name == x && !IsDot(x);
        if i > 0 {
          assert es[1..][i - 1].name == x;
        }
      }
    }
  }

  /** Below a parent, every listed path is the parent's path, a slash, and a top-level path
      of the sub-listing: nested entries are named relative to their parent. */
  lemma {:induction false} WalkUnderParent(es: seq<Entry>, p: string, recursive: bool)
    ensures Walk(es, Some(p), recursive) == Prefixed(p, Walk(es, None, recursive))
    decreases es
  {
    if es != [] {
      var e := es[0];
      WalkUnderParent(es[1..], p, recursive);
      if !IsDot(e.name) {
        if Descends(recursive, e) {
          WalkUnderParent(e.sub.value.entries, ChildPath(p, e.name), recursive);
          WalkUnderParent(e.sub.value.entries, e.name, recursive);
          PrefixedTwice(p, e.name, Walk(e.sub.value.entries, None, recursive));
        }
        PrefixedConcat(p, [e.name] + (if Descends(recursive, e) then Walk(e.sub.value.entries, Some(e.name), recursive) else []),
                       Walk(es[1..], None, recursive));
        PrefixedConcat(p, [e.name], if Descends(recursive, e) then Walk(e.sub.value.entries, Some(e.name), recursive) else []);
      }
    }
  }

  /** Every path of `xs` placed below `p`. */
  function Prefixed(p: string, xs: seq<string>): (ys: seq<string>)
    ensures |ys| == |xs|
    ensures forall i :: 0 <= i < |xs| ==> ys[i] == ChildPath(p, xs[i])
  {
    seq(|xs|, i requires 0 <= i < |xs| => ChildPath(p, xs[i]))
  }

  lemma PrefixedConcat(p: string, xs: seq<string>, ys: seq<string>)
    ensures Prefixed(p, xs + ys) == Prefixed(p, xs) + Prefixed(p, ys)
  {
  }

  lemma PrefixedTwice(p: string, q: string, xs: seq<string>)
    ensures Prefixed(p, Prefixed(q, xs)) == Prefixed(ChildPath(p, q), xs)
  {
    forall i | 0 <= i < |xs| ensures ChildPath(p, ChildPath(q, xs[i])) == ChildPath(ChildPath(p, q), xs[i]) {
      assert p + "/" + (q + "/" + xs[i]) == (p + "/" + q) + "/" + xs[i];
    }
  }

  /* ---------- each entry exactly once ---------- */

  /** The first component of a relative path. */
  function FirstComponent(x: string): string {
    x[..NameEnd(x, 0)]
  }

  lemma FirstComponentOfChild(n: string, x: string)
    requires ValidName(n)
    ensures FirstComponent(n) == n && FirstComponent(ChildPath(n, x)) == n
  {
    NameEndOfName(n, [], 0);
    assert n + [] == n;
    assert ChildPath(n, x) == n + ("/" + x);
    NameEndOfName(n, "/" + x, 0);
    assert (n + ("/" + x))[..|n|] == n;
  }

  /** A stream whose entries have valid names, pairwise distinct, at every level. */
  ghost predicate WellNamed(es: seq<Entry>)
    decreases es
  {
    && (forall i :: 0 <= i < |es| ==> ValidName(es[i].name))
    && (forall i, j :: 0 <= i < j < |es| ==> es[i].name != es[j].name)
    && (es != [] ==> WellNamed(es[1..]))
    && (es != [] && es[0].sub.Some? ==> WellNamed(es[0].sub.value.entries))
  }

  /** In a top-level listing, every path starts with the name of one of the stream's entries. */
  lemma {:induction false} ListedUnderSomeEntry(es: seq<Entry>, recursive: bool, x: string)
    requires WellNamed(es) && x in Walk(es, None, recursive)
    ensures exists i :: 0 <= i < |es| && FirstComponent(x) == es[i].name
    decreases es
  {
    var e := es[0];
    var below := if Descends(recursive, e) then Walk(e.sub.value.entries, Some(e.name), recursive) else [];
    if !IsDot(e.name) && (x == e.name || x in below) {
      if x in below {
        WalkUnderParent(e.sub.value.entries, e.name, recursive);
        var k :| 0 <= k < |below| && below[k] == x;
        FirstComponentOfChild(e.name, Walk(e.sub.value.entries, None, recursive)[k]);
      } else {
        FirstComponentOfChild(e.name, "");
      }
    } else {
      assert x in Walk(es[1..], None, recursive);
      ListedUnderSomeEntry(es[1..], recursive, x);
      var i :| 0 <= i < |es[1..]| && FirstComponent(x) == es[1..][i].name;
      assert es[i + 1].name == es[1..][i].name;
    }
  }

  predicate NoDuplicates(xs: seq<string>) {
    forall i, j :: 0 <= i < j < |xs| ==> xs[i] != xs[j]
  }

  lemma PrefixedNoDuplicates(p: string, xs: seq<string>)
    requires NoDuplicates(xs)
    ensures NoDuplicates(Prefixed(p, xs))
  {
    var ys := Prefixed(p, xs);
    forall i | 0 <= i < |xs| ensures ys[i][|p| + 1..] == xs[i] {
      assert ys[i] == p + "/" + xs[i];
    }
  }

  lemma ConcatNoDuplicates(xs: seq<string>, ys: seq<string>)
    requires NoDuplicates(xs) && NoDuplicates(ys)
    requires forall x :: x in xs ==> x !in ys
    ensures NoDuplicates(xs + ys)
  {
    forall i, j | 0 <= i < j < |xs + ys| ensures (xs + ys)[i] != (xs + ys)[j] {
      if i < |xs| && j >= |xs| {
        assert (xs + ys)[i] in xs && (xs + ys)[j] in ys;
      }
    }
  }

  /** With valid, distinct names at every level, a recursive enumeration yields each path at
      most once. */
  lemma {:induction false} WalkNoDuplicates(es: seq<Entry>, recursive: bool)
    requires WellNamed(es)
    ensures NoDuplicates(Walk(es, None, recursive))
    decreases es
  {
    if es != [] {
      var e := es[0];
      WalkNoDuplicates(es[1..], recursive);
      var tail := Walk(es[1..], None, recursive);
      if !IsDot(e.name) {
        var below := if Descends(recursive, e) then Walk(e.sub.value.entries, Some(e.name), recursive) else [];
        if Descends(recursive, e) {
          WalkNoDuplicates(e.sub.value.entries, recursive);
          WalkUnderParent(e.sub.value.entries, e.name, recursive);
          PrefixedNoDuplicates(e.name, Walk(e.sub.value.entries, None, recursive));
        }
        forall x | x in below ensures x != e.name {
          var k :| 0 <= k < |below| && below[k] == x;
          assert x == ChildPath(e.name, Walk(e.sub.value.entries, None, recursive)[k]);
        }
        ConcatNoDuplicates([e.name], below);
        forall x | x in [e.name] + below ensures x !in tail {
          if x in tail {
            ListedUnderSomeEntry(es[1..], recursive, x);
            var i :| 0 <= i < |es[1..]| && FirstComponent(x) == es[1..][i].name;
            assert es[i + 1].name == es[1..][i].name;
            if x == e.name {
              FirstComponentOfChild(e.name, "");
            } else {
              var k :| 0 <= k < |below| && below[k] == x;
              FirstComponentOfChild(e.name, Walk(e.sub.value.entries, None, recursive)[k]);
            }
          }
        }
        ConcatNoDuplicates([e.name] + below, tail);
      }
    }
  }
}

=== FILE: filesystem.dfy ===
/** An abstract, immutable filesystem and the system calls the file manager relies on.

    The state maps every existing path (a sequence of name components, the root
    being `[]`) to its node. Volumes are attached at mount points; a path belongs
    to the volume of its longest mounted prefix. Every primitive is atomic: it
    either returns the new state or an errno and changes nothing. */
module FileSystem {
  import opened Wrappers
  import opened FileTypes

  type Name = string
  type Path = seq<Name>
  type Bytes = seq<bv8>
  type Uuid = seq<bv8>

  /** One extended attribute as `ExtendedAttribute.list` reports it. */
  datatype Xattr = Xattr(key: string, data: Bytes)

  /** A node: its `st_mode`, its data and its extended attributes (one value per key). */
  datatype Node = Node(mode: Mode, content: Bytes, xattrs: map<string, Bytes>)

  /** The native interfaces a volume may advertise. */
  datatype Capability = RenameSwapCap | ExchangeDataCap | OtherCap(bit: nat)

  /** A mounted volume: its device number (which `rename` compares), its UUID and its
      capability set, either of which the volume may fail to report. */
  datatype Volume = Volume(device: nat, uuid: Option<Uuid>, capabilities: Option<set<Capability>>)

  datatype FS = FS(nodes: map<Path, Node>, mounts: map<Path, Volume>)

  datatype Errno =
    | ENOENT | EEXIST | ENOTEMPTY | EXDEV | ENOTDIR | EISDIR
    | EINVAL | EPERM | ENOATTR | EFTYPE

  /** An error as the library throws it: an errno, tagged with a path when the call site names one. */
  datatype Error = Error(code: Errno, path: Option<Path>)

  /** The outcome of a composite operation. A failure keeps the state reached so far,
      because the steps already taken are not undone. */
  datatype Outcome = Done(fs: FS) | Failed(fs: FS, error: Error) {

    predicate IsFailure() {
      Failed?
    }

    function PropagateFailure(): Outcome
      requires Failed?
    {
      this
    }

    function Extract(): FS
      requires Done?
    {
      fs
    }
  }

  const RootVolume := Volume(0, None, None)

  /* ---------- paths ---------- */

  /** `p` is `root` or lies inside it. */
  predicate Under(root: Path, p: Path) {
    |root| <= |p| && p[..|root|] == root
  }

  function Parent(p: Path): Path
    requires p != []
  {
    p[..|p| - 1]
  }

  /** Two paths that both contain `p` are nested one inside the other. */
  lemma UnderComparable(a: Path, b: Path, p: Path)
    requires Under(a, p) && Under(b, p)
    ensures Under(a, b) || Under(b, a)
  {
    if |a| <= |b| {
      assert b[..|a|] == p[..|b|][..|a|];
    } else {
      assert a[..|b|] == p[..|a|][..|b|];
    }
  }

  lemma UnderTransitive(a: Path, b: Path, c: Path)
    requires Under(a, b) && Under(b, c)
    ensures Under(a, c)
  {
    assert c[..|a|] == c[..|b|][..|a|];
  }

  lemma UnderAppend(root: Path, rel: Path)
    ensures Under(root, root + rel)
    ensures (root + rel)[|root|..] == rel
  {
    assert (root + rel)[..|root|] == root;
  }

  lemma UnderSplit(root: Path, p: Path)
    requires Under(root, p)
    ensures root + p[|root|..] == p
  {
    assert p == p[..|root|] + p[|root|..];
  }

  /** A proper descendant of `root` lies inside one of `root`'s children. */
  lemma UnderChild(root: Path, p: Path)
    requires Under(root, p) && p != root
    ensures Under(root + [p[|root|]], p)
  {
    assert p[..|root| + 1] == p[..|root|] + [p[|root|]];
  }

  lemma UnderParent(p: Path, q: Path)
    requires p != [] && Under(q, Parent(p))
    ensures Under(q, p)
  {
    assert p[..|q|] == Parent(p)[..|q|];
  }

  /* ---------- node predicates and lookups ---------- */

  predicate IsDir(n: Node) {
    n.mode & S_IFMT == S_IFDIR
  }

  predicate IsRegular(n: Node) {
    n.mode & S_IFMT == S_IFREG
  }

  function Get(m: map<Path, Node>, p: Path): Option<Node> {
    if p in m then Some(m[p]) else None
  }

  /** Maps that agree on every lookup are equal. */
  lemma MapsEqual(a: map<Path, Node>, b: map<Path, Node>)
    requires forall p :: Get(a, p) == Get(b, p)
    ensures a == b
  {
    assert a.Keys == b.Keys by {
      forall p | p in a ensures p in b { assert Get(a, p).Some?; }
      forall p | p in b ensures p in a { assert Get(b, p).Some?; }
    }
    forall p | p in a ensures a[p] == b[p] { assert Get(a, p) == Get(b, p); }
  }

  /** The names of the entries of directory `dir`. */
  function ChildNames(m: map<Path, Node>, dir: Path): set<Name> {
    set q | q in m && |q| == |dir| + 1 && Under(dir, q) :: q[|dir|]
  }

  lemma ChildNamesMember(m: map<Path, Node>, dir: Path, c: Name)
    ensures c in ChildNames(m, dir) <==> dir + [c] in m
  {
    if dir + [c] in m {
      UnderAppend(dir, [c]);
      assert (dir + [c])[|dir|] == c;
    }
    if c in ChildNames(m, dir) {
      var q :| q in m && |q| == |dir| + 1 && Under(dir, q) && q[|dir|] == c;
      assert q == dir + [c] by { UnderSplit(dir, q); }
    }
  }

  /** The number of nodes at `root` or below it. */
  function SubtreeSize(m: map<Path, Node>, root: Path): nat {
    |set p | p in m && Under(root, p)|
  }

  lemma {:induction false} SubsetSize<T>(a: set<T>, b: set<T>)
    requires a <= b
    ensures |a| <= |b|
    ensures a < b ==> |a| < |b|
    decreases |b|
  {
    if a < b {
      var y :| y in b && y !in a;
      SubsetSize(a, b - {y});
    } else if b != {} {
      var y :| y in b;
      SubsetSize(a - {y}, b - {y});
    }
  }

  lemma SubtreeShrinks(m: map<Path, Node>, m': map<Path, Node>, root: Path, inner: Path)
    requires root in m && Under(root, inner) && inner != root
    requires m'.Keys <= m.Keys
    ensures SubtreeSize(m', inner) < SubtreeSize(m, root)
  {
    var small := set p | p in m' && Under(inner, p);
    var big := set p | p in m && Under(root, p);
    forall p | p in small ensures p in big { UnderTransitive(root, inner, p); }
    assert root in big by { assert root[..|root|] == root; }
    assert root !in small;
    SubsetSize(small, big);
  }

  lemma SubtreeMonotone(m: map<Path, Node>, m': map<Path, Node>, root: Path)
    requires m'.Keys <= m.Keys
    ensures SubtreeSize(m', root) <= SubtreeSize(m, root)
  {
    var small := set p | p in m' && Under(root, p);
    var big := set p | p in m && Under(root, p);
    SubsetSize(small, big);
  }

  /* ---------- well-formedness ---------- */

  /** The root is a directory and every other node sits inside an existing directory. */
  ghost predicate WF(m: map<Path, Node>) {
    && [] in m && IsDir(m[[]])
    && forall p :: p in m && p != [] ==> Parent(p) in m && IsDir(m[Parent(p)])
  }

  /** In a well-formed state, every prefix of an existing path exists and is a directory. */
  lemma {:induction false} AncestorExists(m: map<Path, Node>, q: Path, p: Path)
    requires WF(m) && p in m && Under(q, p) && q != p
    ensures q in m && IsDir(m[q])
    decreases |p|
  {
    var pp := Parent(p);
    assert Under(q, pp) by { assert pp[..|q|] == p[..|q|]; }
    if q != pp {
      AncestorExists(m, q, pp);
    }
  }

  /** Nothing exists inside a path that does not exist. */
  lemma AbsentHasNoDescendants(m: map<Path, Node>, q: Path, p: Path)
    requires WF(m) && q !in m && Under(q, p)
    ensures p !in m
  {
    if p in m {
      AncestorExists(m, q, p);
    }
  }

  /** Nothing exists inside a node that is not a directory. */
  lemma NonDirHasNoDescendants(m: map<Path, Node>, q: Path, p: Path)
    requires WF(m) && q in m && !IsDir(m[q]) && Under(q, p) && q != p
    ensures p !in m
  {
    if p in m {
      AncestorExists(m, q, p);
    }
  }

  /** In a well-formed state a directory with no entries has no descendants at all. */
  lemma EmptyDirHasNoDescendants(m: map<Path, Node>, dir: Path, p: Path)
    requires WF(m) && ChildNames(m, dir) == {} && Under(dir, p) && p != dir
    ensures p !in m
  {
    if p in m {
      var child := dir + [p[|dir|]];
      UnderChild(dir, p);
      if child != p {
        AncestorExists(m, child, p);
      }
      ChildNamesMember(m, dir, p[|dir|]);
    }
  }

  /* ---------- path resolution ---------- */

  /** The errno with which resolving a path that does not exist fails. Resolution walks down
      from the root: a missing component is `ENOENT`, an existing prefix that is not a
      directory but has to be searched is `ENOTDIR`. The primitives below check the parent of
      the path they act on and fall back on this walk when the parent will not do; in a
      well-formed state every prefix of an existing path is a directory, so the walk first
      fails right below the deepest existing prefix. */
  function LookupError(m: map<Path, Node>, p: Path): (e: Errno)
    ensures e == ENOENT || e == ENOTDIR
    decreases |p|
  {
    if p == [] then ENOENT
    else if Parent(p) in m then (if IsDir(m[Parent(p)]) then ENOENT else ENOTDIR)
    else LookupError(m, Parent(p))
  }

  /** Below a node that is not a directory, resolution fails with `ENOTDIR`. */
  lemma {:induction false} LookupBelowNonDir(m: map<Path, Node>, q: Path, p: Path)
    requires WF(m) && q in m && !IsDir(m[q]) && Under(q, p) && q != p
    ensures p !in m && LookupError(m, p) == ENOTDIR
    decreases |p|
  {
    NonDirHasNoDescendants(m, q, p);
    var pp := Parent(p);
    if pp != q {
      assert Under(q, pp) by { assert pp[..|q|] == p[..|q|]; }
      LookupBelowNonDir(m, q, pp);
    } else {
      assert pp in m;
    }
  }

  /* ---------- subtree surgery ---------- */

  /** The state without the subtree rooted at `root`. */
  function Prune(m: map<Path, Node>, root: Path): (r: map<Path, Node>)
    ensures forall p :: Get(r, p) == if Under(root, p) then None else Get(m, p)
  {
    map p | p in m && !Under(root, p) :: m[p]
  }

  lemma RebaseInjective(src: Path, dst: Path)
    ensures forall p, q :: Under(src, p) && Under(src, q) && dst + p[|src|..] == dst + q[|src|..] ==> p == q
  {
    forall p, q | Under(src, p) && Under(src, q) && dst + p[|src|..] == dst + q[|src|..]
      ensures p == q
    {
      UnderAppend(dst, p[|src|..]);
      UnderAppend(dst, q[|src|..]);
      UnderSplit(src, p);
      UnderSplit(src, q);
    }
  }

  /** The subtree rooted at `src`, re-rooted at `dst`. */
  function Rebase(m: map<Path, Node>, src: Path, dst: Path): map<Path, Node> {
    RebaseInjective(src, dst);
    map p | p in m && Under(src, p) :: dst + p[|src|..] := m[p]
  }

  /** A lookup in a re-rooted subtree reads the corresponding path of the source. */
  lemma GetRebase(m: map<Path, Node>, src: Path, dst: Path, p: Path)
    ensures Get(Rebase(m, src, dst), p) == if Under(dst, p) then Get(m, src + p[|dst|..]) else None
  {
    var r := Rebase(m, src, dst);
    RebaseInjective(src, dst);
    if p in r {
      var q :| q in m && Under(src, q) && dst + q[|src|..] == p;
      UnderAppend(dst, q[|src|..]);
      UnderSplit(src, q);
      assert src + p[|dst|..] == q;
      assert r[dst + q[|src|..]] == m[q];
    } else if Under(dst, p) {
      var q := src + p[|dst|..];
      UnderAppend(src, p[|dst|..]);
      UnderSplit(dst, p);
    }
  }

  lemma GetRebaseAll(m: map<Path, Node>, src: Path, dst: Path)
    ensures forall p :: Get(Rebase(m, src, dst), p) == if Under(dst, p) then Get(m, src + p[|dst|..]) else None
  {
    forall p ensures Get(Rebase(m, src, dst), p) == if Under(dst, p) then Get(m, src + p[|dst|..]) else None {
      GetRebase(m, src, dst, p);
    }
  }

  /** `rename(src, dst)` onto an absent or replaceable target: the source subtree
      now lives at `dst` and nothing else moves. */
  function Move(m: map<Path, Node>, src: Path, dst: Path): map<Path, Node> {
    Prune(Prune(m, src), dst) + Rebase(m, src, dst)
  }

  lemma GetMove(m: map<Path, Node>, src: Path, dst: Path, p: Path)
    ensures Get(Move(m, src, dst), p) ==
      if Under(dst, p) then Get(m, src + p[|dst|..])
      else if Under(src, p) then None
      else Get(m, p)
  {
    GetRebase(m, src, dst, p);
  }

  lemma ParentOfAppend(a: Path, rel: Path)
    requires rel != []
    ensures Parent(a + rel) == a + Parent(rel)
    ensures Under(a, a + Parent(rel)) && (a + Parent(rel))[|a|..] == Parent(rel)
  {
    assert (a + rel)[..|a + rel| - 1] == a + rel[..|rel| - 1];
    UnderAppend(a, Parent(rel));
  }

  /** The conditions under which `rename` may move `src` onto `dst`. */
  ghost predicate CanPlace(m: map<Path, Node>, src: Path, dst: Path) {
    && WF(m) && src in m && dst != [] && dst !in m
    && Parent(dst) in m && IsDir(m[Parent(dst)])
    && !Under(src, dst) && !Under(dst, src)
  }

  /** The lookup view of `Move`. */
  function MovedGet(m: map<Path, Node>, src: Path, dst: Path, p: Path): Option<Node> {
    if Under(dst, p) then Get(m, src + p[|dst|..])
    else if Under(src, p) then None
    else Get(m, p)
  }

  /** The lookup view of copying `src` to the free place `dst`. */
  function GraftedGet(m: map<Path, Node>, src: Path, dst: Path, p: Path): Option<Node> {
    if Under(dst, p) then Get(m, src + p[|dst|..]) else Get(m, p)
  }

  /** Inside the placed copy, each node's parent is the copy of its source's parent. */
  lemma PlacedParent(m: map<Path, Node>, src: Path, dst: Path, p: Path)
    requires CanPlace(m, src, dst) && Under(dst, p) && Get(m, src + p[|dst|..]).Some?
    requires p != []
    ensures Under(dst, Parent(p)) || Parent(p) == Parent(dst)
    ensures Under(dst, Parent(p)) ==> Get(m, src + Parent(p)[|dst|..]).Some? && IsDir(Get(m, src + Parent(p)[|dst|..]).value)
  {
    if p == dst {
      assert Parent(p) == Parent(dst);
    } else {
      var rel := p[|dst|..];
      UnderSplit(dst, p);
      ParentOfAppend(dst, rel);
      ParentOfAppend(src, rel);
    }
  }

  lemma MovedParent(m: map<Path, Node>, src: Path, dst: Path, p: Path)
    requires CanPlace(m, src, dst) && src != []
    requires p != [] && MovedGet(m, src, dst, p).Some?
    ensures MovedGet(m, src, dst, Parent(p)).Some? && IsDir(MovedGet(m, src, dst, Parent(p)).value)
  {
    if Under(dst, p) {
      PlacedParent(m, src, dst, p);
      if !Under(dst, Parent(p)) && Under(src, Parent(p)) {
        UnderParent(dst, src);
      }
    } else {
      if Under(dst, Parent(p)) {
        UnderParent(p, dst);
      }
      if Under(src, Parent(p)) {
        UnderParent(p, src);
      }
    }
  }

  lemma GraftedParent(m: map<Path, Node>, src: Path, dst: Path, p: Path)
    requires CanPlace(m, src, dst)
    requires p != [] && GraftedGet(m, src, dst, p).Some?
    ensures GraftedGet(m, src, dst, Parent(p)).Some? && IsDir(GraftedGet(m, src, dst, Parent(p)).value)
  {
    if Under(dst, p) {
      PlacedParent(m, src, dst, p);
    } else if Under(dst, Parent(p)) {
      UnderParent(p, dst);
    }
  }

  /** A map whose lookups are given by `view` is well-formed when `view` keeps the root
      directory and gives every node a directory parent. */
  lemma WFFromParents(r: map<Path, Node>, m: map<Path, Node>)
    requires WF(m) && Get(r, []) == Get(m, [])
    requires forall p :: p in r && p != [] ==> Parent(p) in r && IsDir(r[Parent(p)])
    ensures WF(r)
  {
    assert Get(m, []).Some?;
  }

  lemma GetMoveIsMovedGet(m: map<Path, Node>, src: Path, dst: Path, p: Path)
    ensures Get(Move(m, src, dst), p) == MovedGet(m, src, dst, p)
  {
    GetRebase(m, src, dst, p);
  }

  lemma GetGraftIsGraftedGet(m: map<Path, Node>, src: Path, dst: Path, p: Path)
    requires CanPlace(m, src, dst)
    ensures Get(m + Rebase(m, src, dst), p) == GraftedGet(m, src, dst, p)
  {
    GetRebase(m, src, dst, p);
    if Under(dst, p) {
      AbsentHasNoDescendants(m, dst, p);
    }
  }

  /** Moving a subtree onto a free place keeps the state well-formed. */
  lemma MovePreservesWF(m: map<Path, Node>, src: Path, dst: Path)
    requires CanPlace(m, src, dst) && src != []
    ensures WF(Move(m, src, dst))
  {
    var r := Move(m, src, dst);
    GetMoveIsMovedGet(m, src, dst, []);
    forall p | p in r && p != [] ensures Parent(p) in r && IsDir(r[Parent(p)]) {
      GetMoveIsMovedGet(m, src, dst, p);
      GetMoveIsMovedGet(m, src, dst, Parent(p));
      MovedParent(m, src, dst, p);
    }
    WFFromParents(r, m);
  }

  /** Copying a subtree onto a free place keeps the state well-formed. */
  lemma GraftPreservesWF(m: map<Path, Node>, src: Path, dst: Path)
    requires CanPlace(m, src, dst)
    ensures WF(m + Rebase(m, src, dst))
  {
    var r := m + Rebase(m, src, dst);
    GetGraftIsGraftedGet(m, src, dst, []);
    forall p | p in r && p != [] ensures Parent(p) in r && IsDir(r[Parent(p)]) {
      GetGraftIsGraftedGet(m, src, dst, p);
      GetGraftIsGraftedGet(m, src, dst, Parent(p));
      GraftedParent(m, src, dst, p);
    }
    WFFromParents(r, m);
  }

  /** Removing any subtree but the whole tree keeps the state well-formed. */
  lemma PrunePreservesWF(m: map<Path, Node>, root: Path)
    requires WF(m) && root != []
    ensures WF(Prune(m, root))
  {
    var r := Prune(m, root);
    forall p | p in r && p != [] ensures Parent(p) in r && IsDir(r[Parent(p)]) {
      if Under(root, Parent(p)) {
        UnderParent(p, root);
      }
    }
  }

  /** The subtrees at `a` and `b` trade places, as `renamex_np(RENAME_SWAP)` leaves them. */
  function Swap(m: map<Path, Node>, a: Path, b: Path): map<Path, Node> {
    Prune(Prune(m, a), b) + Rebase(m, a, b) + Rebase(m, b, a)
  }

  /** The lookup view of `Swap`. */
  function SwappedGet(m: map<Path, Node>, a: Path, b: Path, p: Path): Option<Node> {
    if Under(b, p) then Get(m, a + p[|b|..])
    else if Under(a, p) then Get(m, b + p[|a|..])
    else Get(m, p)
  }

  lemma GetSwap(m: map<Path, Node>, a: Path, b: Path, p: Path)
    requires !Under(a, b) && !Under(b, a)
    ensures Get(Swap(m, a, b), p) == SwappedGet(m, a, b, p)
  {
    GetRebase(m, a, b, p);
    GetRebase(m, b, a, p);
    if Under(a, p) && Under(b, p) {
      UnderComparable(a, b, p);
    }
  }

  lemma SwappedParent(m: map<Path, Node>, a: Path, b: Path, p: Path)
    requires WF(m) && a in m && b in m && a != [] && b != [] && !Under(a, b) && !Under(b, a)
    requires p != [] && SwappedGet(m, a, b, p).Some?
    ensures SwappedGet(m, a, b, Parent(p)).Some? && IsDir(SwappedGet(m, a, b, Parent(p)).value)
  {
    if Under(b, p) {
      SwappedInnerParent(m, a, b, p);
    } else if Under(a, p) {
      SwappedInnerParent(m, b, a, p);
      if Under(b, Parent(p)) {
        UnderParent(p, b);
      }
    } else {
      if Under(b, Parent(p)) {
        UnderParent(p, b);
      }
      if Under(a, Parent(p)) {
        UnderParent(p, a);
      }
    }
  }

  /** Inside the subtree moved from `a` to `b`, parents are found where the swap put them. */
  lemma SwappedInnerParent(m: map<Path, Node>, a: Path, b: Path, p: Path)
    requires WF(m) && a in m && b in m && a != [] && b != [] && !Under(a, b) && !Under(b, a)
    requires p != [] && Under(b, p) && Get(m, a + p[|b|..]).Some?
    ensures Under(b, Parent(p)) ==> Get(m, a + Parent(p)[|b|..]).Some? && IsDir(Get(m, a + Parent(p)[|b|..]).value)
    ensures !Under(b, Parent(p)) ==> Parent(p) == Parent(b) && !Under(a, Parent(p)) && Parent(b) in m && IsDir(m[Parent(b)])
  {
    if p == b {
      if Under(a, Parent(b)) {
        UnderParent(b, a);
      }
    } else {
      var rel := p[|b|..];
      UnderSplit(b, p);
      ParentOfAppend(b, rel);
      ParentOfAppend(a, rel);
    }
  }

  /** Swapping two disjoint subtrees keeps the state well-formed. */
  lemma SwapPreservesWF(m: map<Path, Node>, a: Path, b: Path)
    requires WF(m) && a in m && b in m && a != [] && b != [] && !Under(a, b) && !Under(b, a)
    ensures WF(Swap(m, a, b))
  {
    var r := Swap(m, a, b);
    GetSwap(m, a, b, []);
    forall p | p in r && p != [] ensures Parent(p) in r && IsDir(r[Parent(p)]) {
      GetSwap(m, a, b, p);
      GetSwap(m, a, b, Parent(p));
      SwappedParent(m, a, b, p);
    }
    WFFromParents(r, m);
  }

  /** Two states with the same paths and the same modes. */
  predicate SameShape(m: map<Path, Node>, m': map<Path, Node>) {
    m.Keys == m'.Keys && forall p :: p in m ==> m'[p].mode == m[p].mode
  }

  lemma SameShapeWF(m: map<Path, Node>, m': map<Path, Node>)
    requires SameShape(m, m') && WF(m)
    ensures WF(m')
  {
  }

  /** Every node at `p` or below has a type `FileType` can name. */
  ghost predicate Typed(m: map<Path, Node>, p: Path) {
    forall q :: q in m && Under(p, q) ==> FromMode(m[q].mode).Some?
  }

  /* ---------- volumes ---------- */

  /** The volume a path lives on: that of its longest mounted prefix. */
  function VolumeOf(fs: FS, p: Path): Volume {
    MountedVolume(fs.mounts, p)
  }

  function MountedVolume(mounts: map<Path, Volume>, p: Path): Volume
    decreases |p|
  {
    if p in mounts then mounts[p]
    else if p == [] then RootVolume
    else MountedVolume(mounts, Parent(p))
  }

  function Device(fs: FS, p: Path): nat {
    VolumeOf(fs, p).device
  }

  /** What `FileInfo(at:keys: [.volumeUUID, .volumeCapabilities])` reports; the path must exist. */
  function VolumeQuery(fs: FS, p: Path): (r: Result<Volume, Errno>)
    ensures r.Ok? <==> p in fs.nodes
  {
    if p in fs.nodes then Ok(VolumeOf(fs, p)) else Err(LookupError(fs.nodes, p))
  }

  /* ---------- system calls ---------- */

  /** `lstat`: the mode of the node itself (a symbolic link is not followed). */
  function Lstat(fs: FS, p: Path): (r: Result<Mode, Errno>)
    ensures r.Ok? <==> p in fs.nodes
    ensures r.Ok? ==> r.value == fs.nodes[p].mode
    ensures r.Err? ==> r.error == LookupError(fs.nodes, p)
  {
    if p in fs.nodes then Ok(fs.nodes[p].mode) else Err(LookupError(fs.nodes, p))
  }

  /** The directory node `mkdir(path, mode)` creates (the process umask is not modelled). */
  function DirNode(mode: Mode): (n: Node)
    ensures IsDir(n) && n.xattrs == map[] && n.mode & PERMISSION_BITS == mode & PERMISSION_BITS
  {
    Node(MakeMode(Directory, mode), [], map[])
  }

  /** `mkdir(path, mode)`. Like every call that creates, removes or renames, it refuses the
      root itself with `EISDIR`: the kernel's lookup of a path with no last component (`/`)
      rejects any operation but a plain lookup. */
  function Mkdir(fs: FS, p: Path, mode: Mode): (r: Result<FS, Errno>)
    ensures r.Ok? <==> p !in fs.nodes && p != [] && Parent(p) in fs.nodes && IsDir(fs.nodes[Parent(p)])
    ensures r.Ok? ==> r.value == fs.(nodes := fs.nodes[p := DirNode(mode)])
    ensures r.Err? && p !in fs.nodes && p != [] ==> r.error == LookupError(fs.nodes, p)
    ensures r.Err? && p in fs.nodes && p != [] ==> r.error == EEXIST
    ensures p == [] ==> r == Err(EISDIR)
  {
    if p == [] then Err(EISDIR)
    else if p in fs.nodes then Err(EEXIST)
    else if Parent(p) !in fs.nodes || !IsDir(fs.nodes[Parent(p)]) then Err(LookupError(fs.nodes, p))
    else Ok(fs.(nodes := fs.nodes[p := DirNode(mode)]))
  }

  /** `rmdir(path)`: only an empty directory other than the root can go. */
  function Rmdir(fs: FS, p: Path): (r: Result<FS, Errno>)
    ensures r.Ok? <==> p in fs.nodes && IsDir(fs.nodes[p]) && p != [] && ChildNames(fs.nodes, p) == {}
    ensures r.Ok? ==> r.value == fs.(nodes := fs.nodes - {p})
    ensures p == [] && p in fs.nodes ==> r == Err(EISDIR)
  {
    if p !in fs.nodes then Err(LookupError(fs.nodes, p))
    else if p == [] then Err(EISDIR)
    else if !IsDir(fs.nodes[p]) then Err(ENOTDIR)
    else if ChildNames(fs.nodes, p) != {} then Err(ENOTEMPTY)
    else Ok(fs.(nodes := fs.nodes - {p}))
  }

  /** `unlink(path)`: removes a non-directory; a directory is refused with `EPERM`. */
  function Unlink(fs: FS, p: Path): (r: Result<FS, Errno>)
    ensures r.Ok? <==> p in fs.nodes && p != [] && !IsDir(fs.nodes[p])
    ensures r.Ok? ==> r.value == fs.(nodes := fs.nodes - {p})
    ensures p == [] && p in fs.nodes ==> r == Err(EISDIR)
    ensures p != [] && p in fs.nodes && IsDir(fs.nodes[p]) ==> r == Err(EPERM)
  {
    if p !in fs.nodes then Err(LookupError(fs.nodes, p))
    else if p == [] then Err(EISDIR)
    else if IsDir(fs.nodes[p]) then Err(EPERM)
    else Ok(fs.(nodes := fs.nodes - {p}))
  }

  /** Why `rename` refuses to replace an existing target, if it does. */
  function ReplaceConflict(src: Node, dst: Node, dstIsEmpty: bool): Option<Errno> {
    if IsDir(src) && !IsDir(dst) then Some(ENOTDIR)
    else if !IsDir(src) && IsDir(dst) then Some(EISDIR)
    else if IsDir(dst) && !dstIsEmpty then Some(ENOTEMPTY)
    else None
  }

  /** `rename(src, dst)`: moves the subtree at `src` to `dst` on the same device,
      replacing a compatible `dst`. */
  function Rename(fs: FS, src: Path, dst: Path): (r: Result<FS, Errno>)
    ensures r.Ok? && src != dst ==> r.value == fs.(nodes := Move(fs.nodes, src, dst))
    ensures r == Err(EXDEV) ==> Device(fs, src) != Device(fs, dst)
    ensures src in fs.nodes && (src == [] || dst == []) ==> r == Err(EISDIR)
  {
    if src !in fs.nodes then Err(LookupError(fs.nodes, src))
    else if src == [] || dst == [] then Err(EISDIR)
    else if src == dst then Ok(fs)
    else if Parent(dst) !in fs.nodes || !IsDir(fs.nodes[Parent(dst)]) then Err(LookupError(fs.nodes, dst))
    else if Under(src, dst) || Under(dst, src) then Err(EINVAL)
    else if Device(fs, src) != Device(fs, dst) then Err(EXDEV)
    else if dst in fs.nodes && ReplaceConflict(fs.nodes[src], fs.nodes[dst], ChildNames(fs.nodes, dst) == {}).Some? then
      Err(ReplaceConflict(fs.nodes[src], fs.nodes[dst], ChildNames(fs.nodes, dst) == {}).value)
    else Ok(fs.(nodes := Move(fs.nodes, src, dst)))
  }

  /** `renamex_np(a, b, RENAME_SWAP)`: the subtrees at `a` and `b` trade places atomically;
      a nested pair is refused with `EINVAL`, and the root on either side with `EISDIR`. */
  function RenameSwap(fs: FS, a: Path, b: Path): (r: Result<FS, Errno>)
    ensures r.Ok? <==> a in fs.nodes && b in fs.nodes && a != [] && b != []
                       && !Under(a, b) && !Under(b, a) && Device(fs, a) == Device(fs, b)
    ensures r.Ok? ==> r.value == fs.(nodes := Swap(fs.nodes, a, b))
    ensures a in fs.nodes && b in fs.nodes && (a == [] || b == []) ==> r == Err(EISDIR)
    ensures a in fs.nodes && b in fs.nodes && a != [] && b != [] && (Under(a, b) || Under(b, a)) ==> r == Err(EINVAL)
  {
    if a !in fs.nodes then Err(LookupError(fs.nodes, a))
    else if b !in fs.nodes then Err(LookupError(fs.nodes, b))
    else if a == [] || b == [] then Err(EISDIR)
    else if Under(a, b) || Under(b, a) then Err(EINVAL)
    else if Device(fs, a) != Device(fs, b) then Err(EXDEV)
    else Ok(fs.(nodes := Swap(fs.nodes, a, b)))
  }

  /** `exchangedata(a, b, 0)`: two regular files on one device trade their data; each
      path keeps its own mode and extended attributes. */
  function ExchangeData(fs: FS, a: Path, b: Path): (r: Result<FS, Errno>)
    ensures r.Ok? <==> a in fs.nodes && b in fs.nodes && a != b
                       && IsRegular(fs.nodes[a]) && IsRegular(fs.nodes[b]) && Device(fs, a) == Device(fs, b)
    ensures r.Ok? ==>
      r.value.nodes == fs.nodes[a := fs.nodes[a].(content := fs.nodes[b].content)][b := fs.nodes[b].(content := fs.nodes[a].content)]
  {
    if a !in fs.nodes then Err(LookupError(fs.nodes, a))
    else if b !in fs.nodes then Err(LookupError(fs.nodes, b))
    else if a == b || !IsRegular(fs.nodes[a]) || !IsRegular(fs.nodes[b]) then Err(EINVAL)
    else if Device(fs, a) != Device(fs, b) then Err(EXDEV)
    else
      var na := fs.nodes[a];
      var nb := fs.nodes[b];
      Ok(fs.(nodes := fs.nodes[a := na.(content := nb.content)][b := nb.(content := na.content)]))
  }

  /** `copyfile(src, dst, nil, COPYFILE_ALL | COPYFILE_CLONE | COPYFILE_RECURSIVE)`: a deep
      copy of data, modes and attributes onto a free place, across devices too. */
  function CopyFile(fs: FS, src: Path, dst: Path): (r: Result<FS, Errno>)
    ensures r.Ok? ==> src in fs.nodes && dst !in fs.nodes
    ensures r.Ok? ==> r.value == fs.(nodes := fs.nodes + Rebase(fs.nodes, src, dst))
    ensures src in fs.nodes && dst == [] ==> r == Err(EISDIR)
  {
    if src !in fs.nodes then Err(LookupError(fs.nodes, src))
    else if dst == [] then Err(EISDIR)
    else if dst in fs.nodes then Err(EEXIST)
    else if Parent(dst) !in fs.nodes || !IsDir(fs.nodes[Parent(dst)]) then Err(LookupError(fs.nodes, dst))
    else if Under(src, dst) || Under(dst, src) then Err(EINVAL)
    else Ok(fs.(nodes := fs.nodes + Rebase(fs.nodes, src, dst)))
  }

  /** `open(path, O_RDWR)`: succeeds on any existing non-directory. */
  function OpenReadWrite(fs: FS, p: Path): (r: Result<(), Errno>)
    ensures r.Ok? <==> p in fs.nodes && !IsDir(fs.nodes[p])
  {
    if p !in fs.nodes then Err(LookupError(fs.nodes, p))
    else if IsDir(fs.nodes[p]) then Err(EISDIR)
    else Ok(())
  }

  /** The empty owner-only regular file `mkstemp` creates. */
  const TempFileNode := Node(MakeMode(Regular, 0x180), [], map[])  // 0600

  /** `mkstemp` at the name its random choice produced: creates an empty file there. */
  function Mkstemp(fs: FS, p: Path): (r: Result<FS, Errno>)
    ensures r.Ok? <==> p !in fs.nodes && p != [] && Parent(p) in fs.nodes && IsDir(fs.nodes[Parent(p)])
    ensures r.Ok? ==> r.value == fs.(nodes := fs.nodes[p := TempFileNode])
    ensures p == [] ==> r == Err(EISDIR)
    ensures p != [] && p in fs.nodes ==> r == Err(EEXIST)
  {
    if p == [] then Err(EISDIR)
    else if p in fs.nodes then Err(EEXIST)
    else if Parent(p) !in fs.nodes || !IsDir(fs.nodes[Parent(p)]) then Err(LookupError(fs.nodes, p))
    else Ok(fs.(nodes := fs.nodes[p := TempFileNode]))
  }

  /* ---------- extended attributes ---------- */

  /** A node's attributes as the set `ExtendedAttribute.list` returns. */
  function AttrSet(xattrs: map<string, Bytes>): set<Xattr> {
    set k | k in xattrs :: Xattr(k, xattrs[k])
  }

  function KeysOf(attrs: set<Xattr>): set<string> {
    set a | a in attrs :: a.key
  }

  lemma AttrSetMember(xattrs: map<string, Bytes>, a: Xattr)
    ensures a in AttrSet(xattrs) <==> a.key in xattrs && xattrs[a.key] == a.data
  {
  }

  lemma KeysOfAttrSet(xattrs: map<string, Bytes>)
    ensures KeysOf(AttrSet(xattrs)) == xattrs.Keys
  {
    forall k | k in xattrs ensures k in KeysOf(AttrSet(xattrs)) {
      assert Xattr(k, xattrs[k]) in AttrSet(xattrs);
    }
  }

  /** No two attributes of the set share a key. */
  ghost predicate KeyUnique(attrs: set<Xattr>) {
    forall a, b :: a in attrs && b in attrs && a.key == b.key ==> a == b
  }

  /** An arbitrary but fixed element of a non-empty set. */
  ghost function Pick<T>(s: set<T>): (x: T)
    requires s != {}
    ensures x in s
  {
    var x :| x in s; x
  }

  /** The value one of the set's entries gives key `k`; which entry wins a clash is unspecified. */
  ghost function DataFor(attrs: set<Xattr>, k: string): (d: Bytes)
    requires k in KeysOf(attrs)
    ensures Xattr(k, d) in attrs
  {
    var a :| a in attrs && a.key == k;
    a.data
  }

  /** `ExtendedAttribute.write`: a per-key upsert; keys the set does not mention are kept. */
  ghost function Upsert(xattrs: map<string, Bytes>, attrs: set<Xattr>): (r: map<string, Bytes>)
    ensures r.Keys == xattrs.Keys + KeysOf(attrs)
    ensures forall k :: k in r && k !in KeysOf(attrs) ==> r[k] == xattrs[k]
    ensures forall k :: k in KeysOf(attrs) ==> Xattr(k, r[k]) in attrs
  {
    map k | k in xattrs.Keys + KeysOf(attrs) :: if k in KeysOf(attrs) then DataFor(attrs, k) else xattrs[k]
  }

  /** `ExtendedAttribute.list(at:options: .noTraverseLink)`. */
  function ListXattrs(fs: FS, p: Path): (r: Result<set<Xattr>, Errno>)
    ensures r.Ok? <==> p in fs.nodes
    ensures r.Ok? ==> KeyUnique(r.value) && KeysOf(r.value) == fs.nodes[p].xattrs.Keys
  {
    if p in fs.nodes then
      KeysOfAttrSet(fs.nodes[p].xattrs);
      Ok(AttrSet(fs.nodes[p].xattrs))
    else Err(LookupError(fs.nodes, p))
  }

  /** `ExtendedAttribute.write(_:to:options: .noTraverseLink)`. */
  ghost function WriteXattrs(fs: FS, attrs: set<Xattr>, p: Path): (r: Result<FS, Errno>)
    ensures r.Ok? <==> p in fs.nodes
    ensures r.Ok? ==> r.value == fs.(nodes := fs.nodes[p := fs.nodes[p].(xattrs := Upsert(fs.nodes[p].xattrs, attrs))])
  {
    if p in fs.nodes then
      Ok(fs.(nodes := fs.nodes[p := fs.nodes[p].(xattrs := Upsert(fs.nodes[p].xattrs, attrs))]))
    else Err(LookupError(fs.nodes, p))
  }

  /** `ExtendedAttribute.remove(keys:at:options: .noTraverseLink)`: every key must be present. */
  function RemoveXattrs(fs: FS, keys: set<string>, p: Path): (r: Result<FS, Errno>)
    ensures r.Ok? <==> p in fs.nodes && keys <= fs.nodes[p].xattrs.Keys
    ensures r.Ok? ==> r.value == fs.(nodes := fs.nodes[p := fs.nodes[p].(xattrs := fs.nodes[p].xattrs - keys)])
  {
    if p !in fs.nodes then Err(LookupError(fs.nodes, p))
    else if !(keys <= fs.nodes[p].xattrs.Keys) then Err(ENOATTR)
    else Ok(fs.(nodes := fs.nodes[p := fs.nodes[p].(xattrs := fs.nodes[p].xattrs - keys)]))
  }

  /** `fcopyfile(src, dst, nil, COPYFILE_XATTR)` on two open files: `dst`'s whole
      attribute set is replaced by `src`'s. */
  function CopyXattrs(fs: FS, src: Path, dst: Path): (r: Result<FS, Errno>)
    ensures r.Ok? <==> src in fs.nodes && dst in fs.nodes
    ensures r.Ok? ==> r.value == fs.(nodes := fs.nodes[dst := fs.nodes[dst].(xattrs := fs.nodes[src].xattrs)])
  {
    if src !in fs.nodes then Err(LookupError(fs.nodes, src))
    else if dst !in fs.nodes then Err(LookupError(fs.nodes, dst))
    else Ok(fs.(nodes := fs.nodes[dst := fs.nodes[dst].(xattrs := fs.nodes[src].xattrs)]))
  }

  /* ---------- library glue ---------- */

  /** `callPOSIXFunction(path:)`: a failed call becomes an error tagged with `tag`, and
      the state reached so far is kept. */
  function Call(fs: FS, r: Result<FS, Errno>, tag: Option<Path>): (o: Outcome)
    ensures o.Done? <==> r.Ok?
    ensures r.Ok? ==> o == Done(r.value)
    ensures r.Err? ==> o == Failed(fs, Error(r.error, tag))
  {
    match r
    case Ok(fs') => Done(fs')
    case Err(e) => Failed(fs, Error(e, tag))
  }
}

=== FILE: filetypes.dfy ===
/** Node types and their decoding from the file-format bits of a Darwin `mode_t`. */
module FileTypes {
  import opened Wrappers

  /** Darwin's `mode_t` is a 16-bit unsigned integer. */
  type Mode = bv16

  const S_IFMT: Mode := 0xF000    // 0170000
  const S_IFIFO: Mode := 0x1000   // 0010000
  const S_IFCHR: Mode := 0x2000   // 0020000
  const S_IFDIR: Mode := 0x4000   // 0040000
  const S_IFBLK: Mode := 0x6000   // 0060000
  const S_IFREG: Mode := 0x8000   // 0100000
  const S_IFLNK: Mode := 0xA000   // 0120000
  const S_IFSOCK: Mode := 0xC000  // 0140000
  const S_IFWHT: Mode := 0xE000   // 0160000

  /** The permission bits (set-id, sticky and rwx for owner, group, other). */
  const PERMISSION_BITS: Mode := 0x0FFF  // 07777

  datatype FileType =
    | Regular
    | Directory
    | SymbolicLink
    | Fifo
    | CharacterSpecial
    | BlockSpecial
    | Socket
    | Whiteout

  /** The format code the kernel reports for each node type. */
  function FormatBits(t: FileType): Mode {
    match t
    case Regular => S_IFREG
    case Directory => S_IFDIR
    case SymbolicLink => S_IFLNK
    case Fifo => S_IFIFO
    case CharacterSpecial => S_IFCHR
    case BlockSpecial => S_IFBLK
    case Socket => S_IFSOCK
    case Whiteout => S_IFWHT
  }

  /** `FileType(permissionsMode:)`: decode `mode & S_IFMT`; an unknown code has no type. */
  function FromMode(mode: Mode): (t: Option<FileType>)
    ensures t.Some? ==> FormatBits(t.value) == mode & S_IFMT
    ensures t.None? <==> forall u: FileType :: FormatBits(u) != mode & S_IFMT
  {
    var format := mode & S_IFMT;
    if format == S_IFREG then Some(Regular)
    else if format == S_IFDIR then Some(Directory)
    else if format == S_IFLNK then Some(SymbolicLink)
    else if format == S_IFIFO then Some(Fifo)
    else if format == S_IFCHR then Some(CharacterSpecial)
    else if format == S_IFBLK then Some(BlockSpecial)
    else if format == S_IFSOCK then Some(Socket)
    else if format == S_IFWHT then Some(Whiteout)
    else None
  }

  /** The decoding looks at the format bits only: permission bits never change the type. */
  lemma FromModeDependsOnlyOnFormat(mode: Mode, other: Mode)
    requires mode & S_IFMT == other & S_IFMT
    ensures FromMode(mode) == FromMode(other)
  {
  }

  /** Every format code lies inside the `S_IFMT` mask and no two types share one. */
  lemma FormatBitsInjective(t: FileType, u: FileType)
    ensures FormatBits(t) & S_IFMT == FormatBits(t)
    ensures FormatBits(t) == FormatBits(u) ==> t == u
  {
  }

  /** Decoding inverts `FormatBits`: each of the eight codes maps back to its own type,
      whatever permission bits accompany it. */
  lemma FromModeOfFormat(t: FileType, permissions: Mode)
    ensures FromMode(FormatBits(t) | (permissions & PERMISSION_BITS)) == Some(t)
  {
  }

  /** A mode with the given type and permission bits, as `mkdir` and `mkstemp` create. */
  function MakeMode(t: FileType, permissions: Mode): (m: Mode)
    ensures FromMode(m) == Some(t)
    ensures m & PERMISSION_BITS == permissions & PERMISSION_BITS
  {
    FromModeOfFormat(t, permissions);
    FormatBits(t) | (permissions & PERMISSION_BITS)
  }
}

=== FILE: items.dfy ===
/** The basic item operations of `CSFileManager`: classifying, creating, copying, moving
    and removing items, composed from the system calls of `FileSystem`. */
module Items {
  import opened Wrappers
  import opened FileTypes
  import opened FileSystem

  /* ---------- classification ---------- */

  /** `typeOfItem(at:)`: `lstat` the path (a symbolic link is not followed) and decode its mode;
      an unknown format code is `EFTYPE`. Errors carry the path. */
  function TypeOfItem(fs: FS, p: Path): (r: Result<FileType, Error>)
    ensures r.Ok? <==> p in fs.nodes && FromMode(fs.nodes[p].mode).Some?
    ensures r.Ok? ==> FormatBits(r.value) == fs.nodes[p].mode & S_IFMT
    ensures r.Ok? ==> (r.value == Directory <==> IsDir(fs.nodes[p]))
    ensures p !in fs.nodes ==> r == Err(Error(LookupError(fs.nodes, p), Some(p)))
    ensures p in fs.nodes && FromMode(fs.nodes[p].mode).None? ==> r == Err(Error(EFTYPE, Some(p)))
  {
    match Lstat(fs, p)
    case Err(e) => Err(Error(e, Some(p)))
    case Ok(mode) =>
      match FromMode(mode)
      case None => Err(Error(EFTYPE, Some(p)))
      case Some(t) => Ok(t)
  }

  /** `typeOfItem(fileDescriptor:)`: `fstat` of an open descriptor cannot miss its node, but an
      unknown format code is still `EFTYPE`, with no path to report. */
  function TypeOfOpenItem(n: Node): (r: Result<FileType, Error>)
    ensures r.Ok? <==> FromMode(n.mode).Some?
    ensures r.Ok? ==> FormatBits(r.value) == n.mode & S_IFMT
    ensures r.Err? ==> r.error == Error(EFTYPE, None)
  {
    match FromMode(n.mode)
    case None => Err(Error(EFTYPE, None))
    case Some(t) => Ok(t)
  }

  /** `itemIsReachable(at:)`: a missing item (`ENOENT`) answers `false`; every other failure
      of `typeOfItem` is thrown, so an item of unknown type, or a path that runs through a
      non-directory (`ENOTDIR`), is an error rather than an answer. */
  function ItemIsReachable(fs: FS, p: Path): (r: Result<bool, Error>)
    ensures r == Ok(true) <==> p in fs.nodes && FromMode(fs.nodes[p].mode).Some?
    ensures r == Ok(false) <==> p !in fs.nodes && LookupError(fs.nodes, p) == ENOENT
    ensures r.Err? && p in fs.nodes ==> r.error == Error(EFTYPE, Some(p))
    ensures r.Err? && p !in fs.nodes ==> r.error == Error(ENOTDIR, Some(p))
  {
    match TypeOfItem(fs, p)
    case Ok(_) => Ok(true)
    case Err(e) => if e.code == ENOENT then Ok(false) else Err(e)
  }

  /** A path that runs through a regular file, a symbolic link or any other non-directory is
      neither reachable nor unreachable: `lstat` fails with `ENOTDIR`, which is thrown. */
  lemma ReachabilityBelowNonDirectory(fs: FS, q: Path, p: Path)
    requires WF(fs.nodes) && q in fs.nodes && !IsDir(fs.nodes[q]) && Under(q, p) && q != p
    ensures ItemIsReachable(fs, p) == Err(Error(ENOTDIR, Some(p)))
  {
    LookupBelowNonDir(fs.nodes, q, p);
  }

  /* ---------- createDirectory ---------- */

  /** `createDirectory(at:mode:recursively:)`: `mkdir`; when that fails with `ENOENT` and
      `recursively` is set, create the parent recursively with the same mode, then retry the
      leaf once without recursion. Any other failure, `ENOTDIR` included, is thrown at once. */
  function CreateDirectory(fs: FS, p: Path, mode: Mode, recursively: bool): (o: Outcome)
    ensures o.fs.mounts == fs.mounts
    ensures fs.nodes.Keys <= o.fs.nodes.Keys
    ensures p in fs.nodes && p != [] ==> o == Failed(fs, Error(EEXIST, Some(p)))
    ensures p == [] ==> o == Failed(fs, Error(EISDIR, Some(p)))
    ensures p !in fs.nodes && p != [] && (Parent(p) !in fs.nodes || !IsDir(fs.nodes[Parent(p)]))
            && (!recursively || LookupError(fs.nodes, p) == ENOTDIR)
            ==> o == Failed(fs, Error(LookupError(fs.nodes, p), Some(p)))
    ensures o.Done? ==> p in o.fs.nodes && IsDir(o.fs.nodes[p])
    decreases |p|, if recursively then 1 else 0
  {
    match Mkdir(fs, p, mode)
    case Ok(fs') => Done(fs')
    case Err(e) =>
      if recursively && e == ENOENT then
        var fs1 :- CreateDirectory(fs, Parent(p), mode, true);
        CreateDirectory(fs1, p, mode, false)
      else Failed(fs, Error(e, Some(p)))
  }

  /** The length of the longest prefix of `p` that exists. */
  function Deepest(m: map<Path, Node>, p: Path): (k: nat)
    ensures k <= |p|
    ensures [] in m ==> p[..k] in m
    ensures forall i :: k < i <= |p| ==> p[..i] !in m
    decreases |p|
  {
    if p in m then assert p[..|p|] == p; |p|
    else if p == [] then 0
    else
      var k := Deepest(m, Parent(p));
      assert p[..k] == Parent(p)[..k];
      assert forall i :: k < i <= |p| ==> p[..i] !in m by {
        forall i | k < i <= |p| ensures p[..i] !in m {
          if i < |p| {
            assert p[..i] == Parent(p)[..i];
          } else {
            assert p[..i] == p;
          }
        }
      }
      k
  }

  /** Resolution of an absent path fails right below its deepest existing prefix: with
      `ENOENT` when that prefix is a directory and with `ENOTDIR` when it is not. */
  lemma {:induction false} LookupErrorAtDeepest(m: map<Path, Node>, p: Path)
    requires [] in m && p !in m
    ensures Deepest(m, p) < |p|
    ensures LookupError(m, p) == if IsDir(m[p[..Deepest(m, p)]]) then ENOENT else ENOTDIR
    decreases |p|
  {
    assert p != [] && p[..|p|] == p;
    var pp := Parent(p);
    assert pp[..|pp|] == pp;
    if pp !in m {
      LookupErrorAtDeepest(m, pp);
      assert p[..Deepest(m, p)] == pp[..Deepest(m, pp)];
    }
  }

  /** The directories `createDirectory(recursively: true)` adds: every prefix of `p` longer
      than `k`, each with the requested mode. */
  function NewDirs(p: Path, k: nat, mode: Mode): (r: map<Path, Node>)
    ensures forall q :: q in r ==> Under(q, p) && k < |q| && r[q] == DirNode(mode)
    ensures forall i :: k < i <= |p| ==> p[..i] in r
    decreases |p|
  {
    if |p| <= k then map[]
    else
      var r := NewDirs(Parent(p), k, mode);
      assert forall q :: q in r ==> Under(q, p) by {
        forall q | q in r ensures Under(q, p) { UnderTransitive(q, Parent(p), p); }
      }
      assert forall i :: k < i <= |p| - 1 ==> Parent(p)[..i] == p[..i];
      assert Under(p, p) by { assert p[..|p|] == p; }
      r[p := DirNode(mode)]
  }

  /** The last step of a recursive creation: the leaf goes into a parent directory that exists. */
  lemma CreateLeaf(fs: FS, p: Path, mode: Mode, recursively: bool)
    requires p != [] && p !in fs.nodes && Parent(p) in fs.nodes && IsDir(fs.nodes[Parent(p)])
    ensures CreateDirectory(fs, p, mode, recursively) == Done(fs.(nodes := fs.nodes[p := DirNode(mode)]))
  {
  }

  lemma NewDirsStep(m: map<Path, Node>, p: Path, k: nat, mode: Mode)
    requires k < |p|
    ensures (m + NewDirs(Parent(p), k, mode))[p := DirNode(mode)] == m + NewDirs(p, k, mode)
  {
  }

  /** Recursive creation of an absent path whose deepest existing prefix is a directory adds
      exactly the missing prefixes, each a directory with the requested mode; when that
      prefix is not a directory, the first `mkdir` already fails with `ENOTDIR`, which is
      thrown at the requested path, and nothing is created. */
  lemma {:induction false} CreateDirectoryRecursively(fs: FS, p: Path, mode: Mode)
    requires WF(fs.nodes) && p !in fs.nodes
    ensures Deepest(fs.nodes, p) < |p|
    ensures IsDir(fs.nodes[p[..Deepest(fs.nodes, p)]]) ==>
      CreateDirectory(fs, p, mode, true) == Done(fs.(nodes := fs.nodes + NewDirs(p, Deepest(fs.nodes, p), mode)))
    ensures !IsDir(fs.nodes[p[..Deepest(fs.nodes, p)]]) ==>
      CreateDirectory(fs, p, mode, true) == Failed(fs, Error(ENOTDIR, Some(p)))
    decreases |p|
  {
    assert p != [] && p[..|p|] == p;
    LookupErrorAtDeepest(fs.nodes, p);
    if Parent(p) in fs.nodes {
      CreateBesideParent(fs, p, mode);
    } else if IsDir(fs.nodes[p[..Deepest(fs.nodes, p)]]) {
      assert Deepest(fs.nodes, p) == Deepest(fs.nodes, Parent(p));
      assert p[..Deepest(fs.nodes, p)] == Parent(p)[..Deepest(fs.nodes, p)];
      CreateDirectoryRecursively(fs, Parent(p), mode);
      CreateBelowMissingParent(fs, p, mode);
    }
  }

  /** The parent exists: it is the deepest existing prefix, and `mkdir` does the rest. */
  lemma CreateBesideParent(fs: FS, p: Path, mode: Mode)
    requires WF(fs.nodes) && p !in fs.nodes && p != [] && Parent(p) in fs.nodes
    ensures Deepest(fs.nodes, p) == |p| - 1 && p[..|p| - 1] == Parent(p)
    ensures IsDir(fs.nodes[Parent(p)]) ==>
      CreateDirectory(fs, p, mode, true) == Done(fs.(nodes := fs.nodes + NewDirs(p, |p| - 1, mode)))
  {
    var m := fs.nodes;
    var pp := Parent(p);
    var k := Deepest(m, p);
    assert p[..|p|] == p;
    assert pp[..|pp|] == pp;
    assert k == |pp| && p[..k] == pp;
    if IsDir(m[pp]) {
      CreateLeaf(fs, p, mode, true);
      NewDirsStep(m, p, k, mode);
      assert NewDirs(pp, k, mode) == map[];
      assert m + map[] == m;
    }
  }

  /** The parent is missing and the deepest existing prefix is a directory: `mkdir` fails with
      `ENOENT`, the recursive call creates the parent, and `mkdir` of the leaf follows. */
  lemma CreateBelowMissingParent(fs: FS, p: Path, mode: Mode)
    requires WF(fs.nodes) && p !in fs.nodes && p != [] && Parent(p) !in fs.nodes
    requires LookupError(fs.nodes, p) == ENOENT
    requires var pp := Parent(p); var k := Deepest(fs.nodes, pp);
      && k < |pp| && IsDir(fs.nodes[pp[..k]])
      && CreateDirectory(fs, pp, mode, true) == Done(fs.(nodes := fs.nodes + NewDirs(pp, k, mode)))
    ensures CreateDirectory(fs, p, mode, true) == Done(fs.(nodes := fs.nodes + NewDirs(p, Deepest(fs.nodes, p), mode)))
  {
    var m := fs.nodes;
    var pp := Parent(p);
    assert p[..|p|] == p;
    assert Mkdir(fs, p, mode) == Err(ENOENT);
    assert Deepest(m, p) == Deepest(m, pp);
    var k := Deepest(m, p);
    var m1 := m + NewDirs(pp, k, mode);
    assert pp[..|pp|] == pp;
    assert pp in m1 && IsDir(m1[pp]);
    CreateLeaf(fs.(nodes := m1), p, mode, false);
    NewDirsStep(m, p, k, mode);
  }

  /* ---------- createDirectory on a FilePath ---------- */

  /** A `FilePath` as the caller passes it: absolute or relative to the working directory,
      and its components. The empty relative path is the string `""`. */
  datatype FilePath = FilePath(absolute: bool, components: Path)

  /** `removingLastComponent()`: drops the last component, and leaves a path without
      components (`"/"` or `""`) as it is. */
  function RemovingLastComponent(fp: FilePath): (r: FilePath)
    ensures r.absolute == fp.absolute
    ensures fp.components != [] ==> r.components + [fp.components[|fp.components| - 1]] == fp.components
    ensures fp.components == [] ==> r == fp
  {
    if fp.components == [] then fp else fp.(components := Parent(fp.components))
  }

  /** The node a `FilePath` names, given the working directory. */
  function Resolve(cwd: Path, fp: FilePath): (p: Path)
    ensures !fp.absolute && fp.components == [] ==> p == cwd
  {
    if fp.absolute then fp.components else cwd + fp.components
  }

  /** `mkdir` on a `FilePath`: the empty path names nothing and fails with `ENOENT`. */
  function MkdirAt(fs: FS, cwd: Path, fp: FilePath, mode: Mode): (r: Result<FS, Errno>)
    ensures !fp.absolute && fp.components == [] ==> r == Err(ENOENT)
    ensures fp.absolute ==> r == Mkdir(fs, fp.components, mode)
  {
    if !fp.absolute && fp.components == [] then Err(ENOENT) else Mkdir(fs, Resolve(cwd, fp), mode)
  }

  /** `createDirectory(at:mode:recursively:)` on a `FilePath`, as written: on `ENOENT` it
      recurses on `removingLastComponent()` with no check that the path got shorter. `fuel`
      bounds the depth of the recursion, and `None` means the bound was reached. */
  function CreateDirectoryAtAsWritten(fs: FS, cwd: Path, fp: FilePath, mode: Mode, recursively: bool, fuel: nat): (r: Option<Outcome>)
    ensures r.Some? ==> r.value.fs.mounts == fs.mounts
    ensures r.Some? && r.value.Done? ==> Resolve(cwd, fp) in r.value.fs.nodes
    decreases fuel, if recursively then 1 else 0
  {
    match MkdirAt(fs, cwd, fp, mode)
    case Ok(fs') => Some(Done(fs'))
    case Err(e) =>
      if recursively && e == ENOENT then
        if fuel == 0 then None
        else
          match CreateDirectoryAtAsWritten(fs, cwd, RemovingLastComponent(fp), mode, true, fuel - 1)
          case None => None
          case Some(o) =>
            if o.Failed? then Some(o)
            else CreateDirectoryAtAsWritten(o.fs, cwd, fp, mode, false, fuel - 1)
      else Some(Failed(fs, Error(e, Some(Resolve(cwd, fp)))))
  }

  /** As written, `createDirectory(at: "", recursively: true)` never returns: `mkdir("")`
      fails with `ENOENT`, and the parent of `""` is `""` again. No bound on the recursion
      is enough. */
  lemma {:induction false} EmptyPathNeverReturns(fs: FS, cwd: Path, mode: Mode, fuel: nat)
    ensures CreateDirectoryAtAsWritten(fs, cwd, FilePath(false, []), mode, true, fuel) == None
  {
    if fuel > 0 {
      EmptyPathNeverReturns(fs, cwd, mode, fuel - 1);
    }
  }

  /** The same happens for a one-component relative path whose working directory is gone:
      `mkdir` fails with `ENOENT`, and its parent is `""`. */
  lemma OrphanedNameNeverReturns(fs: FS, cwd: Path, a: Name, mode: Mode, fuel: nat)
    requires WF(fs.nodes) && cwd !in fs.nodes && LookupError(fs.nodes, cwd + [a]) == ENOENT
    ensures CreateDirectoryAtAsWritten(fs, cwd, FilePath(false, [a]), mode, true, fuel) == None
  {
    var p := cwd + [a];
    assert Parent(p) == cwd;
    assert p !in fs.nodes;
    assert RemovingLastComponent(FilePath(false, [a])) == FilePath(false, []);
    if fuel > 0 {
      EmptyPathNeverReturns(fs, cwd, mode, fuel - 1);
    }
  }

  /** `createDirectory(at:mode:recursively:)` on a `FilePath`, corrected: the recursion stops,
      and the error is thrown, once there is no component left to remove. */
  function CreateDirectoryAt(fs: FS, cwd: Path, fp: FilePath, mode: Mode, recursively: bool): (o: Outcome)
    ensures o.fs.mounts == fs.mounts
    ensures o.Done? ==> Resolve(cwd, fp) in o.fs.nodes
    ensures !fp.absolute && fp.components == [] ==> o == Failed(fs, Error(ENOENT, Some(cwd)))
    decreases |fp.components|, if recursively then 1 else 0
  {
    match MkdirAt(fs, cwd, fp, mode)
    case Ok(fs') => Done(fs')
    case Err(e) =>
      if recursively && e == ENOENT && fp.components != [] then
        var o := CreateDirectoryAt(fs, cwd, RemovingLastComponent(fp), mode, true);
        if o.Failed? then o else CreateDirectoryAt(o.fs, cwd, fp, mode, false)
      else Failed(fs, Error(e, Some(Resolve(cwd, fp))))
  }

  /** On an absolute path the corrected routine is `createDirectory` on component paths. */
  lemma {:induction false} CreateDirectoryAtAbsolute(fs: FS, cwd: Path, p: Path, mode: Mode, recursively: bool)
    ensures CreateDirectoryAt(fs, cwd, FilePath(true, p), mode, recursively) == CreateDirectory(fs, p, mode, recursively)
    decreases |p|, if recursively then 1 else 0
  {
    match Mkdir(fs, p, mode)
    case Ok(_) =>
    case Err(e) =>
      if recursively && e == ENOENT {
        assert p != [];
        CreateDirectoryAtAbsolute(fs, cwd, Parent(p), mode, true);
        var o := CreateDirectory(fs, Parent(p), mode, true);
        if o.Done? {
          CreateDirectoryAtAbsolute(o.fs, cwd, p, mode, false);
        }
      }
  }

  /** Whenever the routine as written returns, it returns what the corrected one does. */
  lemma {:induction false} AsWrittenAgreesWhenItReturns(fs: FS, cwd: Path, fp: FilePath, mode: Mode, recursively: bool, fuel: nat)
    ensures var r := CreateDirectoryAtAsWritten(fs, cwd, fp, mode, recursively, fuel);
      r.Some? ==> r.value == CreateDirectoryAt(fs, cwd, fp, mode, recursively)
    decreases fuel, if recursively then 1 else 0, 2
  {
    if MkdirAt(fs, cwd, fp, mode) == Err(ENOENT) && recursively && fuel > 0 {
      AgreeWhenClimbing(fs, cwd, fp, mode, fuel);
    } else {
      AgreeWithoutClimb(fs, cwd, fp, mode, recursively, fuel);
    }
  }

  /** The case of `AsWrittenAgreesWhenItReturns` that climbs: both routines first create the
      parent, then retry the leaf. */
  lemma {:induction false} AgreeWhenClimbing(fs: FS, cwd: Path, fp: FilePath, mode: Mode, fuel: nat)
    requires MkdirAt(fs, cwd, fp, mode) == Err(ENOENT) && fuel > 0
    ensures var r := CreateDirectoryAtAsWritten(fs, cwd, fp, mode, true, fuel);
      r.Some? ==> r.value == CreateDirectoryAt(fs, cwd, fp, mode, true)
    decreases fuel, 1, 1
  {
    var up := RemovingLastComponent(fp);
    AsWrittenAgreesWhenItReturns(fs, cwd, up, mode, true, fuel - 1);
    var r1 := CreateDirectoryAtAsWritten(fs, cwd, up, mode, true, fuel - 1);
    if fp.components == [] {
      assert up == fp;
      AgreeAtEmpty(fs, cwd, fp, mode, fuel, r1);
    } else {
      AgreeAfterParent(fs, cwd, fp, mode, fuel, r1);
    }
  }

  /** The climbing case once the parent is settled: the leaf retry agrees too. */
  lemma {:induction false} AgreeAfterParent(fs: FS, cwd: Path, fp: FilePath, mode: Mode, fuel: nat, r1: Option<Outcome>)
    requires fuel > 0 && fp.components != [] && MkdirAt(fs, cwd, fp, mode) == Err(ENOENT)
    requires r1 == CreateDirectoryAtAsWritten(fs, cwd, RemovingLastComponent(fp), mode, true, fuel - 1)
    requires r1.Some? ==> r1.value == CreateDirectoryAt(fs, cwd, RemovingLastComponent(fp), mode, true)
    ensures var r := CreateDirectoryAtAsWritten(fs, cwd, fp, mode, true, fuel);
      r.Some? ==> r.value == CreateDirectoryAt(fs, cwd, fp, mode, true)
    decreases fuel, 1, 0
  {
    if r1.Some? && r1.value.Done? {
      AsWrittenAgreesWhenItReturns(r1.value.fs, cwd, fp, mode, false, fuel - 1);
      assert LeafAgrees(r1.value.fs, cwd, fp, mode, fuel - 1);
    }
    AgreeAtClimb(fs, cwd, fp, mode, fuel, r1);
  }

  /** The cases of `AsWrittenAgreesWhenItReturns` that do not climb. */
  lemma AgreeWithoutClimb(fs: FS, cwd: Path, fp: FilePath, mode: Mode, recursively: bool, fuel: nat)
    requires !(MkdirAt(fs, cwd, fp, mode) == Err(ENOENT) && recursively && fuel > 0)
    ensures var r := CreateDirectoryAtAsWritten(fs, cwd, fp, mode, recursively, fuel);
      r.Some? ==> r.value == CreateDirectoryAt(fs, cwd, fp, mode, recursively)
  {
  }

  /** One step of `AsWrittenAgreesWhenItReturns` where there is no component to remove. */
  lemma AgreeAtEmpty(fs: FS, cwd: Path, fp: FilePath, mode: Mode, fuel: nat, r1: Option<Outcome>)
    requires fuel > 0 && fp.components == [] && MkdirAt(fs, cwd, fp, mode) == Err(ENOENT)
    requires r1 == CreateDirectoryAtAsWritten(fs, cwd, fp, mode, true, fuel - 1)
    requires r1.Some? ==> r1.value == CreateDirectoryAt(fs, cwd, fp, mode, true)
    ensures var r := CreateDirectoryAtAsWritten(fs, cwd, fp, mode, true, fuel);
      r.Some? ==> r.value == CreateDirectoryAt(fs, cwd, fp, mode, true)
  {
    assert RemovingLastComponent(fp) == fp;
  }

  /** The non-recursive retry as written, when it returns, agrees with the corrected one. */
  ghost predicate LeafAgrees(fs: FS, cwd: Path, fp: FilePath, mode: Mode, fuel: nat) {
    var r := CreateDirectoryAtAsWritten(fs, cwd, fp, mode, false, fuel);
    r.Some? ==> r.value == CreateDirectoryAt(fs, cwd, fp, mode, false)
  }

  /** One step of `AsWrittenAgreesWhenItReturns` that climbs to the parent. */
  lemma AgreeAtClimb(fs: FS, cwd: Path, fp: FilePath, mode: Mode, fuel: nat, r1: Option<Outcome>)
    requires fuel > 0 && fp.components != [] && MkdirAt(fs, cwd, fp, mode) == Err(ENOENT)
    requires r1 == CreateDirectoryAtAsWritten(fs, cwd, RemovingLastComponent(fp), mode, true, fuel - 1)
    requires r1.Some? ==> r1.value == CreateDirectoryAt(fs, cwd, RemovingLastComponent(fp), mode, true)
    requires r1.Some? && r1.value.Done? ==> LeafAgrees(r1.value.fs, cwd, fp, mode, fuel - 1)
    ensures var r := CreateDirectoryAtAsWritten(fs, cwd, fp, mode, true, fuel);
      r.Some? ==> r.value == CreateDirectoryAt(fs, cwd, fp, mode, true)
  {
  }

  /** On an absolute path the routine as written returns once the bound exceeds the number
      of components (a call without `recursively` always returns): `mkdir("/")` fails with
      `EISDIR`, so the climb stops at the root. */
  lemma {:induction false} AbsolutePathReturns(fs: FS, cwd: Path, fp: FilePath, mode: Mode, recursively: bool, fuel: nat)
    requires fp.absolute && (recursively ==> fuel > |fp.components|)
    ensures CreateDirectoryAtAsWritten(fs, cwd, fp, mode, recursively, fuel).Some?
    decreases fuel, if recursively then 1 else 0
  {
    match MkdirAt(fs, cwd, fp, mode)
    case Ok(_) =>
    case Err(e) =>
      if recursively && e == ENOENT {
        assert fp.components != [];
        var up := RemovingLastComponent(fp);
        AbsolutePathReturns(fs, cwd, up, mode, true, fuel - 1);
        var r1 := CreateDirectoryAtAsWritten(fs, cwd, up, mode, true, fuel - 1);
        if r1.value.Done? {
          AbsolutePathReturns(r1.value.fs, cwd, fp, mode, false, fuel - 1);
        }
        ReturnsAtClimb(fs, cwd, fp, mode, fuel, r1);
      }
  }

  /** One step of `AbsolutePathReturns` that climbs to the parent. */
  lemma ReturnsAtClimb(fs: FS, cwd: Path, fp: FilePath, mode: Mode, fuel: nat, r1: Option<Outcome>)
    requires fuel > 0 && MkdirAt(fs, cwd, fp, mode) == Err(ENOENT)
    requires r1 == CreateDirectoryAtAsWritten(fs, cwd, RemovingLastComponent(fp), mode, true, fuel - 1) && r1.Some?
    requires r1.value.Done? ==> CreateDirectoryAtAsWritten(r1.value.fs, cwd, fp, mode, false, fuel - 1).Some?
    ensures CreateDirectoryAtAsWritten(fs, cwd, fp, mode, true, fuel).Some?
  {
  }

  /* ---------- removeItem ---------- */

  /** `m'` differs from `m` only by removals at `root` or below it. */
  ghost predicate Untouched(m: map<Path, Node>, m': map<Path, Node>, root: Path) {
    && m'.Keys <= m.Keys
    && forall q :: q in m && !Under(root, q) ==> q in m' && m'[q] == m[q]
  }

  lemma UntouchedWiden(m: map<Path, Node>, m': map<Path, Node>, root: Path, inner: Path)
    requires Untouched(m, m', inner) && Under(root, inner)
    ensures Untouched(m, m', root)
  {
    forall q | q in m && !Under(root, q) ensures q in m' && m'[q] == m[q] {
      if Under(inner, q) {
        UnderTransitive(root, inner, q);
      }
    }
  }

  lemma UntouchedChain(m: map<Path, Node>, m1: map<Path, Node>, m2: map<Path, Node>, root: Path)
    requires Untouched(m, m1, root) && Untouched(m1, m2, root)
    ensures Untouched(m, m2, root)
  {
  }

  /** `removeItem(at:recursively:)`: classify the item with `lstat`; a directory being removed
      recursively first loses each of its entries (removed recursively, in the unspecified
      order of the directory stream); then `rmdir` a directory or `unlink` anything else.
      Whatever happens, only the subtree at `p` can lose nodes. */
  ghost function RemoveItem(fs: FS, p: Path, recursively: bool): (o: Outcome)
    ensures Untouched(fs.nodes, o.fs.nodes, p)
    ensures o.fs.mounts == fs.mounts
    decreases SubtreeSize(fs.nodes, p), 1, 0
  {
    match TypeOfItem(fs, p)
    case Err(e) => Failed(fs, e)
    case Ok(t) =>
      var isDirectory := t == Directory;
      var fs1 :- if isDirectory && recursively then RemoveChildren(fs, p, ChildNames(fs.nodes, p)) else Done(fs);
      Call(fs1, if isDirectory then Rmdir(fs1, p) else Unlink(fs1, p), Some(p))
  }

  /** The loop of `removeItem` over the entries still `pending` in directory `dir`. */
  ghost function RemoveChildren(fs: FS, dir: Path, pending: set<Name>): (o: Outcome)
    requires dir in fs.nodes
    ensures Untouched(fs.nodes, o.fs.nodes, dir)
    ensures dir in o.fs.nodes && o.fs.nodes[dir] == fs.nodes[dir]
    ensures o.fs.mounts == fs.mounts
    decreases SubtreeSize(fs.nodes, dir), 0, |pending|
  {
    if pending == {} then Done(fs)
    else
      var c := Pick(pending);
      UnderAppend(dir, [c]);
      SubtreeShrinks(fs.nodes, fs.nodes, dir, dir + [c]);
      var r := RemoveItem(fs, dir + [c], true);
      UntouchedWiden(fs.nodes, r.fs.nodes, dir, dir + [c]);
      assert !Under(dir + [c], dir);
      var fs1 :- r;
      SubtreeMonotone(fs.nodes, fs1.nodes, dir);
      var o := RemoveChildren(fs1, dir, pending - {c});
      UntouchedChain(fs.nodes, fs1.nodes, o.fs.nodes, dir);
      o
  }

  /** The state after the entries `pending` of `dir` have been removed with their subtrees. */
  ghost function WithoutEntries(m: map<Path, Node>, dir: Path, pending: set<Name>): (r: map<Path, Node>)
    ensures forall q :: Get(r, q) == if |dir| < |q| && Under(dir, q) && q[|dir|] in pending then None else Get(m, q)
  {
    map q | q in m && !(|dir| < |q| && Under(dir, q) && q[|dir|] in pending) :: m[q]
  }

  /** A recursive remove of a well-formed subtree of known types removes exactly that subtree. */
  lemma {:induction false} RemoveItemPrunes(fs: FS, p: Path)
    requires WF(fs.nodes) && p in fs.nodes && p != [] && Typed(fs.nodes, p)
    ensures RemoveItem(fs, p, true) == Done(fs.(nodes := Prune(fs.nodes, p)))
    decreases SubtreeSize(fs.nodes, p), 1, 0
  {
    var m := fs.nodes;
    assert Under(p, p) by { assert p[..|p|] == p; }
    if IsDir(m[p]) {
      RemoveChildrenPrunes(fs, p, ChildNames(m, p));
      var m1 := WithoutEntries(m, p, ChildNames(m, p));
      EmptiedDirPrunes(m, p);
      assert Rmdir(fs.(nodes := m1), p) == Ok(fs.(nodes := m1 - {p}));
    } else {
      NonDirPrunes(m, p);
    }
  }

  /** Once its entries are gone, removing the directory itself removes its whole subtree. */
  lemma EmptiedDirPrunes(m: map<Path, Node>, p: Path)
    requires WF(m) && p in m && p != [] && IsDir(m[p])
    ensures var m1 := WithoutEntries(m, p, ChildNames(m, p));
      p in m1 && m1[p] == m[p] && ChildNames(m1, p) == {} && m1 - {p} == Prune(m, p)
  {
    var m1 := WithoutEntries(m, p, ChildNames(m, p));
    assert Get(m1, p) == Get(m, p);
    forall c ensures c !in ChildNames(m1, p) {
      ChildNamesMember(m1, p, c);
      UnderAppend(p, [c]);
      ChildNamesMember(m, p, c);
      assert Get(m1, p + [c]) == None;
    }
    forall q ensures Get(m1 - {p}, q) == Get(Prune(m, p), q) {
      if Under(p, q) && q != p {
        UnderChild(p, q);
        if q in m {
          if p + [q[|p|]] != q {
            AncestorExists(m, p + [q[|p|]], q);
          }
          ChildNamesMember(m, p, q[|p|]);
        }
      }
    }
    MapsEqual(m1 - {p}, Prune(m, p));
  }

  /** Removing a node that is not a directory removes its whole (one-node) subtree. */
  lemma NonDirPrunes(m: map<Path, Node>, p: Path)
    requires WF(m) && p in m && !IsDir(m[p])
    ensures m - {p} == Prune(m, p)
  {
    forall q ensures Get(m - {p}, q) == Get(Prune(m, p), q) {
      if Under(p, q) && q != p {
        NonDirHasNoDescendants(m, p, q);
      }
    }
    MapsEqual(m - {p}, Prune(m, p));
  }

  lemma TypedInner(m: map<Path, Node>, root: Path, inner: Path)
    requires Typed(m, root) && Under(root, inner)
    ensures Typed(m, inner)
  {
    forall q | q in m && Under(inner, q) ensures FromMode(m[q].mode).Some? {
      UnderTransitive(root, inner, q);
    }
  }

  /** Removing one entry's subtree leaves the other entries of the directory. */
  lemma OtherEntriesRemain(m: map<Path, Node>, dir: Path, c: Name, pending: set<Name>)
    requires pending <= ChildNames(m, dir)
    ensures pending - {c} <= ChildNames(Prune(m, dir + [c]), dir)
  {
    forall c' | c' in pending - {c} ensures c' in ChildNames(Prune(m, dir + [c]), dir) {
      ChildNamesMember(m, dir, c');
      ChildNamesMember(Prune(m, dir + [c]), dir, c');
      assert (dir + [c'])[|dir|] == c';
    }
  }

  lemma WithoutEntriesStep(m: map<Path, Node>, dir: Path, c: Name, pending: set<Name>)
    requires c in pending
    ensures WithoutEntries(Prune(m, dir + [c]), dir, pending - {c}) == WithoutEntries(m, dir, pending)
  {
    var child := dir + [c];
    forall q ensures Get(WithoutEntries(Prune(m, child), dir, pending - {c}), q) == Get(WithoutEntries(m, dir, pending), q) {
      if Under(child, q) {
        assert |dir| < |q| && q[..|dir|] == child[..|dir|] == dir && q[|dir|] == c;
      } else if |dir| < |q| && Under(dir, q) && q[|dir|] == c {
        UnderChild(dir, q);
      }
    }
    MapsEqual(WithoutEntries(Prune(m, child), dir, pending - {c}), WithoutEntries(m, dir, pending));
  }

  /** The loop removes exactly the subtrees of the pending entries. */
  lemma {:induction false} RemoveChildrenPrunes(fs: FS, dir: Path, pending: set<Name>)
    requires WF(fs.nodes) && dir in fs.nodes && IsDir(fs.nodes[dir]) && Typed(fs.nodes, dir)
    requires pending <= ChildNames(fs.nodes, dir)
    ensures RemoveChildren(fs, dir, pending) == Done(fs.(nodes := WithoutEntries(fs.nodes, dir, pending)))
    decreases SubtreeSize(fs.nodes, dir), 0, |pending|
  {
    var m := fs.nodes;
    if pending == {} {
      MapsEqual(WithoutEntries(m, dir, pending), m);
    } else {
      var c := Pick(pending);
      var child := dir + [c];
      UnderAppend(dir, [c]);
      ChildNamesMember(m, dir, c);
      SubtreeShrinks(m, m, dir, child);
      TypedInner(m, dir, child);
      RemoveItemPrunes(fs, child);
      var m1 := Prune(m, child);
      PrunePreservesWF(m, child);
      SubtreeMonotone(m, m1, dir);
      assert !Under(child, dir);
      OtherEntriesRemain(m, dir, c, pending);
      RemoveChildrenPrunes(fs.(nodes := m1), dir, pending - {c});
      WithoutEntriesStep(m, dir, c, pending);
    }
  }

  /** Without `recursively`, a directory that still has entries is refused with `ENOTEMPTY`
      and stays in place. */
  lemma RemoveNonEmptyDirectory(fs: FS, p: Path)
    requires p in fs.nodes && IsDir(fs.nodes[p]) && p != [] && ChildNames(fs.nodes, p) != {}
    ensures RemoveItem(fs, p, false) == Failed(fs, Error(ENOTEMPTY, Some(p)))
  {
  }

  /** A node that is not a directory is unlinked whatever the flag, and with it goes
      exactly its (empty) subtree. */
  lemma RemoveNonDirectory(fs: FS, p: Path, recursively: bool)
    requires WF(fs.nodes) && p in fs.nodes && !IsDir(fs.nodes[p]) && FromMode(fs.nodes[p].mode).Some?
    ensures RemoveItem(fs, p, recursively) == Done(fs.(nodes := Prune(fs.nodes, p)))
  {
    var m := fs.nodes;
    forall q ensures Get(m - {p}, q) == Get(Prune(m, p), q) {
      if Under(p, q) && q != p {
        NonDirHasNoDescendants(m, p, q);
      }
    }
    assert Under(p, p) by { assert p[..|p|] == p; }
    MapsEqual(m - {p}, Prune(m, p));
  }

  /* ---------- copyItem and moveItem ---------- */

  /** `copyItem(at:to:)`: one `copyfile` call; its error carries the destination path. */
  function CopyItem(fs: FS, src: Path, dst: Path): (o: Outcome)
    ensures o.Done? <==> CopyFile(fs, src, dst).Ok?
    ensures o.Done? ==> o.fs.nodes == fs.nodes + Rebase(fs.nodes, src, dst)
    ensures o.Failed? ==> o == Failed(fs, Error(CopyFile(fs, src, dst).error, Some(dst)))
  {
    Call(fs, CopyFile(fs, src, dst), Some(dst))
  }

  /** `moveItem(atPath:toPath:errPath:)`: `rename`; on `EXDEV` copy and then remove the source
      recursively; any other failure is thrown, tagged with the destination, with nothing
      copied or removed. */
  ghost function MoveItem(fs: FS, src: Path, dst: Path): (o: Outcome)
    ensures o.fs.mounts == fs.mounts
    ensures Rename(fs, src, dst).Ok? ==> o == Done(Rename(fs, src, dst).value)
    ensures Rename(fs, src, dst).Err? && Rename(fs, src, dst).error != EXDEV ==>
              o == Failed(fs, Error(Rename(fs, src, dst).error, Some(dst)))
  {
    match Rename(fs, src, dst)
    case Ok(fs') => Done(fs')
    case Err(e) =>
      if e == EXDEV then
        var fs1 :- CopyItem(fs, src, dst);
        RemoveItem(fs1, src, true)
      else Failed(fs, Error(e, Some(dst)))
  }

  /** Whether or not the two places share a device, moving an item of known types onto a free
      place ends as a single `rename` would: the subtree lives at `dst` and nothing else changes. */
  lemma MoveItemActsAsRename(fs: FS, src: Path, dst: Path)
    requires CanPlace(fs.nodes, src, dst) && src != [] && Typed(fs.nodes, src)
    ensures MoveItem(fs, src, dst) == Done(fs.(nodes := Move(fs.nodes, src, dst)))
  {
    var m := fs.nodes;
    if Device(fs, src) != Device(fs, dst) {
      var m1 := m + Rebase(m, src, dst);
      var fs1 := fs.(nodes := m1);
      assert CopyItem(fs, src, dst) == Done(fs1);
      GraftPreservesWF(m, src, dst);
      GetRebaseAll(m, src, dst);
      forall q | q in m1 && Under(src, q) ensures FromMode(m1[q].mode).Some? {
        if Under(dst, q) {
          UnderComparable(src, dst, q);
        }
      }
      assert src in m1;
      RemoveItemPrunes(fs1, src);
      forall q ensures Get(Prune(m1, src), q) == Get(Move(m, src, dst), q) {
        GetMove(m, src, dst, q);
        if Under(dst, q) && Under(src, q) {
          UnderComparable(src, dst, q);
        }
        if Under(dst, q) && !Under(src, q) {
          AbsentHasNoDescendants(m, dst, q);
        }
      }
      MapsEqual(Prune(m1, src), Move(m, src, dst));
    }
  }
}

=== FILE: metadata.dfy ===
/** `copyMetadata`: moving extended attributes between the two items of a replacement,
    as set algebra over the attribute lists. */
module Metadata {
  import opened Wrappers
  import opened FileSystem

  /** Every key the two attribute maps share carries the same data in both. */
  predicate KeysAgree(a: map<string, Bytes>, b: map<string, Bytes>) {
    forall k :: k in a && k in b ==> a[k] == b[k]
  }

  /** `x` could be the result of writing `a ∪ b` as one set: it has the keys of both, and each
      key carries the data one of the two gives it (a key both give differently may take either). */
  ghost predicate MergeOf(x: map<string, Bytes>, a: map<string, Bytes>, b: map<string, Bytes>) {
    && x.Keys == a.Keys + b.Keys
    && forall k :: k in x ==> (k in a && x[k] == a[k]) || (k in b && x[k] == b[k])
  }

  /** When the two maps agree on their shared keys, the only merge is their union. */
  lemma MergeOfAgreeing(x: map<string, Bytes>, a: map<string, Bytes>, b: map<string, Bytes>)
    requires MergeOf(x, a, b) && KeysAgree(a, b)
    ensures x == a + b
  {
  }

  /** Writing the full attribute list of `y` over `x` overlays `y` on `x`: the listed keys
      take `y`'s data and every other key of `x` stays. */
  lemma UpsertAttrSet(x: map<string, Bytes>, y: map<string, Bytes>)
    ensures Upsert(x, AttrSet(y)) == x + y
  {
    var r := Upsert(x, AttrSet(y));
    KeysOfAttrSet(y);
    forall k | k in y ensures r[k] == y[k] {
      AttrSetMember(y, Xattr(k, r[k]));
    }
  }

  /** Writing the union of two attribute lists onto a node that holds the second gives a merge. */
  lemma UpsertUnion(a: map<string, Bytes>, b: map<string, Bytes>)
    ensures MergeOf(Upsert(b, AttrSet(a) + AttrSet(b)), a, b)
  {
    var r := Upsert(b, AttrSet(a) + AttrSet(b));
    KeysOfAttrSet(a);
    KeysOfAttrSet(b);
    assert KeysOf(AttrSet(a) + AttrSet(b)) == a.Keys + b.Keys by {
      forall k | k in a ensures k in KeysOf(AttrSet(a) + AttrSet(b)) {
        assert Xattr(k, a[k]) in AttrSet(a);
      }
      forall k | k in b ensures k in KeysOf(AttrSet(a) + AttrSet(b)) {
        assert Xattr(k, b[k]) in AttrSet(b);
      }
    }
    forall k | k in r ensures (k in a && r[k] == a[k]) || (k in b && r[k] == b[k]) {
      var e := Xattr(k, r[k]);
      if e in AttrSet(a) {
        AttrSetMember(a, e);
      } else {
        AttrSetMember(b, e);
      }
    }
  }

  /** What writing `a ∪ b` onto a node that holds `b` leaves there. */
  ghost function MergedAttrs(a: map<string, Bytes>, b: map<string, Bytes>): (x: map<string, Bytes>)
    ensures MergeOf(x, a, b)
    ensures KeysAgree(a, b) ==> x == a + b
  {
    UpsertUnion(a, b);
    Upsert(b, AttrSet(a) + AttrSet(b))
  }

  /** Which keys the swap removes from `from` after writing the old destination's list back. */
  datatype RemovalRule =
    | WholeElements  // the keys of `srcAttrs.subtracting(newSrcAttrs)`, elements compared with their data
    | ByKey          // the keys `from` had and the destination did not

  /** The keys a rule removes, given the two listed attribute sets. */
  function KeysToRemove(rule: RemovalRule, srcAttrs: set<Xattr>, dstAttrs: set<Xattr>): set<string> {
    match rule
    case WholeElements => KeysOf(srcAttrs - dstAttrs)
    case ByKey => KeysOf(srcAttrs) - KeysOf(dstAttrs)
  }

  /** `copyMetadata(path:from:to:swap:preserveFrom:)` with a given removal rule: list both
      attribute sets; write `to` the source's list (`swap`) or the union of both; with `swap`
      and `preserveFrom`, write the old destination list back to `from` when it is not empty
      and then remove the rule's keys from `from`. */
  ghost function CopyMetadataUsing(rule: RemovalRule, fs: FS, from: Path, to: Path, swap: bool, preserveFrom: bool): (o: Outcome)
    ensures o.fs.mounts == fs.mounts
    ensures o.Done? <==> from in fs.nodes && to in fs.nodes
    ensures from !in fs.nodes ==> o == Failed(fs, Error(LookupError(fs.nodes, from), Some(from)))
  {
    var src := ListXattrs(fs, from);
    if src.Err? then Failed(fs, Error(src.error, Some(from)))
    else
      var dst := ListXattrs(fs, to);
      if dst.Err? then Failed(fs, Error(dst.error, Some(to)))
      else
        var srcAttrs := src.value;
        var dstAttrs := dst.value;
        match WriteXattrs(fs, if swap then srcAttrs else srcAttrs + dstAttrs, to)
        case Err(e) => Failed(fs, Error(e, Some(to)))
        case Ok(fs1) =>
          if swap && preserveFrom then WriteBack(rule, fs1, from, srcAttrs, dstAttrs) else Done(fs1)
  }

  /** The second half of a preserving swap: write the destination's former list to `from`
      unless it is empty, then remove the rule's keys from `from` unless there are none. */
  ghost function WriteBack(rule: RemovalRule, fs: FS, from: Path, srcAttrs: set<Xattr>, dstAttrs: set<Xattr>): (o: Outcome)
    requires from in fs.nodes && KeysOf(srcAttrs) <= fs.nodes[from].xattrs.Keys
    ensures o.Done? && o.fs.mounts == fs.mounts
  {
    var fs2 := if dstAttrs != {} then WriteXattrs(fs, dstAttrs, from).value else fs;
    var keys := KeysToRemove(rule, srcAttrs, dstAttrs);
    if keys != {} then
      assert keys <= fs2.nodes[from].xattrs.Keys;
      Call(fs2, RemoveXattrs(fs2, keys, from), Some(from))
    else Done(fs2)
  }

  /** The routine as the library writes it. */
  ghost function CopyMetadataAsWritten(fs: FS, from: Path, to: Path, swap: bool, preserveFrom: bool): (o: Outcome)
    ensures o.fs.mounts == fs.mounts
    ensures o.Done? <==> from in fs.nodes && to in fs.nodes
  {
    CopyMetadataUsing(WholeElements, fs, from, to, swap, preserveFrom)
  }

  /** The routine with the removal done by key, which the replacement strategies use. */
  ghost function CopyMetadata(fs: FS, from: Path, to: Path, swap: bool, preserveFrom: bool): (o: Outcome)
    ensures o.fs.mounts == fs.mounts
    ensures o.Done? <==> from in fs.nodes && to in fs.nodes
  {
    CopyMetadataUsing(ByKey, fs, from, to, swap, preserveFrom)
  }

  /** What `from` holds after a swap that preserves it: the old destination's attributes,
      less those the rule removes again. */
  function Backup(rule: RemovalRule, src: map<string, Bytes>, dst: map<string, Bytes>): map<string, Bytes> {
    match rule
    case ByKey => dst
    case WholeElements => map k | k in dst && (k !in src || src[k] == dst[k]) :: dst[k]
  }

  /** The whole-element rule gives back the destination's attributes exactly when no shared
      key carries different data on the two sides. */
  lemma BackupExactIffAgree(src: map<string, Bytes>, dst: map<string, Bytes>)
    ensures Backup(WholeElements, src, dst) == dst <==> KeysAgree(src, dst)
  {
    if !KeysAgree(src, dst) {
      var k :| k in src && k in dst && src[k] != dst[k];
      assert k !in Backup(WholeElements, src, dst);
    }
  }

  lemma KeysToRemoveOfLists(rule: RemovalRule, src: map<string, Bytes>, dst: map<string, Bytes>)
    ensures KeysToRemove(rule, AttrSet(src), AttrSet(dst)) ==
      match rule
      case ByKey => src.Keys - dst.Keys
      case WholeElements => set k | k in src && (k !in dst || src[k] != dst[k])
  {
    KeysOfAttrSet(src);
    KeysOfAttrSet(dst);
    if rule == WholeElements {
      var d := AttrSet(src) - AttrSet(dst);
      forall k | k in KeysOf(d) ensures k in src && (k !in dst || src[k] != dst[k]) {
        var e :| e in d && e.key == k;
        AttrSetMember(src, e);
        AttrSetMember(dst, e);
      }
      forall k | k in src && (k !in dst || src[k] != dst[k]) ensures k in KeysOf(d) {
        assert Xattr(k, src[k]) in d;
      }
    }
  }

  /** Overlaying the destination's attributes on `from` and removing the rule's keys leaves the backup. */
  lemma BackupAfterRemoval(rule: RemovalRule, src: map<string, Bytes>, dst: map<string, Bytes>)
    ensures (src + dst) - KeysToRemove(rule, AttrSet(src), AttrSet(dst)) == Backup(rule, src, dst)
  {
    KeysToRemoveOfLists(rule, src, dst);
  }

  /** Without `swap`, `to` receives a merge of both attribute sets and nothing else changes,
      `from` in particular, whatever `preserveFrom` says. */
  lemma CopyMetadataMerges(rule: RemovalRule, fs: FS, from: Path, to: Path, preserveFrom: bool)
    requires from in fs.nodes && to in fs.nodes && from != to
    ensures var o := CopyMetadataUsing(rule, fs, from, to, false, preserveFrom);
      && o.Done?
      && o.fs.nodes == fs.nodes[to := fs.nodes[to].(xattrs := MergedAttrs(fs.nodes[from].xattrs, fs.nodes[to].xattrs))]
  {
  }

  /** With `swap`, `to` gets the source's attributes overlaid on its own; with `preserveFrom`,
      `from` ends holding the rule's backup of the destination's old attributes; nothing
      else changes. */
  lemma CopyMetadataSwaps(rule: RemovalRule, fs: FS, from: Path, to: Path, preserveFrom: bool)
    requires from in fs.nodes && to in fs.nodes && from != to
    ensures var o := CopyMetadataUsing(rule, fs, from, to, true, preserveFrom);
      var src := fs.nodes[from].xattrs;
      var dst := fs.nodes[to].xattrs;
      var to' := fs.nodes[to].(xattrs := dst + src);
      && o.Done?
      && o.fs.nodes == if preserveFrom then fs.nodes[to := to'][from := fs.nodes[from].(xattrs := Backup(rule, src, dst))]
                       else fs.nodes[to := to']
  {
    var m := fs.nodes;
    var src := m[from].xattrs;
    var dst := m[to].xattrs;
    UpsertAttrSet(dst, src);
    KeysOfAttrSet(src);
    var to' := m[to].(xattrs := dst + src);
    var fs1 := fs.(nodes := m[to := to']);
    assert WriteXattrs(fs, AttrSet(src), to) == Ok(fs1);
    if preserveFrom {
      assert fs1.nodes[from] == m[from];
      WriteBackLeavesBackup(rule, fs1, from, src, dst);
    }
  }

  lemma WriteBackLeavesBackup(rule: RemovalRule, fs: FS, from: Path, src: map<string, Bytes>, dst: map<string, Bytes>)
    requires from in fs.nodes && fs.nodes[from].xattrs == src
    requires KeysOf(AttrSet(src)) <= fs.nodes[from].xattrs.Keys
    ensures WriteBack(rule, fs, from, AttrSet(src), AttrSet(dst)) ==
      Done(fs.(nodes := fs.nodes[from := fs.nodes[from].(xattrs := Backup(rule, src, dst))]))
  {
    var n := fs.nodes[from];
    WriteBackWrites(fs, from, src, dst);
    var fs2 := fs.(nodes := fs.nodes[from := n.(xattrs := src + dst)]);
    var keys := KeysToRemove(rule, AttrSet(src), AttrSet(dst));
    BackupAfterRemoval(rule, src, dst);
    KeysToRemoveOfLists(rule, src, dst);
    RemoveBackupKeys(fs2, from, n, src + dst, keys, Backup(rule, src, dst));
    assert fs2.nodes[from := n.(xattrs := Backup(rule, src, dst))] == fs.nodes[from := n.(xattrs := Backup(rule, src, dst))];
  }

  /** The write step of a preserving swap: `from` holds its own attributes overlaid with the
      destination's former ones (an empty list writes nothing). */
  lemma WriteBackWrites(fs: FS, from: Path, src: map<string, Bytes>, dst: map<string, Bytes>)
    requires from in fs.nodes && fs.nodes[from].xattrs == src
    ensures (if AttrSet(dst) != {} then WriteXattrs(fs, AttrSet(dst), from).value else fs)
            == fs.(nodes := fs.nodes[from := fs.nodes[from].(xattrs := src + dst)])
  {
    var n := fs.nodes[from];
    KeysOfAttrSet(dst);
    UpsertAttrSet(src, dst);
    if AttrSet(dst) == {} {
      assert dst == map[];
      assert src + dst == src;
      assert fs.nodes[from := n] == fs.nodes;
    }
  }

  /** The final removal step of a preserving swap. */
  lemma RemoveBackupKeys(fs: FS, from: Path, n: Node, x: map<string, Bytes>, keys: set<string>, result: map<string, Bytes>)
    requires from in fs.nodes && fs.nodes[from] == n.(xattrs := x) && x - keys == result && keys <= x.Keys
    ensures (if keys != {} then Call(fs, RemoveXattrs(fs, keys, from), Some(from)) else Done(fs))
            == Done(fs.(nodes := fs.nodes[from := n.(xattrs := result)]))
  {
    if keys == {} {
      assert x - keys == x;
    }
  }

  /** With the by-key rule, a preserving swap leaves `from` with exactly the destination's
      former attributes, whatever the two sides hold. */
  lemma CopyMetadataSwapRestoresBackup(fs: FS, from: Path, to: Path)
    requires from in fs.nodes && to in fs.nodes && from != to
    ensures var o := CopyMetadata(fs, from, to, true, true);
      o.Done? && o.fs.nodes[from].xattrs == fs.nodes[to].xattrs
                && o.fs.nodes[to].xattrs == fs.nodes[to].xattrs + fs.nodes[from].xattrs
  {
    CopyMetadataSwaps(ByKey, fs, from, to, true);
  }

  /** As written, a preserving swap loses a key both sides hold with different data: `from`
      has `k = 1`, `to` has `k = 2`, and `from` ends with no attributes instead of `k = 2`. */
  lemma BackupLosesConflictingKey()
    ensures var fs := FS(map[[] := DirNode(0x1ED), ["a"] := Node(0x81A4, [], map["k" := [1]]),
                                ["b"] := Node(0x81A4, [], map["k" := [2]])], map[]);
      var o := CopyMetadataAsWritten(fs, ["a"], ["b"], true, true);
      o.Done? && o.fs.nodes[["a"]].xattrs == map[] && fs.nodes[["b"]].xattrs != map[]
  {
    var fs := FS(map[[] := DirNode(0x1ED), ["a"] := Node(0x81A4, [], map["k" := [1]]),
                     ["b"] := Node(0x81A4, [], map["k" := [2]])], map[]);
    CopyMetadataSwaps(WholeElements, fs, ["a"], ["b"], true);
    var b := Backup(WholeElements, map["k" := [1]], map["k" := [2]]);
    assert "k" !in b;
    assert b == map[];
  }
}

=== FILE: replace.dfy ===
/** `replaceItem(at:withItemAt:options:)`: replacing an item by another one, by the most atomic
    means the original's volume offers. */
module Replace {
  import opened Wrappers
  import opened FileTypes
  import opened FileSystem
  import opened Items
  import opened Metadata

  /* ---------- options and strategy choice ---------- */

  /** `ItemReplacementOptions`, an option set over a 32-bit raw value. */
  datatype Options = Options(rawValue: bv32) {

    /** `.usingNewMetadataOnly` (raw value 1): the original's attributes are not carried over. */
    predicate UsingNewMetadataOnly() {
      rawValue & 1 == 1
    }

    /** `.withoutDeletingBackupItem` (raw value 2): the replaced original survives at the new item's path. */
    predicate WithoutDeletingBackupItem() {
      rawValue & 2 == 2
    }
  }

  /** The option set holding exactly the given members. */
  function OptionsOf(usingNewMetadataOnly: bool, withoutDeletingBackupItem: bool): (o: Options)
    ensures o.UsingNewMetadataOnly() == usingNewMetadataOnly
    ensures o.WithoutDeletingBackupItem() == withoutDeletingBackupItem
    ensures o.rawValue & !3 == 0
  {
    Options((if usingNewMetadataOnly then 1 else 0) | (if withoutDeletingBackupItem then 2 else 0))
  }

  /** An option set is determined by its two members, up to raw bits no member uses. */
  lemma OptionsRoundTrip(o: Options)
    ensures OptionsOf(o.UsingNewMetadataOnly(), o.WithoutDeletingBackupItem()).rawValue == o.rawValue & 3
  {
  }

  datatype Strategy = RenameSwapStrategy | ExchangeStrategy | ManualStrategy

  /** Both volumes report a UUID, the UUIDs are equal, and the original's volume reports its
      capabilities. */
  predicate SameVolumeKnown(origUuid: Option<Uuid>, newUuid: Option<Uuid>, caps: Option<set<Capability>>) {
    origUuid.Some? && newUuid.Some? && origUuid.value == newUuid.value && caps.Some?
  }

  /** The dispatch of the private `replaceItem`: rename-swap, else exchangedata, else the
      manual dance; only the original volume's capabilities are consulted. */
  function ChooseStrategy(origUuid: Option<Uuid>, newUuid: Option<Uuid>, caps: Option<set<Capability>>): (s: Strategy)
    ensures s == RenameSwapStrategy <==> SameVolumeKnown(origUuid, newUuid, caps) && RenameSwapCap in caps.value
    ensures s == ExchangeStrategy <==>
      SameVolumeKnown(origUuid, newUuid, caps) && RenameSwapCap !in caps.value && ExchangeDataCap in caps.value
    ensures s == ManualStrategy <==>
      !SameVolumeKnown(origUuid, newUuid, caps) || (RenameSwapCap !in caps.value && ExchangeDataCap !in caps.value)
  {
    if origUuid.Some? && newUuid.Some? && origUuid.value == newUuid.value && caps.Some? then
      if RenameSwapCap in caps.value then RenameSwapStrategy
      else if ExchangeDataCap in caps.value then ExchangeStrategy
      else ManualStrategy
    else ManualStrategy
  }

  /** A volume UUID names one device. */
  ghost predicate UuidsIdentifyDevices(fs: FS) {
    forall p, q :: VolumeOf(fs, p).uuid.Some? && VolumeOf(fs, p).uuid == VolumeOf(fs, q).uuid ==>
      VolumeOf(fs, p).device == VolumeOf(fs, q).device
  }

  /** The two native strategies are only chosen for items on one device, so neither of their
      system calls can fail with `EXDEV`. */
  lemma NativeStrategyOnOneDevice(fs: FS, orig: Path, repl: Path)
    requires UuidsIdentifyDevices(fs)
    requires ChooseStrategy(VolumeOf(fs, orig).uuid, VolumeOf(fs, repl).uuid, VolumeOf(fs, orig).capabilities) != ManualStrategy
    ensures Device(fs, orig) == Device(fs, repl)
  {
  }

  /* ---------- the three strategies ---------- */

  /** `renameSwap`: unless only the new metadata is wanted, merge the original's attributes
      into the new item; swap the two with `renamex_np(RENAME_SWAP)`; unless the backup is
      kept, remove what is now at the new path. */
  ghost function RenameSwapReplace(fs: FS, orig: Path, repl: Path, options: Options): (o: Outcome)
    ensures o.fs.mounts == fs.mounts
    ensures orig !in fs.nodes || repl !in fs.nodes ==> o.Failed? && o.fs == fs
  {
    var fs1 :- if !options.UsingNewMetadataOnly() then CopyMetadata(fs, orig, repl, false, true) else Done(fs);
    var fs2 :- Call(fs1, RenameSwap(fs1, repl, orig), Some(orig));
    if !options.WithoutDeletingBackupItem() then RemoveItem(fs2, repl, true) else Done(fs2)
  }

  /** The three `fcopyfile(COPYFILE_XATTR)` calls that keep a backup of the original's
      attributes in the temporary file while the new attributes go to the original. */
  function ShuffleXattrs(fs: FS, orig: Path, repl: Path, temp: Path): (o: Outcome)
    ensures o.fs.mounts == fs.mounts
  {
    var fs1 :- Call(fs, CopyXattrs(fs, orig, temp), Some(orig));
    var fs2 :- Call(fs1, CopyXattrs(fs1, repl, orig), Some(orig));
    Call(fs2, CopyXattrs(fs2, temp, repl), Some(orig))
  }

  /** The `defer` that closes and removes the temporary file: the removal's own error is
      dropped, the outcome of the work it follows is kept. */
  ghost function DiscardTemporary(o: Outcome, temp: Path): (r: Outcome)
    ensures r.Done? == o.Done? && (r.Failed? ==> r.error == o.error)
    ensures r.fs.mounts == o.fs.mounts
  {
    var removed := RemoveItem(o.fs, temp, false);
    if o.Done? then Done(removed.fs) else Failed(removed.fs, o.error)
  }

  /** The `usingNewMetadataOnly` half of `exchangeFiles`: open both files read-write; when the
      backup is kept, park the original's attributes in a fresh temporary file (at the path
      `mkstemp` chose) and hand them to the new path afterwards; the new item's attributes go
      to the original either way. */
  ghost function KeepNewMetadataOnly(fs: FS, orig: Path, repl: Path, keepBackup: bool, temp: Path): (o: Outcome)
    ensures o.fs.mounts == fs.mounts
    ensures o.Done? ==> orig in fs.nodes && repl in fs.nodes && !IsDir(fs.nodes[orig]) && !IsDir(fs.nodes[repl])
    ensures !(orig in fs.nodes && repl in fs.nodes && !IsDir(fs.nodes[orig]) && !IsDir(fs.nodes[repl])) ==>
              o.Failed? && o.fs == fs && o.error.path == None
  {
    match OpenReadWrite(fs, orig)
    case Err(e) => Failed(fs, Error(e, None))
    case Ok(_) =>
      match OpenReadWrite(fs, repl)
      case Err(e) => Failed(fs, Error(e, None))
      case Ok(_) =>
        if keepBackup then
          match Mkstemp(fs, temp)
          case Err(e) => Failed(fs, Error(e, None))
          case Ok(fsTemp) => DiscardTemporary(ShuffleXattrs(fsTemp, orig, repl, temp), temp)
        else Call(fs, CopyXattrs(fs, repl, orig), Some(orig))
  }

  /** What `exchangedata` accepts: two distinct regular files on one device. */
  ghost predicate Exchangeable(fs: FS, orig: Path, repl: Path) {
    && orig in fs.nodes && repl in fs.nodes && orig != repl
    && IsRegular(fs.nodes[orig]) && IsRegular(fs.nodes[repl]) && Device(fs, orig) == Device(fs, repl)
  }

  /** `exchangeFiles`: swap the two files' data with `exchangedata`, then sort out the
      attributes (which stayed with their paths), then remove the new path unless the backup
      is kept. The attribute step runs `copyMetadata` with the given removal rule: the library
      as written uses `WholeElements`, the corrected routine `ByKey`. */
  ghost function ExchangeReplace(rule: RemovalRule, fs: FS, orig: Path, repl: Path, options: Options, temp: Path): (o: Outcome)
    ensures o.fs.mounts == fs.mounts
    ensures o.Done? ==> Exchangeable(fs, orig, repl)
    ensures !Exchangeable(fs, orig, repl) ==> o.Failed? && o.fs == fs && o.error.path == Some(orig)
  {
    var fs1 :- Call(fs, ExchangeData(fs, repl, orig), Some(orig));
    var fs2 :- if options.UsingNewMetadataOnly() then KeepNewMetadataOnly(fs1, orig, repl, options.WithoutDeletingBackupItem(), temp)
               else CopyMetadataUsing(rule, fs1, repl, orig, true, options.WithoutDeletingBackupItem());
    if !options.WithoutDeletingBackupItem() then RemoveItem(fs2, repl, true) else Done(fs2)
  }

  /** The scratch name of the manual strategy: the new path's string followed by `.swap.` and
      a UUID string, so a sibling of the new item. */
  function ScratchPath(repl: Path, uuid: string): (s: Path)
    ensures s != [] && |s| == if repl == [] then 1 else |repl|
    ensures repl != [] ==> Parent(s) == Parent(repl) && s != repl
  {
    if repl == [] then [".swap." + uuid]
    else
      var last := repl[|repl| - 1];
      assert |last + ".swap." + uuid| > |last|;
      Parent(repl) + [last + ".swap." + uuid]
  }

  /** `manualReplaceItem`: unless only the new metadata is wanted, merge the original's
      attributes into the new item; then move the original to the scratch path, the new item to
      the original path, and either the scratch item to the new path or the scratch item away. */
  ghost function ManualReplace(fs: FS, orig: Path, repl: Path, options: Options, uuid: string): (o: Outcome)
    ensures o.fs.mounts == fs.mounts
    ensures orig !in fs.nodes ==> o.Failed? && o.fs == fs
  {
    var fs1 :- if !options.UsingNewMetadataOnly() then CopyMetadata(fs, orig, repl, false, true) else Done(fs);
    var scratch := ScratchPath(repl, uuid);
    var fs2 :- MoveItem(fs1, orig, scratch);
    var fs3 :- MoveItem(fs2, repl, orig);
    if options.WithoutDeletingBackupItem() then MoveItem(fs3, scratch, repl) else RemoveItem(fs3, scratch, true)
  }

  /** The choices the strategies leave to chance: the UUID string of the manual scratch name
      and the path `mkstemp` picks for the exchange strategy's temporary file. */
  datatype Oracle = Oracle(uuid: string, temporaryFile: Path)

  /** The public `replaceItem(at:withItemAt:options:)`: query both items' volumes (either
      query fails when its item is missing), choose a strategy and run it. The removal rule
      is the one `copyMetadata` applies in the exchange strategy. */
  ghost function ReplaceItem(rule: RemovalRule, fs: FS, orig: Path, repl: Path, options: Options, oracle: Oracle): (o: Outcome)
    ensures orig !in fs.nodes ==> o == Failed(fs, Error(LookupError(fs.nodes, orig), Some(orig)))
    ensures orig in fs.nodes && repl !in fs.nodes ==> o == Failed(fs, Error(LookupError(fs.nodes, repl), Some(repl)))
  {
    match VolumeQuery(fs, orig)
    case Err(e) => Failed(fs, Error(e, Some(orig)))
    case Ok(origVolume) =>
      match VolumeQuery(fs, repl)
      case Err(e) => Failed(fs, Error(e, Some(repl)))
      case Ok(newVolume) =>
        match ChooseStrategy(origVolume.uuid, newVolume.uuid, origVolume.capabilities)
        case RenameSwapStrategy => RenameSwapReplace(fs, orig, repl, options)
        case ExchangeStrategy => ExchangeReplace(rule, fs, orig, repl, options, oracle.temporaryFile)
        case ManualStrategy => ManualReplace(fs, orig, repl, options, oracle.uuid)
  }

  /* ---------- the promised end state ---------- */

  /** The attributes the replacing item carries at the original path. */
  ghost function ReplacedAttrs(m: map<Path, Node>, orig: Path, repl: Path, options: Options): (x: map<string, Bytes>)
    requires orig in m && repl in m
    ensures options.UsingNewMetadataOnly() ==> x == m[repl].xattrs
    ensures !options.UsingNewMetadataOnly() ==> MergeOf(x, m[orig].xattrs, m[repl].xattrs)
  {
    if options.UsingNewMetadataOnly() then m[repl].xattrs else MergedAttrs(m[orig].xattrs, m[repl].xattrs)
  }

  /** The state after the metadata step: the new item carries the replaced attributes. */
  ghost function Prepared(m: map<Path, Node>, orig: Path, repl: Path, options: Options): map<Path, Node>
    requires orig in m && repl in m
  {
    m[repl := m[repl].(xattrs := ReplacedAttrs(m, orig, repl, options))]
  }

  /** The end state of a replacement of whole subtrees. */
  ghost function Planned(m: map<Path, Node>, orig: Path, repl: Path, options: Options): map<Path, Node>
    requires orig in m && repl in m
  {
    var m1 := Prepared(m, orig, repl, options);
    if options.WithoutDeletingBackupItem() then Swap(m1, repl, orig) else Move(m1, repl, orig)
  }

  /** Two paths neither of which lies inside the other. */
  predicate Apart(a: Path, b: Path) {
    !Under(a, b) && !Under(b, a)
  }

  lemma ApartDescendant(a: Path, b: Path, p: Path)
    requires Apart(a, b) && Under(a, p)
    ensures !Under(b, p)
  {
    if Under(b, p) {
      UnderComparable(a, b, p);
    }
  }

  /** What the promised end state means: the original path holds the new item with the
      replaced attributes (and the new item's subtree below it); the new path holds the former
      original when the backup is kept and nothing otherwise; every other path is as before. */
  lemma PlannedView(m: map<Path, Node>, orig: Path, repl: Path, options: Options, p: Path)
    requires orig in m && repl in m && Apart(orig, repl)
    ensures Get(Planned(m, orig, repl, options), p) ==
      if Under(orig, p) then
        if p == orig then Some(m[repl].(xattrs := ReplacedAttrs(m, orig, repl, options))) else Get(m, repl + p[|orig|..])
      else if Under(repl, p) then
        if options.WithoutDeletingBackupItem() then Get(m, orig + p[|repl|..]) else None
      else Get(m, p)
  {
    var m1 := Prepared(m, orig, repl, options);
    GetSwap(m1, repl, orig, p);
    GetMove(m1, repl, orig, p);
    if Under(orig, p) {
      ApartDescendant(orig, repl, p);
      UnderSplit(orig, p);
      if p == orig {
        assert repl + p[|orig|..] == repl;
      } else {
        UnderAppend(repl, p[|orig|..]);
      }
    } else if Under(repl, p) {
      UnderAppend(orig, p[|repl|..]);
      ApartDescendant(orig, repl, orig + p[|repl|..]);
    }
  }

  /** What every strategy may assume of the two items. */
  ghost predicate ReplacePre(fs: FS, orig: Path, repl: Path) {
    && WF(fs.nodes) && orig in fs.nodes && repl in fs.nodes && orig != [] && repl != []
    && Apart(orig, repl) && Typed(fs.nodes, orig) && Typed(fs.nodes, repl)
  }

  /** The metadata step leaves the prepared state and keeps its shape. */
  lemma PrepareStep(fs: FS, orig: Path, repl: Path, options: Options)
    requires ReplacePre(fs, orig, repl)
    ensures (if !options.UsingNewMetadataOnly() then CopyMetadata(fs, orig, repl, false, true) else Done(fs))
            == Done(fs.(nodes := Prepared(fs.nodes, orig, repl, options)))
    ensures SameShape(fs.nodes, Prepared(fs.nodes, orig, repl, options))
    ensures WF(Prepared(fs.nodes, orig, repl, options))
    ensures Typed(Prepared(fs.nodes, orig, repl, options), orig) && Typed(Prepared(fs.nodes, orig, repl, options), repl)
  {
    var m := fs.nodes;
    if options.UsingNewMetadataOnly() {
      assert m[repl := m[repl]] == m;
    } else {
      CopyMetadataMerges(ByKey, fs, orig, repl, true);
    }
    PreparedShape(m, orig, repl, options);
  }

  /** Changing only the new item's attributes keeps every path's mode. */
  lemma PreparedShape(m: map<Path, Node>, orig: Path, repl: Path, options: Options)
    requires WF(m) && orig in m && repl in m && Typed(m, orig) && Typed(m, repl)
    ensures SameShape(m, Prepared(m, orig, repl, options))
    ensures WF(Prepared(m, orig, repl, options))
    ensures Typed(Prepared(m, orig, repl, options), orig) && Typed(Prepared(m, orig, repl, options), repl)
  {
    SameShapeWF(m, Prepared(m, orig, repl, options));
  }

  /** Read through the swap, the new path's subtree holds the original's; once that subtree
      is pruned, what remains is the plain move of the new item onto the original. */
  lemma SwapPrunedPoint(m1: map<Path, Node>, orig: Path, repl: Path, p: Path)
    requires Apart(orig, repl)
    ensures Get(Prune(Swap(m1, repl, orig), repl), p) == MovedGet(m1, repl, orig, p)
  {
    GetSwap(m1, repl, orig, p);
    if Under(orig, p) {
      ApartDescendant(orig, repl, p);
    }
  }

  lemma SwapThenPrune(m1: map<Path, Node>, orig: Path, repl: Path)
    requires Apart(orig, repl)
    ensures Prune(Swap(m1, repl, orig), repl) == Move(m1, repl, orig)
  {
    forall p ensures Get(Prune(Swap(m1, repl, orig), repl), p) == Get(Move(m1, repl, orig), p) {
      SwapPrunedPoint(m1, orig, repl, p);
      GetMoveIsMovedGet(m1, repl, orig, p);
    }
    MapsEqual(Prune(Swap(m1, repl, orig), repl), Move(m1, repl, orig));
  }

  /** After the swap, the new path holds the original's typed subtree. */
  lemma TypedAfterSwap(m1: map<Path, Node>, orig: Path, repl: Path)
    requires Apart(orig, repl) && Typed(m1, orig)
    ensures Typed(Swap(m1, repl, orig), repl)
  {
    var m2 := Swap(m1, repl, orig);
    forall q | q in m2 && Under(repl, q) ensures FromMode(m2[q].mode).Some? {
      GetSwap(m1, repl, orig, q);
      ApartDescendant(repl, orig, q);
      UnderAppend(orig, q[|repl|..]);
    }
  }

  /** After the swap, the new path holds a well-formed, typed subtree that can be removed. */
  lemma SwappedBackupRemovable(m1: map<Path, Node>, orig: Path, repl: Path)
    requires WF(m1) && orig in m1 && repl in m1 && Apart(orig, repl) && Typed(m1, orig)
    ensures var m2 := Swap(m1, repl, orig);
      WF(m2) && repl in m2 && Typed(m2, repl)
  {
    SwapPreservesWF(m1, repl, orig);
    GetSwap(m1, repl, orig, repl);
    assert orig + repl[|repl|..] == orig;
    TypedAfterSwap(m1, orig, repl);
  }

  /** Removing the backup left at the new path after the swap amounts to a plain move. */
  lemma RemoveSwappedBackup(fs: FS, m1: map<Path, Node>, orig: Path, repl: Path)
    requires WF(m1) && orig in m1 && repl in m1 && orig != [] && repl != [] && Apart(orig, repl)
    requires Typed(m1, orig)
    ensures RemoveItem(fs.(nodes := Swap(m1, repl, orig)), repl, true) == Done(fs.(nodes := Move(m1, repl, orig)))
  {
    SwappedBackupRemovable(m1, orig, repl);
    RemoveItemPrunes(fs.(nodes := Swap(m1, repl, orig)), repl);
    SwapThenPrune(m1, orig, repl);
  }

  /** On one device, the swap of two items apart from each other succeeds. */
  lemma SwapStep(fs: FS, m1: map<Path, Node>, orig: Path, repl: Path)
    requires orig in m1 && repl in m1 && Apart(orig, repl) && Device(fs, orig) == Device(fs, repl)
    ensures var fs1 := fs.(nodes := m1);
      Call(fs1, RenameSwap(fs1, repl, orig), Some(orig)) == Done(fs1.(nodes := Swap(m1, repl, orig)))
  {
    var fs1 := fs.(nodes := m1);
    assert Device(fs1, orig) == Device(fs, orig) && Device(fs1, repl) == Device(fs, repl);
  }

  /** With `renamex_np(RENAME_SWAP)` available, the replacement ends in the promised state. */
  lemma RenameSwapReplaceEnds(fs: FS, orig: Path, repl: Path, options: Options)
    requires ReplacePre(fs, orig, repl) && Device(fs, orig) == Device(fs, repl)
    ensures RenameSwapReplace(fs, orig, repl, options) == Done(fs.(nodes := Planned(fs.nodes, orig, repl, options)))
  {
    PrepareStep(fs, orig, repl, options);
    var m1 := Prepared(fs.nodes, orig, repl, options);
    SwapStep(fs, m1, orig, repl);
    if options.WithoutDeletingBackupItem() {
      SwapKeepingBackup(fs, orig, repl, options);
    } else {
      RemoveSwappedBackup(fs, m1, orig, repl);
      SwapRemovingBackup(fs, orig, repl, options);
    }
  }

  /** The step structure of `renameSwap` when the backup is kept. */
  lemma SwapKeepingBackup(fs: FS, orig: Path, repl: Path, options: Options)
    requires ReplacePre(fs, orig, repl) && options.WithoutDeletingBackupItem()
    requires (if !options.UsingNewMetadataOnly() then CopyMetadata(fs, orig, repl, false, true) else Done(fs))
             == Done(fs.(nodes := Prepared(fs.nodes, orig, repl, options)))
    requires var fs1 := fs.(nodes := Prepared(fs.nodes, orig, repl, options));
      Call(fs1, RenameSwap(fs1, repl, orig), Some(orig)) == Done(fs1.(nodes := Swap(fs1.nodes, repl, orig)))
    ensures RenameSwapReplace(fs, orig, repl, options) == Done(fs.(nodes := Planned(fs.nodes, orig, repl, options)))
  {
  }

  /** The step structure of `renameSwap` when the backup is removed. */
  lemma SwapRemovingBackup(fs: FS, orig: Path, repl: Path, options: Options)
    requires ReplacePre(fs, orig, repl) && !options.WithoutDeletingBackupItem()
    requires (if !options.UsingNewMetadataOnly() then CopyMetadata(fs, orig, repl, false, true) else Done(fs))
             == Done(fs.(nodes := Prepared(fs.nodes, orig, repl, options)))
    requires var m1 := Prepared(fs.nodes, orig, repl, options); var fs1 := fs.(nodes := m1);
      Call(fs1, RenameSwap(fs1, repl, orig), Some(orig)) == Done(fs1.(nodes := Swap(m1, repl, orig)))
    requires var m1 := Prepared(fs.nodes, orig, repl, options);
      RemoveItem(fs.(nodes := Swap(m1, repl, orig)), repl, true) == Done(fs.(nodes := Move(m1, repl, orig)))
    ensures RenameSwapReplace(fs, orig, repl, options) == Done(fs.(nodes := Planned(fs.nodes, orig, repl, options)))
  {
  }

  /** The scratch path sits beside the new item, apart from both items. */
  lemma ScratchApart(m: map<Path, Node>, orig: Path, repl: Path, uuid: string)
    requires WF(m) && orig in m && repl in m && orig != [] && repl != [] && Apart(orig, repl)
    requires ScratchPath(repl, uuid) !in m
    ensures var s := ScratchPath(repl, uuid);
      Apart(s, orig) && Apart(s, repl) && Parent(s) in m && IsDir(m[Parent(s)])
  {
    var s := ScratchPath(repl, uuid);
    if Under(s, orig) {
      AbsentHasNoDescendants(m, s, orig);
    }
  }

  /** Nothing exists inside a free path. */
  lemma FreeBelow(m: map<Path, Node>, s: Path)
    requires WF(m) && s !in m
    ensures forall q :: Under(s, q) ==> q !in m
  {
    forall q | Under(s, q) ensures q !in m {
      AbsentHasNoDescendants(m, s, q);
    }
  }

  /** Moving `src` onto the free place `dst` touches only those two subtrees. */
  lemma MoveElsewhere(m: map<Path, Node>, src: Path, dst: Path, p: Path)
    requires !Under(src, p) && !Under(dst, p)
    ensures Get(Move(m, src, dst), p) == Get(m, p)
  {
    GetMove(m, src, dst, p);
  }

  /** Reading a moved node at its new place. */
  lemma MoveInto(m: map<Path, Node>, src: Path, dst: Path, rel: Path)
    ensures Get(Move(m, src, dst), dst + rel) == Get(m, src + rel)
  {
    UnderAppend(dst, rel);
    GetMove(m, src, dst, dst + rel);
  }

  /** The first two moves of the manual strategy: the original parked at the scratch path,
      the new item at the original path. */
  lemma ManualFirstMoves(fs: FS, orig: Path, repl: Path, s: Path)
    requires WF(fs.nodes) && orig in fs.nodes && repl in fs.nodes && orig != [] && repl != []
    requires Apart(orig, repl) && Typed(fs.nodes, orig) && Typed(fs.nodes, repl)
    requires s !in fs.nodes && s != [] && Apart(s, orig) && Apart(s, repl) && Parent(s) in fs.nodes && IsDir(fs.nodes[Parent(s)])
    ensures var m2 := Move(fs.nodes, orig, s);
      && MoveItem(fs, orig, s) == Done(fs.(nodes := m2))
      && MoveItem(fs.(nodes := m2), repl, orig) == Done(fs.(nodes := Move(m2, repl, orig)))
      && WF(Move(m2, repl, orig))
  {
    MoveItemActsAsRename(fs, orig, s);
    var m2 := Move(fs.nodes, orig, s);
    ParkedOriginal(fs.nodes, orig, repl, s);
    MoveItemActsAsRename(fs.(nodes := m2), repl, orig);
    MovePreservesWF(m2, repl, orig);
  }

  /** Once the original is parked at the scratch path, the new item can move onto it. */
  lemma ParkedOriginal(m: map<Path, Node>, orig: Path, repl: Path, s: Path)
    requires WF(m) && orig in m && repl in m && orig != [] && repl != []
    requires Apart(orig, repl) && Typed(m, repl)
    requires s !in m && s != [] && Apart(s, orig) && Apart(s, repl) && Parent(s) in m && IsDir(m[Parent(s)])
    ensures CanPlace(Move(m, orig, s), repl, orig) && Typed(Move(m, orig, s), repl)
  {
    var m2 := Move(m, orig, s);
    MovePreservesWF(m, orig, s);
    MoveElsewhere(m, orig, s, repl);
    assert Under(orig, orig) by { assert orig[..|orig|] == orig; }
    GetMove(m, orig, s, orig);
    MoveElsewhere(m, orig, s, Parent(orig));
    forall q | q in m2 && Under(repl, q) ensures FromMode(m2[q].mode).Some? {
      ApartDescendant(repl, orig, q);
      ApartDescendant(repl, s, q);
      MoveElsewhere(m, orig, s, q);
    }
    if Under(s, Parent(orig)) {
      UnderParent(orig, s);
    }
  }

  /** After the first two moves, the scratch path holds the original's subtree. */
  lemma ParkedPoint(m1: map<Path, Node>, orig: Path, repl: Path, s: Path, rel: Path)
    requires Apart(s, orig) && Apart(s, repl)
    ensures Get(Move(Move(m1, orig, s), repl, orig), s + rel) == Get(m1, orig + rel)
  {
    UnderAppend(s, rel);
    ApartDescendant(s, repl, s + rel);
    ApartDescendant(s, orig, s + rel);
    MoveElsewhere(Move(m1, orig, s), repl, orig, s + rel);
    MoveInto(m1, orig, s, rel);
  }

  lemma ParkedRoot(m1: map<Path, Node>, orig: Path, repl: Path, s: Path)
    requires Apart(s, orig) && Apart(s, repl)
    ensures Get(Move(Move(m1, orig, s), repl, orig), s) == Get(m1, orig)
  {
    ParkedPoint(m1, orig, repl, s, []);
    assert s + [] == s && orig + [] == orig;
  }

  lemma ParkedTyped(m1: map<Path, Node>, orig: Path, repl: Path, s: Path)
    requires Apart(s, orig) && Apart(s, repl) && Typed(m1, orig)
    ensures Typed(Move(Move(m1, orig, s), repl, orig), s)
  {
    var m3 := Move(Move(m1, orig, s), repl, orig);
    forall q | q in m3 && Under(s, q) ensures FromMode(m3[q].mode).Some? {
      UnderSplit(s, q);
      ParkedPoint(m1, orig, repl, s, q[|s|..]);
      UnderAppend(orig, q[|s|..]);
    }
  }

  /** The pointwise view of the manual strategy when the backup is kept. */
  lemma ManualKeptPoint(m1: map<Path, Node>, orig: Path, repl: Path, s: Path, p: Path)
    requires Apart(orig, repl) && Apart(s, orig) && Apart(s, repl)
    requires forall q :: Under(s, q) ==> q !in m1
    ensures Get(Move(Move(Move(m1, orig, s), repl, orig), s, repl), p) == SwappedGet(m1, repl, orig, p)
  {
    var m2 := Move(m1, orig, s);
    var m3 := Move(m2, repl, orig);
    GetMove(m3, s, repl, p);
    if Under(repl, p) {
      ApartDescendant(repl, orig, p);
      ParkedPoint(m1, orig, repl, s, p[|repl|..]);
    } else if Under(s, p) {
      ApartDescendant(s, orig, p);
    } else if Under(orig, p) {
      MoveInto(m2, repl, orig, p[|orig|..]);
      UnderSplit(orig, p);
      UnderAppend(repl, p[|orig|..]);
      ApartDescendant(repl, s, repl + p[|orig|..]);
      ApartDescendant(repl, orig, repl + p[|orig|..]);
      MoveElsewhere(m1, orig, s, repl + p[|orig|..]);
    } else {
      MoveElsewhere(m2, repl, orig, p);
      MoveElsewhere(m1, orig, s, p);
    }
  }

  lemma ManualKeptEnd(m1: map<Path, Node>, orig: Path, repl: Path, s: Path)
    requires Apart(orig, repl) && Apart(s, orig) && Apart(s, repl)
    requires forall q :: Under(s, q) ==> q !in m1
    ensures Move(Move(Move(m1, orig, s), repl, orig), s, repl) == Swap(m1, repl, orig)
  {
    var m4 := Move(Move(Move(m1, orig, s), repl, orig), s, repl);
    forall p ensures Get(m4, p) == Get(Swap(m1, repl, orig), p) {
      ManualKeptPoint(m1, orig, repl, s, p);
      GetSwap(m1, repl, orig, p);
    }
    MapsEqual(m4, Swap(m1, repl, orig));
  }

  /** The pointwise view of the manual strategy when the backup is dropped. */
  lemma ManualRemovedPoint(m1: map<Path, Node>, orig: Path, repl: Path, s: Path, p: Path)
    requires Apart(orig, repl) && Apart(s, orig) && Apart(s, repl)
    requires forall q :: Under(s, q) ==> q !in m1
    ensures Get(Prune(Move(Move(m1, orig, s), repl, orig), s), p) == MovedGet(m1, repl, orig, p)
  {
    var m2 := Move(m1, orig, s);
    GetMove(m2, repl, orig, p);
    if Under(orig, p) {
      ApartDescendant(orig, s, p);
      UnderAppend(repl, p[|orig|..]);
      ApartDescendant(repl, s, repl + p[|orig|..]);
      ApartDescendant(repl, orig, repl + p[|orig|..]);
      MoveElsewhere(m1, orig, s, repl + p[|orig|..]);
    } else if !Under(s, p) && !Under(repl, p) {
      MoveElsewhere(m1, orig, s, p);
    }
  }

  lemma ManualRemovedEnd(m1: map<Path, Node>, orig: Path, repl: Path, s: Path)
    requires Apart(orig, repl) && Apart(s, orig) && Apart(s, repl)
    requires forall q :: Under(s, q) ==> q !in m1
    ensures Prune(Move(Move(m1, orig, s), repl, orig), s) == Move(m1, repl, orig)
  {
    var r := Prune(Move(Move(m1, orig, s), repl, orig), s);
    forall p ensures Get(r, p) == Get(Move(m1, repl, orig), p) {
      ManualRemovedPoint(m1, orig, repl, s, p);
      GetMoveIsMovedGet(m1, repl, orig, p);
    }
    MapsEqual(r, Move(m1, repl, orig));
  }

  /** Before the last move of the kept-backup branch, the parked original may be moved to the
      new path, which the second move left free. */
  lemma LastMovePre(m1: map<Path, Node>, orig: Path, repl: Path, s: Path)
    requires WF(Move(Move(m1, orig, s), repl, orig)) && orig in m1 && repl != [] && s != []
    requires Apart(orig, repl) && Apart(s, orig) && Apart(s, repl)
    requires Parent(repl) in m1 && IsDir(m1[Parent(repl)]) && Parent(s) == Parent(repl)
    requires Typed(m1, orig)
    ensures CanPlace(Move(Move(m1, orig, s), repl, orig), s, repl)
    ensures Typed(Move(Move(m1, orig, s), repl, orig), s)
  {
    var m2 := Move(m1, orig, s);
    ParkedRoot(m1, orig, repl, s);
    assert Under(repl, repl) by { assert repl[..|repl|] == repl; }
    GetMove(m2, repl, orig, repl);
    if Under(orig, Parent(repl)) {
      UnderParent(repl, orig);
    }
    MoveElsewhere(m1, orig, s, Parent(repl));
    MoveElsewhere(m2, repl, orig, Parent(repl));
    ParkedTyped(m1, orig, repl, s);
  }

  /** The metadata step and the first two moves of the manual strategy, with what the last
      step needs to know of the state they leave. */
  lemma ManualSetup(fs: FS, orig: Path, repl: Path, options: Options, uuid: string)
    requires ReplacePre(fs, orig, repl) && ScratchPath(repl, uuid) !in fs.nodes
    ensures var m1 := Prepared(fs.nodes, orig, repl, options);
      var s := ScratchPath(repl, uuid);
      && (if !options.UsingNewMetadataOnly() then CopyMetadata(fs, orig, repl, false, true) else Done(fs)) == Done(fs.(nodes := m1))
      && MoveItem(fs.(nodes := m1), orig, s) == Done(fs.(nodes := Move(m1, orig, s)))
      && MoveItem(fs.(nodes := Move(m1, orig, s)), repl, orig) == Done(fs.(nodes := Move(Move(m1, orig, s), repl, orig)))
      && WF(Move(Move(m1, orig, s), repl, orig)) && orig in m1 && repl != [] && s != []
      && Apart(orig, repl) && Apart(s, orig) && Apart(s, repl)
      && Parent(repl) in m1 && IsDir(m1[Parent(repl)]) && Parent(s) == Parent(repl)
      && Typed(m1, orig) && forall q :: Under(s, q) ==> q !in m1
  {
    var s := ScratchPath(repl, uuid);
    PrepareStep(fs, orig, repl, options);
    var m1 := Prepared(fs.nodes, orig, repl, options);
    ScratchApart(m1, orig, repl, uuid);
    ManualFirstMoves(fs.(nodes := m1), orig, repl, s);
    FreeBelow(m1, s);
  }

  /** The last step of the manual strategy reaches the promised state. */
  lemma ManualLastStep(fs: FS, orig: Path, repl: Path, options: Options, uuid: string)
    requires ReplacePre(fs, orig, repl) && ScratchPath(repl, uuid) !in fs.nodes
    ensures var m1 := Prepared(fs.nodes, orig, repl, options);
      var s := ScratchPath(repl, uuid);
      var fs3 := fs.(nodes := Move(Move(m1, orig, s), repl, orig));
      (if options.WithoutDeletingBackupItem() then MoveItem(fs3, s, repl) else RemoveItem(fs3, s, true))
        == Done(fs.(nodes := Planned(fs.nodes, orig, repl, options)))
  {
    var s := ScratchPath(repl, uuid);
    var m1 := Prepared(fs.nodes, orig, repl, options);
    ManualSetup(fs, orig, repl, options, uuid);
    if options.WithoutDeletingBackupItem() {
      ManualKeptLast(fs, m1, orig, repl, s);
    } else {
      ManualRemovedLast(fs, m1, orig, repl, s);
    }
  }

  /** Without a rename-swap, the manual dance ends in the same promised state, whatever the
      devices, as long as the scratch name is free. */
  lemma ManualReplaceEnds(fs: FS, orig: Path, repl: Path, options: Options, uuid: string)
    requires ReplacePre(fs, orig, repl) && ScratchPath(repl, uuid) !in fs.nodes
    ensures ManualReplace(fs, orig, repl, options, uuid) == Done(fs.(nodes := Planned(fs.nodes, orig, repl, options)))
  {
    ManualSetup(fs, orig, repl, options, uuid);
    ManualLastStep(fs, orig, repl, options, uuid);
  }

  /** The last step when the backup is kept: the parked original moves to the new path. */
  lemma ManualKeptLast(fs: FS, m1: map<Path, Node>, orig: Path, repl: Path, s: Path)
    requires WF(Move(Move(m1, orig, s), repl, orig)) && orig in m1 && repl != [] && s != []
    requires Apart(orig, repl) && Apart(s, orig) && Apart(s, repl)
    requires Parent(repl) in m1 && IsDir(m1[Parent(repl)]) && Parent(s) == Parent(repl)
    requires Typed(m1, orig) && forall q :: Under(s, q) ==> q !in m1
    ensures MoveItem(fs.(nodes := Move(Move(m1, orig, s), repl, orig)), s, repl) == Done(fs.(nodes := Swap(m1, repl, orig)))
  {
    LastMovePre(m1, orig, repl, s);
    MoveItemActsAsRename(fs.(nodes := Move(Move(m1, orig, s), repl, orig)), s, repl);
    ManualKeptEnd(m1, orig, repl, s);
  }

  /** The last step when the backup is dropped: the parked original is removed. */
  lemma ManualRemovedLast(fs: FS, m1: map<Path, Node>, orig: Path, repl: Path, s: Path)
    requires WF(Move(Move(m1, orig, s), repl, orig)) && orig in m1 && s != []
    requires Apart(orig, repl) && Apart(s, orig) && Apart(s, repl)
    requires Typed(m1, orig) && forall q :: Under(s, q) ==> q !in m1
    ensures RemoveItem(fs.(nodes := Move(Move(m1, orig, s), repl, orig)), s, true) == Done(fs.(nodes := Move(m1, repl, orig)))
  {
    var m3 := Move(Move(m1, orig, s), repl, orig);
    ParkedTyped(m1, orig, repl, s);
    ParkedRoot(m1, orig, repl, s);
    RemoveItemPrunes(fs.(nodes := m3), s);
    ManualRemovedEnd(m1, orig, repl, s);
  }

  /* ---------- the exchange strategy ---------- */

  /** The attributes the original path carries after `exchangeFiles`: the new item's alone, or
      the original's overlaid with the new item's. */
  function ExchangedAttrs(origAttrs: map<string, Bytes>, newAttrs: map<string, Bytes>, options: Options): (x: map<string, Bytes>)
    ensures options.UsingNewMetadataOnly() ==> x == newAttrs
    ensures !options.UsingNewMetadataOnly() ==> x.Keys == origAttrs.Keys + newAttrs.Keys
    ensures forall k :: k in newAttrs ==> k in x && x[k] == newAttrs[k]
  {
    if options.UsingNewMetadataOnly() then newAttrs else origAttrs + newAttrs
  }

  /** The attributes the new path keeps as the backup of the original after `exchangeFiles`:
      the original's, parked through the temporary file, when only the new metadata is
      wanted; otherwise what `copyMetadata`'s preserving swap leaves under the removal rule. */
  function ExchangeBackup(rule: RemovalRule, origAttrs: map<string, Bytes>, newAttrs: map<string, Bytes>, options: Options): (x: map<string, Bytes>)
    ensures rule == ByKey || options.UsingNewMetadataOnly() ==> x == origAttrs
    ensures x.Keys <= origAttrs.Keys && forall k :: k in x ==> x[k] == origAttrs[k]
  {
    if options.UsingNewMetadataOnly() then origAttrs else Backup(rule, newAttrs, origAttrs)
  }

  /** The state after the data exchange and the attribute step: the two paths keep their
      modes, trade their data, and the attributes are sorted out as the options ask. */
  function Exchanged(rule: RemovalRule, m: map<Path, Node>, orig: Path, repl: Path, options: Options): map<Path, Node>
    requires orig in m && repl in m
  {
    var origAttrs := m[orig].xattrs;
    var newAttrs := m[repl].xattrs;
    var backup := ExchangeBackup(rule, origAttrs, newAttrs, options);
    m[repl := m[repl].(content := m[orig].content, xattrs := if options.WithoutDeletingBackupItem() then backup else newAttrs)]
     [orig := m[orig].(content := m[repl].content, xattrs := ExchangedAttrs(origAttrs, newAttrs, options))]
  }

  /** The end state of `exchangeFiles`. */
  function PlannedExchange(rule: RemovalRule, m: map<Path, Node>, orig: Path, repl: Path, options: Options): map<Path, Node>
    requires orig in m && repl in m
  {
    var m2 := Exchanged(rule, m, orig, repl, options);
    if options.WithoutDeletingBackupItem() then m2 else m2 - {repl}
  }

  /** What `exchangeFiles` may assume: two distinct regular files on one device, neither of
      them the root (which is a directory on every volume) and, when the original's
      attributes must be parked, a free place for the temporary file. */
  ghost predicate ExchangePre(fs: FS, orig: Path, repl: Path, options: Options, temp: Path) {
    && orig in fs.nodes && repl in fs.nodes && orig != repl && orig != [] && repl != []
    && IsRegular(fs.nodes[orig]) && IsRegular(fs.nodes[repl]) && Device(fs, orig) == Device(fs, repl)
    && (options.UsingNewMetadataOnly() && options.WithoutDeletingBackupItem() ==>
          temp != [] && temp !in fs.nodes && Parent(temp) in fs.nodes && IsDir(fs.nodes[Parent(temp)]))
  }

  /** A regular file other than the root is unlinked by a remove, recursive or not. */
  lemma RemoveRegular(fs: FS, p: Path, recursively: bool)
    requires p in fs.nodes && p != [] && IsRegular(fs.nodes[p])
    ensures RemoveItem(fs, p, recursively) == Done(fs.(nodes := fs.nodes - {p}))
  {
    assert FromMode(fs.nodes[p].mode) == Some(Regular);
  }

  /** The kept-backup half of `usingNewMetadataOnly`: the three attribute copies through the
      temporary file, which is then removed again. */
  lemma ShuffleThroughTemporary(fs: FS, orig: Path, repl: Path, temp: Path)
    requires orig in fs.nodes && repl in fs.nodes && orig != repl
    requires temp != [] && temp !in fs.nodes && Parent(temp) in fs.nodes && IsDir(fs.nodes[Parent(temp)])
    ensures Mkstemp(fs, temp).Ok?
    ensures var m := fs.nodes;
      DiscardTemporary(ShuffleXattrs(Mkstemp(fs, temp).value, orig, repl, temp), temp)
        == Done(fs.(nodes := m[orig := m[orig].(xattrs := m[repl].xattrs)][repl := m[repl].(xattrs := m[orig].xattrs)]))
  {
    var m := fs.nodes;
    var fsT := Mkstemp(fs, temp).value;
    var t := TempFileNode.(xattrs := m[orig].xattrs);
    var m1 := m[temp := t];
    var m2 := m1[orig := m[orig].(xattrs := m[repl].xattrs)];
    var m3 := m2[repl := m[repl].(xattrs := m[orig].xattrs)];
    assert fsT == fs.(nodes := m[temp := TempFileNode]);
    assert fsT.nodes[temp := fsT.nodes[temp].(xattrs := m[orig].xattrs)] == m1;
    assert CopyXattrs(fsT, orig, temp) == Ok(fs.(nodes := m1));
    assert CopyXattrs(fs.(nodes := m1), repl, orig) == Ok(fs.(nodes := m2));
    assert CopyXattrs(fs.(nodes := m2), temp, repl) == Ok(fs.(nodes := m3));
    assert ShuffleXattrs(fsT, orig, repl, temp) == Done(fs.(nodes := m3));
    assert IsRegular(t);
    RemoveRegular(fs.(nodes := m3), temp, false);
    assert m3 - {temp} == m[orig := m[orig].(xattrs := m[repl].xattrs)][repl := m[repl].(xattrs := m[orig].xattrs)];
  }

  /** The `usingNewMetadataOnly` attribute step: the original gets the new item's attributes
      and, when the backup is kept, the new path gets the original's. */
  lemma NewMetadataOnlyStep(fs: FS, orig: Path, repl: Path, keepBackup: bool, temp: Path)
    requires orig in fs.nodes && repl in fs.nodes && orig != repl
    requires !IsDir(fs.nodes[orig]) && !IsDir(fs.nodes[repl])
    requires keepBackup ==> temp != [] && temp !in fs.nodes && Parent(temp) in fs.nodes && IsDir(fs.nodes[Parent(temp)])
    ensures var m := fs.nodes;
      var m' := m[orig := m[orig].(xattrs := m[repl].xattrs)];
      KeepNewMetadataOnly(fs, orig, repl, keepBackup, temp)
        == Done(fs.(nodes := if keepBackup then m'[repl := m[repl].(xattrs := m[orig].xattrs)] else m'))
  {
    if keepBackup {
      ShuffleThroughTemporary(fs, orig, repl, temp);
    }
  }

  /** Updating both paths twice keeps the later values only. */
  lemma UpdateBoth(m: map<Path, Node>, a: Path, b: Path, a1: Node, b1: Node, a2: Node, b2: Node)
    requires a != b
    ensures m[a := a1][b := b1][b := b2][a := a2] == m[a := a2][b := b2]
    ensures m[a := a1][b := b1][b := b2] == m[a := a1][b := b2]
  {
  }

  /** The `usingNewMetadataOnly` attribute step after the exchange. */
  lemma ExchangeNewOnlyStep(fs: FS, orig: Path, repl: Path, options: Options, temp: Path)
    requires ExchangePre(fs, orig, repl, options, temp) && options.UsingNewMetadataOnly()
    ensures var m := fs.nodes;
      var fs1 := fs.(nodes := m[repl := m[repl].(content := m[orig].content)][orig := m[orig].(content := m[repl].content)]);
      KeepNewMetadataOnly(fs1, orig, repl, options.WithoutDeletingBackupItem(), temp)
        == Done(fs.(nodes := Exchanged(ByKey, m, orig, repl, options)))
  {
    var m := fs.nodes;
    var ra := m[repl].(content := m[orig].content);
    var ob := m[orig].(content := m[repl].content);
    var fs1 := fs.(nodes := m[repl := ra][orig := ob]);
    var keep := options.WithoutDeletingBackupItem();
    NewMetadataOnlyStep(fs1, orig, repl, keep, temp);
    UpdateBoth(m, repl, orig, ra, ob, ra.(xattrs := m[orig].xattrs), ob.(xattrs := m[repl].xattrs));
    UpdateBoth(m, repl, orig, ra, ob, ra, ob.(xattrs := m[repl].xattrs));
  }

  /** The merging attribute step after the exchange. */
  lemma ExchangeMergeStep(rule: RemovalRule, fs: FS, orig: Path, repl: Path, options: Options, temp: Path)
    requires ExchangePre(fs, orig, repl, options, temp) && !options.UsingNewMetadataOnly()
    ensures var m := fs.nodes;
      var fs1 := fs.(nodes := m[repl := m[repl].(content := m[orig].content)][orig := m[orig].(content := m[repl].content)]);
      CopyMetadataUsing(rule, fs1, repl, orig, true, options.WithoutDeletingBackupItem())
        == Done(fs.(nodes := Exchanged(rule, m, orig, repl, options)))
  {
    var m := fs.nodes;
    var ra := m[repl].(content := m[orig].content);
    var ob := m[orig].(content := m[repl].content);
    var fs1 := fs.(nodes := m[repl := ra][orig := ob]);
    var keep := options.WithoutDeletingBackupItem();
    CopyMetadataSwaps(rule, fs1, repl, orig, keep);
    var backup := Backup(rule, m[repl].xattrs, m[orig].xattrs);
    UpdateBoth(m, repl, orig, ra, ob, ra.(xattrs := backup), ob.(xattrs := m[orig].xattrs + m[repl].xattrs));
    UpdateBoth(m, repl, orig, ra, ob, ra, ob.(xattrs := m[orig].xattrs + m[repl].xattrs));
  }

  /** With `exchangedata` and no rename-swap, two regular files end in the exchanged state,
      the new path removed unless the backup is kept. */
  lemma ExchangeReplaceEnds(rule: RemovalRule, fs: FS, orig: Path, repl: Path, options: Options, temp: Path)
    requires ExchangePre(fs, orig, repl, options, temp)
    ensures ExchangeReplace(rule, fs, orig, repl, options, temp)
            == Done(fs.(nodes := PlannedExchange(rule, fs.nodes, orig, repl, options)))
  {
    var m := fs.nodes;
    var m1 := m[repl := m[repl].(content := m[orig].content)][orig := m[orig].(content := m[repl].content)];
    assert Call(fs, ExchangeData(fs, repl, orig), Some(orig)) == Done(fs.(nodes := m1));
    if options.UsingNewMetadataOnly() {
      ExchangeNewOnlyStep(fs, orig, repl, options, temp);
      assert Exchanged(rule, m, orig, repl, options) == Exchanged(ByKey, m, orig, repl, options);
    } else {
      ExchangeMergeStep(rule, fs, orig, repl, options, temp);
    }
    var m2 := Exchanged(rule, m, orig, repl, options);
    if !options.WithoutDeletingBackupItem() {
      RemoveRegular(fs.(nodes := m2), repl, true);
    }
    ExchangeSteps(rule, fs, orig, repl, options, temp);
  }

  /** The step structure of `exchangeFiles`: the data exchange, the attribute step, then the
      removal of the backup unless it is kept. */
  lemma ExchangeSteps(rule: RemovalRule, fs: FS, orig: Path, repl: Path, options: Options, temp: Path)
    requires orig in fs.nodes && repl in fs.nodes
    requires var m := fs.nodes;
      var fs1 := fs.(nodes := m[repl := m[repl].(content := m[orig].content)][orig := m[orig].(content := m[repl].content)]);
      && Call(fs, ExchangeData(fs, repl, orig), Some(orig)) == Done(fs1)
      && (if options.UsingNewMetadataOnly() then KeepNewMetadataOnly(fs1, orig, repl, options.WithoutDeletingBackupItem(), temp)
          else CopyMetadataUsing(rule, fs1, repl, orig, true, options.WithoutDeletingBackupItem()))
         == Done(fs.(nodes := Exchanged(rule, m, orig, repl, options)))
    requires var fs2 := fs.(nodes := Exchanged(rule, fs.nodes, orig, repl, options));
      !options.WithoutDeletingBackupItem() ==> RemoveItem(fs2, repl, true) == Done(fs2.(nodes := fs2.nodes - {repl}))
    ensures ExchangeReplace(rule, fs, orig, repl, options, temp)
            == Done(fs.(nodes := PlannedExchange(rule, fs.nodes, orig, repl, options)))
  {
  }

  /** `exchangedata` takes regular files only: a directory on either side makes the strategy
      fail before anything changes. */
  lemma ExchangeRejectsDirectories(rule: RemovalRule, fs: FS, orig: Path, repl: Path, options: Options, temp: Path)
    requires orig in fs.nodes && repl in fs.nodes && (IsDir(fs.nodes[orig]) || IsDir(fs.nodes[repl]))
    ensures ExchangeReplace(rule, fs, orig, repl, options, temp) == Failed(fs, Error(EINVAL, Some(orig)))
  {
  }

  /* ---------- what the strategies agree on ---------- */

  /** What a reader of a path sees through the file's data and attributes. */
  datatype Observation = Observation(content: Bytes, xattrs: map<string, Bytes>)

  function Observed(m: map<Path, Node>): (v: map<Path, Observation>)
    ensures v.Keys == m.Keys
    ensures forall p :: p in m ==> v[p] == Observation(m[p].content, m[p].xattrs)
  {
    map p | p in m :: Observation(m[p].content, m[p].xattrs)
  }

  function ObservedAt(m: map<Path, Node>, p: Path): Option<Observation> {
    if p in m then Some(Observation(m[p].content, m[p].xattrs)) else None
  }

  lemma ObservedEqual(a: map<Path, Node>, b: map<Path, Node>)
    requires forall p :: ObservedAt(a, p) == ObservedAt(b, p)
    ensures Observed(a) == Observed(b)
  {
    assert forall p :: p in a <==> ObservedAt(a, p).Some?;
    assert a.Keys == b.Keys;
  }

  /** Pointwise view of the exchange strategy's end state. */
  lemma PlannedExchangeView(rule: RemovalRule, m: map<Path, Node>, orig: Path, repl: Path, options: Options, p: Path)
    requires orig in m && repl in m && orig != repl
    ensures ObservedAt(PlannedExchange(rule, m, orig, repl, options), p) ==
      if p == orig then Some(Observation(m[repl].content, ExchangedAttrs(m[orig].xattrs, m[repl].xattrs, options)))
      else if p == repl then
        if options.WithoutDeletingBackupItem() then
          Some(Observation(m[orig].content, ExchangeBackup(rule, m[orig].xattrs, m[repl].xattrs, options)))
        else None
      else ObservedAt(m, p)
  {
  }

  /** As written, the backup `exchangeFiles` keeps at the new path after merging attributes is
      the original's attributes exactly when no key the two files share carries different
      data; otherwise every conflicting key is missing from it. */
  lemma ExchangeBackupExactIffAgree(m: map<Path, Node>, orig: Path, repl: Path, options: Options)
    requires orig in m && repl in m && orig != repl
    requires options.WithoutDeletingBackupItem() && !options.UsingNewMetadataOnly()
    ensures var backup := PlannedExchange(WholeElements, m, orig, repl, options)[repl].xattrs;
      && (backup == m[orig].xattrs <==> KeysAgree(m[orig].xattrs, m[repl].xattrs))
      && forall k :: k in m[orig].xattrs && k in m[repl].xattrs && m[orig].xattrs[k] != m[repl].xattrs[k] ==> k !in backup
    ensures PlannedExchange(ByKey, m, orig, repl, options)[repl].xattrs == m[orig].xattrs
  {
    var a := m[orig].xattrs;
    var b := m[repl].xattrs;
    BackupExactIffAgree(b, a);
    assert KeysAgree(b, a) <==> KeysAgree(a, b);
  }

  /** Pointwise view of the whole-subtree strategies' end state when both items are regular
      files (which have nothing below them). */
  lemma PlannedRegularView(m: map<Path, Node>, orig: Path, repl: Path, options: Options, p: Path)
    requires WF(m) && orig in m && repl in m && Apart(orig, repl)
    requires IsRegular(m[orig]) && IsRegular(m[repl])
    ensures ObservedAt(Planned(m, orig, repl, options), p) ==
      if p == orig then Some(Observation(m[repl].content, ReplacedAttrs(m, orig, repl, options)))
      else if p == repl then
        if options.WithoutDeletingBackupItem() then Some(Observation(m[orig].content, m[orig].xattrs)) else None
      else ObservedAt(m, p)
  {
    PlannedView(m, orig, repl, options, p);
    if Under(orig, p) && p != orig {
      UnderSplit(orig, p);
      UnderAppend(repl, p[|orig|..]);
      NonDirHasNoDescendants(m, repl, repl + p[|orig|..]);
      NonDirHasNoDescendants(m, orig, p);
    } else if Under(repl, p) && p != repl {
      UnderSplit(repl, p);
      UnderAppend(orig, p[|repl|..]);
      NonDirHasNoDescendants(m, orig, orig + p[|repl|..]);
      NonDirHasNoDescendants(m, repl, p);
    } else if p == repl {
      assert Under(repl, p) && p[|repl|..] == [];
      assert orig + p[|repl|..] == orig;
    } else if p == orig {
      assert Under(orig, p);
    }
  }

  /** Under the agreement condition, both strategies give the original path the same
      attributes. */
  lemma AttrsAgree(m: map<Path, Node>, orig: Path, repl: Path, options: Options)
    requires orig in m && repl in m
    requires options.UsingNewMetadataOnly() || KeysAgree(m[orig].xattrs, m[repl].xattrs)
    ensures ReplacedAttrs(m, orig, repl, options) == ExchangedAttrs(m[orig].xattrs, m[repl].xattrs, options)
  {
  }

  /** For two regular files whose attributes do not conflict (or when only the new ones are
      kept), the exchange strategy and the other two leave the same data and attributes at
      every path; only the original path's mode differs, which `exchangedata` leaves alone. */
  lemma StrategiesAgree(rule: RemovalRule, m: map<Path, Node>, orig: Path, repl: Path, options: Options)
    requires WF(m) && orig in m && repl in m && Apart(orig, repl)
    requires IsRegular(m[orig]) && IsRegular(m[repl])
    requires options.UsingNewMetadataOnly() || KeysAgree(m[orig].xattrs, m[repl].xattrs)
    ensures Observed(Planned(m, orig, repl, options)) == Observed(PlannedExchange(rule, m, orig, repl, options))
  {
    AttrsAgree(m, orig, repl, options);
    BackupAgrees(rule, m[orig].xattrs, m[repl].xattrs, options);
    forall p ensures ObservedAt(Planned(m, orig, repl, options), p) == ObservedAt(PlannedExchange(rule, m, orig, repl, options), p) {
      PlannedRegularView(m, orig, repl, options, p);
      PlannedExchangeView(rule, m, orig, repl, options, p);
    }
    ObservedEqual(Planned(m, orig, repl, options), PlannedExchange(rule, m, orig, repl, options));
  }

  /** Under the agreement condition, either removal rule leaves the original's attributes
      as the backup. */
  lemma BackupAgrees(rule: RemovalRule, origAttrs: map<string, Bytes>, newAttrs: map<string, Bytes>, options: Options)
    requires options.UsingNewMetadataOnly() || KeysAgree(origAttrs, newAttrs)
    ensures ExchangeBackup(rule, origAttrs, newAttrs, options) == origAttrs
  {
    if !options.UsingNewMetadataOnly() {
      BackupExactIffAgree(newAttrs, origAttrs);
    }
  }

  /* ---------- the public entry point ---------- */

  /** The strategy `replaceItem` picks for two existing items. */
  function StrategyFor(fs: FS, orig: Path, repl: Path): Strategy {
    ChooseStrategy(VolumeOf(fs, orig).uuid, VolumeOf(fs, repl).uuid, VolumeOf(fs, orig).capabilities)
  }

  /** `replaceItem` ends in the promised state of the strategy the volumes select: the
      whole-subtree state for rename-swap and for the manual dance (given a free scratch
      name), the exchanged state for `exchangedata` on two regular files (given a free place
      for the temporary file). */
  lemma ReplaceItemEnds(rule: RemovalRule, fs: FS, orig: Path, repl: Path, options: Options, oracle: Oracle)
    requires ReplacePre(fs, orig, repl) && UuidsIdentifyDevices(fs)
    requires StrategyFor(fs, orig, repl) == ManualStrategy ==> ScratchPath(repl, oracle.uuid) !in fs.nodes
    requires StrategyFor(fs, orig, repl) == ExchangeStrategy ==>
      ExchangePre(fs, orig, repl, options, oracle.temporaryFile)
    ensures StrategyFor(fs, orig, repl) != ExchangeStrategy ==>
      ReplaceItem(rule, fs, orig, repl, options, oracle) == Done(fs.(nodes := Planned(fs.nodes, orig, repl, options)))
    ensures StrategyFor(fs, orig, repl) == ExchangeStrategy ==>
      ReplaceItem(rule, fs, orig, repl, options, oracle) == Done(fs.(nodes := PlannedExchange(rule, fs.nodes, orig, repl, options)))
  {
    match StrategyFor(fs, orig, repl)
    case RenameSwapStrategy =>
      NativeStrategyOnOneDevice(fs, orig, repl);
      RenameSwapReplaceEnds(fs, orig, repl, options);
    case ExchangeStrategy =>
      ExchangeReplaceEnds(rule, fs, orig, repl, options, oracle.temporaryFile);
    case ManualStrategy =>
      ManualReplaceEnds(fs, orig, repl, options, oracle.uuid);
  }

  /** On a volume that offers `exchangedata` but no rename-swap, replacing a directory (or
      replacing with one) fails with `EINVAL` and changes nothing. */
  lemma ReplaceItemExchangeRejectsDirectories(rule: RemovalRule, fs: FS, orig: Path, repl: Path, options: Options, oracle: Oracle)
    requires orig in fs.nodes && repl in fs.nodes && (IsDir(fs.nodes[orig]) || IsDir(fs.nodes[repl]))
    requires StrategyFor(fs, orig, repl) == ExchangeStrategy
    ensures ReplaceItem(rule, fs, orig, repl, options, oracle) == Failed(fs, Error(EINVAL, Some(orig)))
  {
    ExchangeRejectsDirectories(rule, fs, orig, repl, options, oracle.temporaryFile);
  }
}

=== FILE: temppaths.dfy ===
/** Temporary locations: the temporary directory, temporary-file templates, string paths and
    the directory an item replacement is staged in. */
module TempPaths {
  import opened Wrappers
  import opened FileTypes
  import opened FileSystem
  import opened Items

  /* ---------- string paths ---------- */

  /** The position of the first `/` at or after `i`, or the end of `s`. */
  function NameEnd(s: string, i: nat): (k: nat)
    requires i <= |s|
    ensures i <= k <= |s|
    ensures forall j :: i <= j < k ==> s[j] != '/'
    ensures k < |s| ==> s[k] == '/'
    decreases |s| - i
  {
    if i == |s| || s[i] == '/' then i else NameEnd(s, i + 1)
  }

  /** A path string split into its components, as `FilePath` parses it: separators are
      dropped, and so are the empty components that repeated or trailing slashes give. */
  function Components(s: string): (p: Path)
    ensures forall i :: 0 <= i < |p| ==> ValidName(p[i])
    decreases |s|
  {
    if s == [] then []
    else if s[0] == '/' then Components(s[1..])
    else
      var k := NameEnd(s, 0);
      [s[..k]] + Components(s[k..])
  }

  /** A component: non-empty and free of separators. */
  predicate ValidName(n: Name) {
    n != "" && forall j :: 0 <= j < |n| ==> n[j] != '/'
  }

  /** The absolute string of a path: `/` for the root, otherwise each component after a `/`. */
  function PathString(p: Path): (s: string)
    ensures |s| > 0 && s[0] == '/'
  {
    if p == [] then "/" else JoinComponents(p)
  }

  function JoinComponents(p: Path): (s: string)
    ensures p != [] ==> |s| > 0 && s[0] == '/'
  {
    if p == [] then "" else "/" + p[0] + JoinComponents(p[1..])
  }

  /** Parsing inverts printing: every path of valid components survives the trip through its
      string. */
  lemma {:induction false} ComponentsOfPathString(p: Path)
    requires forall i :: 0 <= i < |p| ==> ValidName(p[i])
    ensures Components(PathString(p)) == p
  {
    if p != [] {
      ComponentsOfJoin(p);
    }
  }

  lemma {:induction false} ComponentsOfJoin(p: Path)
    requires forall i :: 0 <= i < |p| ==> ValidName(p[i])
    ensures Components(JoinComponents(p)) == p
  {
    if p != [] {
      var n := p[0];
      var rest := JoinComponents(p[1..]);
      var s := "/" + n + rest;
      assert s[1..] == n + rest;
      NameEndOfName(n, rest, 0);
      assert (n + rest)[..|n|] == n && (n + rest)[|n|..] == rest;
      ComponentsOfJoin(p[1..]);
      assert [n] + p[1..] == p;
    }
  }

  /** A valid name followed by a separator (or by nothing) ends where the name does. */
  lemma {:induction false} NameEndOfName(n: Name, rest: string, i: nat)
    requires ValidName(n) && (rest == [] || rest[0] == '/') && i <= |n|
    ensures NameEnd(n + rest, i) == |n|
    decreases |n| - i
  {
    if i < |n| {
      assert (n + rest)[i] == n[i];
      NameEndOfName(n, rest, i + 1);
    } else if rest != [] {
      assert (n + rest)[i] == rest[0];
    }
  }

  /* ---------- the temporary directory ---------- */

  const DEFAULT_TMPDIR: string := "/tmp"

  /** `temporaryDirectoryStringPath`: the value of `TMPDIR` whenever the variable is set, even
      to the empty string; `/tmp` only when it is unset. */
  function TemporaryDirectoryStringPath(tmpdir: Option<string>): (s: string)
    ensures tmpdir.Some? ==> s == tmpdir.value
    ensures tmpdir.None? ==> s == DEFAULT_TMPDIR
  {
    tmpdir.GetOr(DEFAULT_TMPDIR)
  }

  /** A set but empty `TMPDIR` is not replaced by the default. */
  lemma EmptyTmpdirKept()
    ensures TemporaryDirectoryStringPath(Some("")) == ""
    ensures TemporaryDirectoryStringPath(None) == "/tmp"
  {
  }

  /** `temporaryDirectory`: the same string as a path. */
  function TemporaryDirectory(tmpdir: Option<string>): (p: Path)
    ensures forall i :: 0 <= i < |p| ==> ValidName(p[i])
  {
    Components(TemporaryDirectoryStringPath(tmpdir))
  }

  /* ---------- temporary-file templates ---------- */

  /** Thirty-two `X`s, all of which `mkstemp` replaces. */
  const DEFAULT_TEMPLATE: string := "XXXXXXXXXXXXXXXXXXXXXXXXXXXXXXXX"

  lemma DefaultTemplateShape()
    ensures |DEFAULT_TEMPLATE| == 32
    ensures forall i :: 0 <= i < |DEFAULT_TEMPLATE| ==> DEFAULT_TEMPLATE[i] == 'X'
  {
  }

  /** The directory string with a slash appended unless it already ends in one (so the
      empty string becomes `/`). */
  function WithTrailingSlash(dir: string): (r: string)
    ensures |r| > 0 && r[|r| - 1] == '/'
    ensures |dir| <= |r| && r[..|dir|] == dir
    ensures r == dir <==> |dir| > 0 && dir[|dir| - 1] == '/'
    ensures r != dir ==> r == dir + "/"
  {
    if |dir| > 0 && dir[|dir| - 1] == '/' then dir else dir + "/"
  }

  lemma WithTrailingSlashIdempotent(dir: string)
    ensures WithTrailingSlash(WithTrailingSlash(dir)) == WithTrailingSlash(dir)
  {
  }

  /** `createTemporaryFileWithStringPath`'s template: the directory (the temporary directory
      by default) with a trailing slash, then the template (thirty-two `X`s by default). */
  function TemplatePath(directory: Option<string>, template: Option<string>, tmpdir: Option<string>): (t: string)
    ensures var dir := WithTrailingSlash(directory.GetOr(TemporaryDirectoryStringPath(tmpdir)));
      |dir| <= |t| && t[..|dir|] == dir && t[|dir|..] == template.GetOr(DEFAULT_TEMPLATE)
  {
    var dir := WithTrailingSlash(directory.GetOr(TemporaryDirectoryStringPath(tmpdir)));
    var t := dir + template.GetOr(DEFAULT_TEMPLATE);
    assert t[..|dir|] == dir && t[|dir|..] == template.GetOr(DEFAULT_TEMPLATE);
    t
  }

  /** The start of the run of `X`s that ends at position `end`. */
  function XRunStart(t: string, end: nat): (k: nat)
    requires end <= |t|
    ensures k <= end
    ensures forall i :: k <= i < end ==> t[i] == 'X'
    ensures k == 0 || t[k - 1] != 'X'
    decreases end
  {
    if end == 0 || t[end - 1] != 'X' then end else XRunStart(t, end - 1)
  }

  /** The name `mkstemps(path, suffixLen)` tries: the run of `X`s just before the suffix
      replaced by the oracle's characters, everything else kept. */
  function Filled(t: string, suffixLen: nat, random: string): (r: string)
    requires suffixLen <= |t| && |random| == |t|
    ensures |r| == |t|
    ensures forall i :: 0 <= i < |t| ==>
      r[i] == if XRunStart(t, |t| - suffixLen) <= i < |t| - suffixLen then random[i] else t[i]
  {
    var k := XRunStart(t, |t| - suffixLen);
    seq(|t|, i requires 0 <= i < |t| => if k <= i < |t| - suffixLen then random[i] else t[i])
  }

  /** The replacement loop of `mkstemps`, walking back from the suffix while it sees `X`s. */
  method FillTemplate(t: string, suffixLen: nat, random: string) returns (r: string)
    requires suffixLen <= |t| && |random| == |t|
    ensures r == Filled(t, suffixLen, random)
  {
    r := t;
    var i := |t| - suffixLen;
    while i > 0 && t[i - 1] == 'X'
      invariant 0 <= i <= |t| - suffixLen
      invariant XRunStart(t, |t| - suffixLen) == XRunStart(t, i)
      invariant |r| == |t|
      invariant forall j :: 0 <= j < |t| ==> r[j] == if i <= j < |t| - suffixLen then random[j] else t[j]
      decreases i
    {
      i := i - 1;
      r := r[i := random[i]];
    }
  }

  /** `createTemporaryFile(templatePath:suffix:)`: the suffix is appended to the template
      and `mkstemps` (or `mkstemp` without a suffix) creates the file at the filled-in name;
      its failure is thrown as `errno`. */
  function CreateTemporaryFile(fs: FS, templatePath: string, suffix: Option<string>, random: string): (r: Result<(FS, string), Errno>)
    requires |random| == |templatePath + suffix.GetOr("")|
    ensures r.Ok? ==>
      var name := Filled(templatePath + suffix.GetOr(""), |suffix.GetOr("")|, random);
      && r.value.1 == name
      && r.value.0 == fs.(nodes := fs.nodes[Components(name) := TempFileNode])
      && Components(name) !in fs.nodes
    ensures r.Err? ==> Mkstemp(fs, Components(Filled(templatePath + suffix.GetOr(""), |suffix.GetOr("")|, random))) == Err(r.error)
  {
    var path := templatePath + suffix.GetOr("");
    var name := Filled(path, |suffix.GetOr("")|, random);
    match Mkstemp(fs, Components(name))
    case Err(e) => Err(e)
    case Ok(fs') => Ok((fs', name))
  }

  /** The suffix survives the filling, and so does everything before the run of `X`s. */
  lemma FilledKeepsSuffix(templatePath: string, suffix: string, random: string)
    requires |random| == |templatePath + suffix|
    ensures var name := Filled(templatePath + suffix, |suffix|, random);
      name[|templatePath|..] == suffix
      && name[..XRunStart(templatePath + suffix, |templatePath|)] == templatePath[..XRunStart(templatePath + suffix, |templatePath|)]
  {
    var t := templatePath + suffix;
    var name := Filled(t, |suffix|, random);
    assert name[|templatePath|..] == suffix by {
      forall j | 0 <= j < |suffix| ensures name[|templatePath|..][j] == suffix[j] {
        assert name[|templatePath| + j] == t[|templatePath| + j];
      }
    }
  }

  /* ---------- the item-replacement directory ---------- */

  /** `generateItemReplacementDirectoryName`: a fixed prefix and a fresh UUID string. */
  function ReplacementDirectoryName(uuid: string): string {
    "CSFileManager_ItemReplacement_" + uuid
  }

  /** The volume UUID of an item, when the query succeeds and the volume reports one. */
  function VolumeUuid(fs: FS, p: Path): Option<Uuid> {
    match VolumeQuery(fs, p)
    case Ok(v) => v.uuid
    case Err(_) => None
  }

  /** The two items are known to live on different volumes. */
  predicate OnDifferentVolumes(fs: FS, a: Path, b: Path) {
    VolumeUuid(fs, a).Some? && VolumeUuid(fs, b).Some? && VolumeUuid(fs, a).value != VolumeUuid(fs, b).value
  }

  /** `getItemReplacementDirectory(for:)`: beside the destination when the destination is
      known to be on another volume than the temporary directory, otherwise inside the
      temporary directory. */
  function ItemReplacementDirectory(fs: FS, destination: Option<Path>, tempPath: Path, uuid: string): (dir: Path)
    ensures dir != [] && dir[|dir| - 1] == ReplacementDirectoryName(uuid)
    ensures destination.Some? && OnDifferentVolumes(fs, destination.value, tempPath) ==>
      Parent(dir) == RemovingLastComponent(FilePath(true, destination.value)).components
    ensures !(destination.Some? && OnDifferentVolumes(fs, destination.value, tempPath)) ==> Parent(dir) == tempPath
  {
    var name := ReplacementDirectoryName(uuid);
    var base := if destination.Some? && OnDifferentVolumes(fs, destination.value, tempPath)
                then RemovingLastComponent(FilePath(true, destination.value)).components else tempPath;
    assert Parent(base + [name]) == base;
    base + [name]
  }

  /** A missing or unreadable destination never moves the directory out of the temporary
      directory. */
  lemma MissingDestinationUsesTemporaryDirectory(fs: FS, destination: Option<Path>, tempPath: Path, uuid: string)
    requires destination.None? || destination.value !in fs.nodes || tempPath !in fs.nodes
    ensures ItemReplacementDirectory(fs, destination, tempPath, uuid) == tempPath + [ReplacementDirectoryName(uuid)]
  {
    var dir := ItemReplacementDirectory(fs, destination, tempPath, uuid);
    assert dir == Parent(dir) + [dir[|dir| - 1]];
  }

  /** `createItemReplacementDirectory(for:mode:)`: choose the directory, create it
      recursively and return its path. */
  function CreateItemReplacementDirectory(fs: FS, destination: Option<Path>, mode: Mode, tempPath: Path, uuid: string): (r: (Outcome, Path))
    ensures r.1 == ItemReplacementDirectory(fs, destination, tempPath, uuid)
    ensures r.0.Done? ==> r.1 in r.0.fs.nodes && IsDir(r.0.fs.nodes[r.1])
    ensures r.0.fs.mounts == fs.mounts
  {
    var dir := ItemReplacementDirectory(fs, destination, tempPath, uuid);
    (CreateDirectory(fs, dir, mode, true), dir)
  }

  /** With a fresh name and an existing parent directory, the only change is the new empty
      directory with the requested mode. */
  lemma CreateItemReplacementDirectoryAddsOne(fs: FS, destination: Option<Path>, mode: Mode, tempPath: Path, uuid: string)
    requires var dir := ItemReplacementDirectory(fs, destination, tempPath, uuid);
      dir !in fs.nodes && Parent(dir) in fs.nodes && IsDir(fs.nodes[Parent(dir)])
    ensures var dir := ItemReplacementDirectory(fs, destination, tempPath, uuid);
      CreateItemReplacementDirectory(fs, destination, mode, tempPath, uuid).0 == Done(fs.(nodes := fs.nodes[dir := DirNode(mode)]))
  {
    CreateLeaf(fs, ItemReplacementDirectory(fs, destination, tempPath, uuid), mode, true);
  }

  /** When the temporary directory itself is missing, every missing prefix is created too,
      each with the requested mode. */
  lemma CreateItemReplacementDirectoryMakesParents(fs: FS, destination: Option<Path>, mode: Mode, tempPath: Path, uuid: string)
    requires WF(fs.nodes)
    requires var dir := ItemReplacementDirectory(fs, destination, tempPath, uuid);
      dir !in fs.nodes && IsDir(fs.nodes[dir[..Deepest(fs.nodes, dir)]])
    ensures var dir := ItemReplacementDirectory(fs, destination, tempPath, uuid);
      CreateItemReplacementDirectory(fs, destination, mode, tempPath, uuid).0
        == Done(fs.(nodes := fs.nodes + NewDirs(dir, Deepest(fs.nodes, dir), mode)))
  {
    CreateDirectoryRecursively(fs, ItemReplacementDirectory(fs, destination, tempPath, uuid), mode);
  }
}

=== FILE: wrappers.dfy ===
/** Failure-compatible wrappers shared by the whole model. */
module Wrappers {

  /** An optional value, as Swift's `Optional`. */
  datatype Option<+T> = None | Some(value: T) {

    /** The wrapped value, or `default` when there is none (Swift's `??`). */
    function GetOr(default: T): T {
      match this
      case Some(v) => v
      case None => default
    }
  }

  /** The result of an atomic operation: a value or an error, never both. */
  datatype Result<+T, +E> = Ok(value: T) | Err(error: E) {

    predicate IsFailure() {
      Err?
    }

    function PropagateFailure<U>(): Result<U, E>
      requires Err?
    {
      Err(error)
    }

    function Extract(): T
      requires Ok?
    {
      value
    }
  }
}
